=== FILE: README.md ===
# Receipt extraction scripts, modelled in Dafny

The repository reads receipt images from Azure Blob Storage and extracts their content with several
services: Azure Document Intelligence, Mistral Document AI OCR, Azure OpenAI vision and Azure
Content Understanding. Its centre is a multi-agent workflow. A quality assessor routes each image to
one processor or to all three. Every processor normalises its answer into a
`ReceiptExtractionResult`. The `aggregate_results` executor then merges the results for each blob
into one receipt:

- it accumulates the results per blob and drops those tagged with an error;
- it scores each result by completeness, confidence and a source-priority tie-break;
- it ranks the results by a stable descending sort;
- it seeds the record from the best result and gap-fills missing fields from the lower-ranked ones;
- it deduplicates items by their lower-cased, stripped description;
- it records which source supplied each field and item.

This project models that core and the smaller pieces around it:

- the quality routing conditions;
- the request texts and how processors parse the blob name back out of them;
- the all-agents runner, with its accumulator reset and success and failure counters;
- the string helpers: content types, numeric cleaning, file-name sanitisers, storage prefixes;
- the blob-service caches;
- the Mistral OCR page combiner and its per-document bookkeeping;
- the load test's latency summary and retry state machine;
- the Content Understanding polling client;
- the Document Intelligence and image OCR scripts' counters and file names.

Modules, one per file:

| file | module | models |
|---|---|---|
| `wrappers.dfy` | `Wrappers` | `Option` |
| `text.dfy` | `Text` | the Python string operations the scripts use (`lower`, `strip`, `replace`, `split`, `find`, `os.path.splitext`, `os.path.basename`) |
| `receipt_model.dfy` | `ReceiptModel` | `ReceiptExtractionResult`, line items, Python truthiness of fields |
| `scoring.dfy` | `Scoring` | completeness, confidence, priority and final score |
| `ranking.dfy` | `Ranking` | the stable descending sort of `scored_results`, in place on an array |
| `merge.dfy` | `Merge` | `aggregate_results` as a function of the results received so far, and its properties |
| `aggregator.dfy` | `Aggregator` | the loops of `aggregate_results`, proved to compute `Merge.Aggregate`; the accumulator class |
| `routing.dfy` | `Routing` | `get_quality_condition`, the transformers' request texts, the processors' blob-name parse |
| `all_agents.dfy` | `AllAgents` | the dispatcher and the receipt loop of the all-agents runner |
| `workflow_utils.dfy` | `WorkflowUtils` | `resolve_content_type`, `extract_numeric_value`, `safe_filename` |
| `storage_utils.dfy` | `StorageUtils` | prefix normalisation, name resolution, client caches, prefix collection |
| `aoai_analysis.dfy` | `AoaiAnalysis` | the Azure OpenAI vision script |
| `pdfs_ocr.dfy` | `PdfsOcr` | the raw Mistral OCR script for PDFs |
| `images_ocr.dfy` | `ImagesOcr` | the Mistral OCR script for images |
| `load_test.dfy` | `LoadTest` | `compute_summary` and the synchronous retry loop of the load test |
| `content_understanding.dfy` | `ContentUnderstanding` | the Content Understanding client |
| `doc_intel.dfy` | `DocIntel` | the Document Intelligence receipt script |

The two files `scripts/agents/storage_utils.py` and `scripts/aoai/storage_utils.py` are identical.
The single module `StorageUtils` models both, and the table below cites one copy or the other.

Every external call becomes a parameter supplied by the caller:

- blob downloads are the downloaded text (`imageData`), or a download that raises where a script
  lets that exception end its run (the Azure OpenAI, Mistral and Document Intelligence scripts);
- HTTP requests are their status codes and decoded bodies, or an exception;
- the workflow engine is the sequence of results it delivers to the aggregator;
- the library functions `float`, `round(·, 2)` and `statistics.*` are functions passed in; the load
  test's retry loop and its summary take the same `round2`.

Scores and latencies are `real`.

## Model

| member | source | states |
|---|---|---|
| ReceiptModel.Truthy | scripts/agents/receipt_analysis_workflow.py:776 | Python truth of an optional text: present and non-empty; the gap-filling lemmas of `Merge` rely on it (no contract of its own) |
| ReceiptModel.HasError | scripts/agents/receipt_analysis_workflow.py:687 | a result is erroneous when its raw response has an "error" key; `Merge.ValidResults` states the filter (no contract of its own) |
| ReceiptModel.DescriptionKey | scripts/agents/receipt_analysis_workflow.py:800 | computes `description.lower().strip()`; `Merge.KeysAppend`, `Merge.DedupKeys` and `Merge.DedupDistinct` state how items are deduplicated by it (no contract of its own) |
| Text.Lower | scripts/agents/receipt_analysis_workflow.py:800 | `lower()` keeps the length and lower-cases each ASCII capital |
| Text.LStrip | scripts/agents/storage_utils.py:30 | `lstrip(chars)` returns a suffix; every character it removed is one of `chars`, and the result does not start with one |
| Text.RStrip | scripts/content-understanding/content_understanding.py:17 | `rstrip(chars)` returns a prefix; every character it removed is one of `chars`, and the result does not end with one |
| Text.StripUnchanged | scripts/agents/receipt_analysis_all_agents.py:71 | a text with no whitespace at either end is its own `strip()` |
| Text.StripKeeps | scripts/agents/receipt_workflow_utils.py:98 | `strip()` removes only whitespace: every other character survives |
| Text.Strip | scripts/agents/receipt_analysis_workflow.py:800 | computes `strip()` as `lstrip` of `rstrip` over whitespace; `Text.StripUnchanged` and `Text.StripKeeps` state its properties (no contract of its own) |
| Text.ReplaceChar | scripts/agents/receipt_workflow_utils.py:111 | a one-character `replace` keeps the length and substitutes exactly the matching positions |
| Text.RemoveChar | scripts/agents/receipt_workflow_utils.py:98 | `replace(c, "")` leaves no `c`, adds no character, and is the identity when `c` is absent |
| Text.RemoveCharKeeps | scripts/agents/receipt_workflow_utils.py:98 | removing `c` keeps every other character present |
| Text.Find | scripts/agents/receipt_analysis_all_agents.py:70 | `find` returns an occurrence at or after the start, and no earlier one exists; `None` means there is none |
| Text.Contains | scripts/agents/receipt_analysis_all_agents.py:70 | `pat in s`: `Text.Find` finds an occurrence (no contract of its own) |
| Text.SplitFirst | scripts/agents/storage_utils.py:124-126 | computes `split(sep)[0]`, the text before the first separator; `Text.SplitFirstChar` states its shape (no contract of its own) |
| Text.SplitFirstChar | scripts/agents/receipt_analysis_workflow.py:186 | `split(c)[0]` holds no `c`, and the text starts with it followed by `c` |
| Text.SplitSecondAfterSeparator | scripts/agents/receipt_analysis_all_agents.py:71 | `(sep + rest).split(sep)[1]` is `rest` when `rest` does not contain `sep` |
| Text.SplitSecond | scripts/agents/receipt_analysis_all_agents.py:71 | computes `split(sep)[1]`, the text after the first separator up to the next one or the end; `Text.SplitSecondAfterSeparator` states its round trip (no contract of its own) |
| Text.Join | scripts/mistral/pdfs_ocr_raw.py:78 | computes `sep.join(parts)`; `PdfsOcr.JoinLength` and `PdfsOcr.CombinedEmptyIff` state its length and when it is empty (no contract of its own) |
| Text.Extension | scripts/agents/receipt_workflow_utils.py:84 | `os.path.splitext(p)[1]` is empty, or a suffix of `p` that starts with '.' and holds no other '.' and no '/' |
| Text.ExtensionOfStem | scripts/aoai/azure_openai_analysis.py:94 | the extension of `stem + e` is `e` when `e` is '.' then neither '.' nor '/', and the stem ends in an ordinary character |
| Text.Basename | scripts/mistral/pdfs_ocr_raw.py:257 | `os.path.basename(p)` holds no '/' and ends `p` |
| Scoring.ItemsWeight | scripts/agents/receipt_analysis_workflow.py:728-731 | items weigh `min(0.5·n, 5.0)`, so between 0.5 and 5.0 when there is at least one |
| Scoring.Completeness | scripts/agents/receipt_analysis_workflow.py:709-742 | computes `normalized_completeness`: the weighted total over the counted fields, 0.0 when none is present; its bounds are stated by `Scoring.CompletenessBounds` (no contract of its own) |
| Scoring.FieldCountRange | scripts/agents/receipt_analysis_workflow.py:711-736 | no field is counted exactly when none is present; at most six are |
| Scoring.WeightTotalBounds | scripts/agents/receipt_analysis_workflow.py:713-736 | each counted field adds between 0.5 and 5.0 to the completeness total |
| Scoring.WeightTotal | scripts/agents/receipt_analysis_workflow.py:713-736 | computes the completeness total: merchant 2, date 2, total 3, currency 1, items `min(0.5·n, 5)`, time 1; `Scoring.WeightTotalBounds` states its bounds (no contract of its own) |
| Scoring.FieldCount | scripts/agents/receipt_analysis_workflow.py:711-736 | computes `field_counts` over the same six fields; `Scoring.FieldCountRange` states its range (no contract of its own) |
| Scoring.CompletenessBounds | scripts/agents/receipt_analysis_workflow.py:738-742 | normalised completeness is 0.0 exactly when nothing is present, and otherwise lies in [0.5, 5.0] |
| Scoring.CompletenessNotMonotone | scripts/agents/receipt_analysis_workflow.py:714-742 | a total alone scores 3.0, while merchant, date, total and currency together score 2.0 |
| Scoring.Priority | scripts/agents/receipt_analysis_workflow.py:700-704 | a source's priority is at most 3 (0 for unknown sources) |
| Scoring.Confidence | scripts/agents/receipt_analysis_workflow.py:745 | computes `confidence`: the result's confidence score, 0.5 when it is `None` (no contract of its own; used by `Scoring.ScoreOf`) |
| Scoring.Quality | scripts/agents/receipt_analysis_workflow.py:748 | computes `completeness · 0.7 + confidence · 0.3`; what it means for the ranking is stated by `Scoring.QualityOutweighsPriority` and `Scoring.PriorityBreaksTies` (no contract of its own) |
| Scoring.FinalScore | scripts/agents/receipt_analysis_workflow.py:747-752 | the final score is 0.7·completeness + 0.3·confidence, plus at most 0.03 of tie-break |
| Scoring.PriorityBreaksTies | scripts/agents/receipt_analysis_workflow.py:750-752 | with equal completeness and confidence, the higher-priority source scores higher, and equal priorities score equal |
| Scoring.QualityOutweighsPriority | scripts/agents/receipt_analysis_workflow.py:747-752 | a quality lead above 0.03 is never overturned by the tie-break |
| Scoring.ScoreOf | scripts/agents/receipt_analysis_workflow.py:754-759 | a `scored_results` entry keeps its result and its arrival position |
| Ranking.Insert | scripts/agents/receipt_analysis_workflow.py:765 | one insertion step of the sort grows the list by one |
| Ranking.Rank | scripts/agents/receipt_analysis_workflow.py:765 | sorting keeps the length |
| Ranking.RankPermutes | scripts/agents/receipt_analysis_workflow.py:765 | sorting is a permutation of `scored_results` |
| Ranking.RankDescending | scripts/agents/receipt_analysis_workflow.py:765 | the sorted list is in non-increasing score order |
| Ranking.RankStable | scripts/agents/receipt_analysis_workflow.py:765 | the sort is stable: equal scores keep their arrival order |
| Ranking.RankHeadIsMax | scripts/agents/receipt_analysis_workflow.py:767-768 | the first ranked entry is one of the entries and has the highest score of all |
| Ranking.InsertAt | scripts/agents/receipt_analysis_workflow.py:765 | moving `a[i]` left places it after every entry scoring at least as much, and leaves the rest of the array untouched |
| Ranking.SortByScore | scripts/agents/receipt_analysis_workflow.py:765 | the in-place sort leaves the array holding `Rank` of its old contents |
| Merge.ValidResults | scripts/agents/receipt_analysis_workflow.py:686-687 | the valid results are exactly the received ones without an "error" key |
| Merge.SourcesOf | scripts/agents/receipt_analysis_workflow.py:693-694 | `sources_used` has one entry per valid result, in order, duplicates included |
| Merge.ScoredResults | scripts/agents/receipt_analysis_workflow.py:707-759 | entry `i` of `scored_results` scores valid result `i`, so positions follow arrival |
| Merge.ResultsOf | scripts/agents/receipt_analysis_workflow.py:811 | the ranked results are the `result` of each ranked entry, in order |
| Merge.FirstWith | scripts/agents/receipt_analysis_workflow.py:814-837 | the index found is the first ranked result that supplies the field; `None` means no result does |
| Merge.TextOf | scripts/agents/receipt_analysis_workflow.py:775-787 | selects one of the four text fields of a result (no contract of its own) |
| Merge.FieldSource | scripts/agents/receipt_analysis_workflow.py:772-836 | computes `field_sources[f]` from the first ranked result with the field; `Merge.MergedTextFromFirst` and `Merge.MergedTotalFromFirst` state it (no contract of its own) |
| Merge.MergedTextFromFirst | scripts/agents/receipt_analysis_workflow.py:776-837 | a text field takes the value of the first ranked result with a non-empty one, and its provenance names that source |
| Merge.MergedTextNone | scripts/agents/receipt_analysis_workflow.py:776-789 | when no ranked result has the field, the base's empty value stays and the provenance is `None` |
| Merge.MergedTotalFromFirst | scripts/agents/receipt_analysis_workflow.py:785-832 | the total comes from the first ranked result whose total is not `None` (0.0 counts), with that source |
| Merge.MergedTotalNone | scripts/agents/receipt_analysis_workflow.py:785-786 | with no total anywhere the total stays `None`, with no provenance |
| Merge.MergedText | scripts/agents/receipt_analysis_workflow.py:775-836 | computes a text field after gap-filling: the first ranked result's non-empty value, else the base's; `Merge.MergedTextFromFirst` and `Merge.MergedTextNone` state this (no contract of its own) |
| Merge.MergedTotal | scripts/agents/receipt_analysis_workflow.py:784-832 | computes the total after gap-filling: the first total that is not `None`; `Merge.MergedTotalFromFirst` and `Merge.MergedTotalNone` state this (no contract of its own) |
| Merge.SeedFromBase | scripts/agents/receipt_analysis_workflow.py:776-789 | seeding copies every field of the best result, with its source when the field is set and `None` otherwise |
| Merge.GapFillText | scripts/agents/receipt_analysis_workflow.py:813-837 | a text field is replaced only while it is empty, and only by a non-empty value, whose source it then records |
| Merge.GapFillTotal | scripts/agents/receipt_analysis_workflow.py:829-832 | only a `None` total is replaced, and only by a total that is not `None` |
| Merge.Tag | scripts/agents/receipt_analysis_workflow.py:841-850 | each item offered is paired with the source of its result |
| Merge.KeysAppend | scripts/agents/receipt_analysis_workflow.py:799-802 | offering an item adds its key to the seen set exactly when its description is truthy |
| Merge.Described | scripts/agents/receipt_analysis_workflow.py:798 | an item takes part in the dedup when its description is truthy; `Merge.DedupKeepsDescribed` relies on it (no contract of its own) |
| Merge.Key | scripts/agents/receipt_analysis_workflow.py:800 | computes an item's `description.lower().strip()`; `Merge.DedupKeys` and `Merge.DedupDistinct` state the dedup by it (no contract of its own) |
| Merge.DedupKeepsDescribed | scripts/agents/receipt_analysis_workflow.py:799-803 | every kept item was offered and has a truthy description |
| Merge.DedupKeys | scripts/agents/receipt_analysis_workflow.py:842-846 | the kept items carry exactly the keys of all described items offered |
| Merge.DedupDistinct | scripts/agents/receipt_analysis_workflow.py:843-846 | no two kept items share a key |
| Merge.DedupIsFirstOccurrences | scripts/agents/receipt_analysis_workflow.py:796-851 | the dedup loop keeps exactly the first occurrence of each key, in ranked-then-list order |
| Merge.Candidates | scripts/agents/receipt_analysis_workflow.py:796-841 | computes every item of every ranked result tagged with its source, in ranked-then-list order; `Merge.DedupIsFirstOccurrences` uses it (no contract of its own) |
| Merge.Dedup | scripts/agents/receipt_analysis_workflow.py:796-851 | computes the dedup loop over the candidates; `Merge.DedupKeepsDescribed`, `Merge.DedupKeys`, `Merge.DedupDistinct` and `Merge.DedupIsFirstOccurrences` state its properties (no contract of its own) |
| Merge.FirstOccurrences | scripts/agents/receipt_analysis_workflow.py:796-851 | the independent reference for the dedup: the described candidates whose key does not occur earlier; `Merge.DedupIsFirstOccurrences` equates the two (no contract of its own) |
| Merge.ItemsOf | scripts/agents/receipt_analysis_workflow.py:846 | `all_items` holds the kept items unchanged, in order |
| Merge.ItemSourcesOf | scripts/agents/receipt_analysis_workflow.py:847-850 | `item_sources` has one entry per kept item, with its description and source |
| Merge.SourceScores | scripts/agents/receipt_analysis_workflow.py:867-869 | `source_scores` has a key for exactly the sources of the ranked entries |
| Merge.SourceScoresLast | scripts/agents/receipt_analysis_workflow.py:867-869 | for a repeated source the lowest-ranked entry's score survives |
| Merge.NoValidIffAllErrors | scripts/agents/receipt_analysis_workflow.py:687-691 | the output is "No valid results to aggregate" exactly when every received result has an error |
| Merge.ErrorResultIgnored | scripts/agents/receipt_analysis_workflow.py:687 | receiving an error-tagged result changes nothing in the aggregation |
| Merge.SourcesOfMembers | scripts/agents/receipt_analysis_workflow.py:694 | a source is listed exactly when some valid result has it |
| Merge.SourcesUsedAreValid | scripts/agents/receipt_analysis_workflow.py:693-694 | `sources_used` lists the valid results' sources in arrival order and names no error-tagged result |
| Merge.RankKeepsResults | scripts/agents/receipt_analysis_workflow.py:765 | ranking the scored results keeps exactly the valid results, as many |
| Merge.RankedResultsMembers | scripts/agents/receipt_analysis_workflow.py:707-765 | the ranked results are exactly the results without an error |
| Merge.RankedResults | scripts/agents/receipt_analysis_workflow.py:707-768 | computes the valid results in ranked order; `Merge.RankKeepsResults` and `Merge.RankedResultsMembers` state what it holds (no contract of its own) |
| Merge.BaseScoresHighest | scripts/agents/receipt_analysis_workflow.py:765-768 | the aggregation score is the best score of any valid result |
| Merge.ProvenanceOfReceipt | scripts/agents/receipt_analysis_workflow.py:870 | the receipt's `field_sources` entry is the merged provenance over the ranked results |
| Merge.Provenance | scripts/agents/receipt_analysis_workflow.py:772-836 | computes `field_sources` over the ranked results; `Merge.MergedTextFromFirst`, `Merge.MergedTotalFromFirst` and `Merge.ProvenanceOfReceipt` state it (no contract of its own) |
| Merge.MissingIffNoValidResultHasIt | scripts/agents/receipt_analysis_workflow.py:773-837 | a field's provenance is `None` exactly when no valid result supplies it |
| Merge.FieldFromFirstRanked | scripts/agents/receipt_analysis_workflow.py:775-837 | each field of the receipt is the value of the first ranked result that supplies it, and its provenance names that source |
| Merge.DefaultsOnlyWhenMissing | scripts/agents/receipt_analysis_workflow.py:854-859 | a field no valid result supplies defaults to "Unknown", "Unknown", 0.0 or "USD"; the time keeps the base's value |
| Merge.FilledFieldStaysFilled | scripts/agents/receipt_analysis_workflow.py:813-837 | a field supplied by some result stays supplied when one more result arrives |
| Merge.ItemsCoverValidKeys | scripts/agents/receipt_analysis_workflow.py:792-851 | the merged items have distinct truthy keys and aligned `item_sources`, and carry exactly the keys of the valid results' described items |
| Merge.Build | scripts/agents/receipt_analysis_workflow.py:773-875 | the merged receipt always has a non-empty merchant, date and currency, because "Unknown", "Unknown" and "USD" fill the missing ones |
| Merge.OrDefault | scripts/agents/receipt_analysis_workflow.py:855-859 | `value or default` is never empty when the default is not |
| Merge.AggregateValid | scripts/agents/receipt_analysis_workflow.py:686-691 | the output is a merged receipt exactly when there is a valid result |
| Merge.Aggregate | scripts/agents/receipt_analysis_workflow.py:684-875 | a merged receipt always names a merchant, a date and a currency (never ""); its other properties are the lemmas above |
| Aggregator.NormalizedCompleteness | scripts/agents/receipt_analysis_workflow.py:709-742 | the running completeness total and field count give `Scoring.Completeness` |
| Aggregator.ScoreResult | scripts/agents/receipt_analysis_workflow.py:744-759 | the scoring loop body builds the entry `Scoring.ScoreOf` specifies |
| Aggregator.DedupStep | scripts/agents/receipt_analysis_workflow.py:842-850 | an unseen described item adds its key, the item and its source entry; any other item changes nothing |
| Aggregator.AddUniqueItems | scripts/agents/receipt_analysis_workflow.py:840-851 | the item loop keeps `seen_item_descriptions`, `all_items` and `item_sources` equal to the dedup of everything offered |
| Aggregator.ScoreAll | scripts/agents/receipt_analysis_workflow.py:707-759 | the scoring loop builds `Merge.ScoredResults` |
| Aggregator.Seed | scripts/agents/receipt_analysis_workflow.py:773-789 | seeding from the best result yields the merge over that result alone |
| Aggregator.FillMissing | scripts/agents/receipt_analysis_workflow.py:813-837 | the five fill-in tests advance the merge by one ranked result |
| Aggregator.MergeRanked | scripts/agents/receipt_analysis_workflow.py:791-851 | seeding plus the loop over `scored_results[1:]` yields the merged scalars, items and item sources |
| Aggregator.MergedScalars | scripts/agents/receipt_analysis_workflow.py:772-836 | the five merged scalar fields and their provenance; `Aggregator.Seed`, `Aggregator.FillMissing` and `Aggregator.MergeRanked` are proved against it (no contract of its own) |
| Aggregator.AggregateResults | scripts/agents/receipt_analysis_workflow.py:684-875 | the executor's computation equals `Merge.Aggregate` of the blob's results |
| Aggregator.Appended | scripts/agents/receipt_analysis_workflow.py:664-667 | an unseen blob gets a new list, its list grows by the result, and no other blob's list changes |
| Aggregator.ResultStore.constructor | scripts/agents/receipt_analysis_workflow.py:639 | the accumulator starts empty |
| Aggregator.ResultStore.Receive | scripts/agents/receipt_analysis_workflow.py:663-667 | receiving a result appends it and aggregates its blob's updated list |
| Aggregator.ResultStore.Reset | scripts/agents/receipt_analysis_all_agents.py:218-219 | the blob's entry is deleted and every other entry is unchanged |
| Routing.AtMostOneRoute | scripts/agents/receipt_analysis_workflow.py:1202-1208 | for an agent response at most one of the clear, blurry and uncertain edges fires |
| Routing.OtherMessageFiresAll | scripts/agents/receipt_analysis_workflow.py:91-92 | any message that is not an agent response passes every condition |
| Routing.QualityCondition | scripts/agents/receipt_analysis_workflow.py:88-101 | computes `get_quality_condition(expected)(message)`; `Routing.AtMostOneRoute`, `Routing.OtherMessageFiresAll` and `Routing.SomeRouteIffKnownQuality` state its properties (no contract of its own) |
| Routing.Expected | scripts/agents/receipt_analysis_workflow.py:1202-1208 | the quality each edge expects: "clear" to Mistral, "blurry" to Document Intelligence, "uncertain" to all agents; `Routing.AtMostOneRoute` uses it (no contract of its own) |
| Routing.SomeRouteIffKnownQuality | scripts/agents/receipt_analysis_workflow.py:94-100 | an unparseable assessment fires no edge, and a parsed one fires an edge exactly for "clear", "blurry" or "uncertain" |
| Routing.Preview | scripts/agents/receipt_analysis_workflow.py:114 | `image_data[:100]` is a prefix of at most 100 characters, the whole data when it is short |
| Routing.RequestText | scripts/agents/receipt_analysis_workflow.py:114 | builds "lead: name\nImage data: preview..."; `Routing.RequestTextRoundTrip` states that the name reads back (no contract of its own) |
| Routing.Lead | scripts/agents/receipt_analysis_workflow.py:114-167 | the lead of each edge's text: "clear", "blurry" or "uncertain quality" receipt image (no contract of its own) |
| Routing.RouteRequests | scripts/agents/receipt_analysis_workflow.py:105-174 | the clear and blurry edges send one request text; the uncertain edge sends the same text three times; no send names its recipient |
| Routing.ProcessorBlobName | scripts/agents/receipt_analysis_workflow.py:186 | computes `split(": ")[1].split("\n")[0]`, or "unknown"; `Routing.ProcessorBlobNameUnknown` and `Routing.RequestTextRoundTrip` state its properties (no contract of its own) |
| Routing.ProcessorBlobNameUnknown | scripts/agents/receipt_analysis_workflow.py:186 | a text without ": " reads as "unknown" |
| Routing.RequestTextRoundTrip | scripts/agents/receipt_analysis_workflow.py:186 | a request text reads back its blob name when the lead has no ':' and the name holds neither ": " nor a newline |
| Routing.LeadsWithoutColon | scripts/agents/receipt_analysis_workflow.py:131 | the three transformer leads contain no ':' |
| Routing.RouteRequestsRoundTrip | scripts/agents/receipt_analysis_workflow.py:186 | every request text an edge sends reads back the assessed blob name, whichever processor parses it |
| AllAgents.InitialRequest | scripts/agents/receipt_analysis_all_agents.py:242 | computes `f"Process receipt: {blob_name}"`; `AllAgents.DispatchRoundTrip` states that the dispatcher reads the name back (no contract of its own) |
| AllAgents.DispatchRoundTrip | scripts/agents/receipt_analysis_all_agents.py:70-71 | the dispatcher reads back the name in "Process receipt: {name}" when it has no surrounding whitespace and does not contain the marker |
| AllAgents.DispatchBlobName | scripts/agents/receipt_analysis_all_agents.py:70-73 | computes the stripped text after "Process receipt: ", or "unknown"; `AllAgents.DispatchRoundTrip` states that it reads back the name (no contract of its own) |
| AllAgents.Dispatch | scripts/agents/receipt_analysis_all_agents.py:79-119 | no request without image data; otherwise the same request text three times; no send names its recipient |
| AllAgents.ForwardLeadWithoutColon | scripts/agents/receipt_analysis_all_agents.py:90 | the forwarded lead contains no ':' |
| AllAgents.DispatchDelivers | scripts/agents/receipt_analysis_all_agents.py:238-245 | every request text dispatched for a receipt's initial request parses back that receipt's name |
| AllAgents.TestModeDefault | scripts/agents/receipt_analysis_all_agents.py:181 | test mode is on when unset and compared case-insensitively |
| AllAgents.IsTestMode | scripts/agents/receipt_analysis_all_agents.py:181 | computes `TEST_MODE` defaulting to "true", lower-cased, compared with "true"; `AllAgents.TestModeDefault` states its cases (no contract of its own) |
| AllAgents.ReceiptsToProcess | scripts/agents/receipt_analysis_all_agents.py:182 | test mode keeps the first three names, otherwise all |
| AllAgents.StatusOf | scripts/agents/receipt_analysis_all_agents.py:221-284 | the status of one receipt: an exception is "error", empty image data "skipped", any output "success", otherwise "no_output" (no contract of its own; `AllAgents.ProcessReceipt` is proved to end in it) |
| AllAgents.AppendedAll | scripts/agents/receipt_analysis_workflow.py:664-667 | computes the accumulator after each delivery is appended in turn; `AllAgents.AppendedAllElsewhere` and `AllAgents.AppendedAllFresh` state its effect (no contract of its own) |
| AllAgents.AppendedAllElsewhere | scripts/agents/receipt_analysis_workflow.py:664-667 | deliveries for other blobs leave a blob's list as it was |
| AllAgents.Outputs | scripts/agents/receipt_analysis_all_agents.py:249-250 | every delivery to the aggregator yields exactly one output |
| AllAgents.FirstOutput | scripts/agents/receipt_analysis_all_agents.py:254-263 | the output recorded is the aggregation of the first delivery on top of the blob's list |
| AllAgents.AppendedAllFresh | scripts/agents/receipt_analysis_workflow.py:664-667 | a blob absent from the accumulator ends up holding exactly the deliveries that name it, and is absent when there are none |
| AllAgents.SuccessOutputIsFirstResult | scripts/agents/receipt_analysis_all_agents.py:218-254 | after the reset, the output a successful receipt records aggregates its first delivered result alone, whatever the accumulator held before |
| AllAgents.Deliver | scripts/agents/receipt_analysis_all_agents.py:249 | running the workflow appends every delivery and returns their outputs |
| AllAgents.AfterReceipt | scripts/agents/receipt_analysis_all_agents.py:216-249 | the accumulator after one receipt: the blob's entry deleted, then the run's deliveries appended when the workflow ran (no contract of its own) |
| AllAgents.AfterReceiptOwn | scripts/agents/receipt_analysis_all_agents.py:216-249 | when a run delivers only its own blob's results, the blob's entry afterwards is exactly those results, present exactly on success |
| AllAgents.ResultsAfter | scripts/agents/receipt_analysis_all_agents.py:208-284 | the accumulator after every receipt's pass, in order (no contract of its own) |
| AllAgents.ProcessReceipt | scripts/agents/receipt_analysis_all_agents.py:216-284 | the blob's entry is reset first and the accumulator ends as `AfterReceipt`; the status is the run's, with an output exactly on success, the aggregate of the first delivery |
| AllAgents.Successes | scripts/agents/receipt_analysis_all_agents.py:257 | the successes number at most the receipts |
| AllAgents.ProcessAll | scripts/agents/receipt_analysis_all_agents.py:192-284 | every receipt gets exactly one status, `successful + failed == total`, and the accumulator ends as `ResultsAfter` the receipts' passes |
| WorkflowUtils.ContentTypeFor | scripts/agents/receipt_workflow_utils.py:85-89 | there are three content types: "image/png" exactly for ".png", "application/pdf" exactly for ".pdf", otherwise "image/jpeg" |
| WorkflowUtils.ResolveContentType | scripts/agents/receipt_workflow_utils.py:82-89 | computes the content type of the lower-cased name's `splitext` extension; `WorkflowUtils.ResolveContentTypeOfName` and `WorkflowUtils.DotNameIsJpeg` state its properties (no contract of its own) |
| WorkflowUtils.ResolveContentTypeOfName | scripts/aoai/azure_openai_analysis.py:92-99 | a name with an ordinary stem and an extension maps by that extension in any case |
| WorkflowUtils.DotNameIsJpeg | scripts/agents/receipt_workflow_utils.py:84 | ".png" and ".pdf" have no extension and map to "image/jpeg" |
| WorkflowUtils.StripCurrency | scripts/agents/receipt_workflow_utils.py:98 | no '$', '€' or '£' survives |
| WorkflowUtils.StripCurrencyKeeps | scripts/agents/receipt_workflow_utils.py:98 | every other character survives |
| WorkflowUtils.CleanNumber | scripts/agents/receipt_workflow_utils.py:97-101 | the cleaned text has no currency symbol and no ',' |
| WorkflowUtils.ExtractNumericValue | scripts/agents/receipt_workflow_utils.py:92-106 | `None` for missing or empty text, otherwise the parse of the cleaned text |
| WorkflowUtils.ReplaceCommaTwoDots | scripts/agents/receipt_workflow_utils.py:101 | a text with both ',' and '.' has two dots after the comma replacement |
| WorkflowUtils.ThousandsSeparatorRejected | scripts/agents/receipt_workflow_utils.py:103-106 | a value with both ',' and '.', such as "1,234.56", yields `None` |
| WorkflowUtils.SafeFilename | scripts/agents/receipt_workflow_utils.py:109-111 | same length, no '/', '\\' or ':', every other character kept in place |
| WorkflowUtils.SafeFilenameIdentity | scripts/agents/receipt_workflow_utils.py:111 | a name without those characters is unchanged |
| WorkflowUtils.SafeFilenameIdempotent | scripts/agents/receipt_workflow_utils.py:111 | applying it twice is applying it once |
| StorageUtils.NormalizePrefixShape | scripts/agents/storage_utils.py:27-30 | "" exactly for a missing or empty prefix; otherwise a core without slashes at either end plus one '/'; all slashes give "/" |
| StorageUtils.NormalizePrefix | scripts/agents/storage_utils.py:27-30 | computes the stripped prefix plus '/', or ""; `StorageUtils.NormalizePrefixShape` and `StorageUtils.NormalizePrefixIdempotent` state its properties (no contract of its own) |
| StorageUtils.NormalizePrefixIdempotent | scripts/aoai/storage_utils.py:30 | normalising a normalised prefix changes nothing |
| StorageUtils.ResolveBlobName | scripts/agents/storage_utils.py:71-74 | the resolved name starts with the prefix; it is the name itself when the prefix is empty or already leads it, and otherwise the prefix followed by the name without its leading '/' |
| StorageUtils.ResolveBlobNameIdempotent | scripts/aoai/storage_utils.py:72-74 | resolving twice is resolving once |
| StorageUtils.RelativeName | scripts/agents/storage_utils.py:205-209 | the name is the prefix followed by the relative name when it starts with the prefix, and is kept otherwise |
| StorageUtils.RelativeNameRoundTrip | scripts/aoai/storage_utils.py:206-211 | strip-then-resolve gives the name back exactly when the remainder starts with neither '/' nor the prefix |
| StorageUtils.StorageCache.constructor | scripts/agents/storage_utils.py:9-11 | all three caches start empty |
| StorageUtils.AccountUrl | scripts/agents/storage_utils.py:43 | computes `f"https://{account_name}.blob.core.windows.net"`; `StorageUtils.StorageCache.GetBlobServiceClient` builds clients with it (no contract of its own) |
| StorageUtils.StorageCache.GetCachedCredential | scripts/agents/storage_utils.py:13-18 | the credential is created on the first call only; later calls return the same instance |
| StorageUtils.StorageCache.GetBlobServiceClient | scripts/aoai/storage_utils.py:34-48 | the cached client is reused exactly when it exists for the same account; afterwards the cached account is the argument |
| StorageUtils.TopLevelPrefix | scripts/agents/storage_utils.py:124-126 | the collected prefix leads the name, ends in '/' and has no other '/' |
| StorageUtils.TopLevelPrefixesShape | scripts/aoai/storage_utils.py:121-127 | every collected prefix has exactly one '/', at its end, and every name with a '/' contributes its prefix |
| StorageUtils.TopLevelPrefixes | scripts/aoai/storage_utils.py:121-127 | computes the set of prefixes collected from the names with a '/'; `StorageUtils.TopLevelPrefixesShape` states its shape (no contract of its own) |
| StorageUtils.CollectPrefixes | scripts/agents/storage_utils.py:121-127 | the loop collects `TopLevelPrefixes` of the listed names |
| AoaiAnalysis.Collapse | scripts/aoai/azure_openai_analysis.py:20 | the substitution yields only letters, digits and single '_', empty only for empty input, with '_' at an end exactly where the input has another character |
| AoaiAnalysis.CollapseKeepsAlnums | scripts/aoai/azure_openai_analysis.py:20 | the substitution keeps every ASCII letter and digit, in order, and adds none |
| AoaiAnalysis.CollapseClean | scripts/aoai/azure_openai_analysis.py:20 | a text of letters, digits and single inner '_' is left as it is |
| AoaiAnalysis.CollapseSameMask | scripts/aoai/azure_openai_analysis.py:20 | texts with the same letters and digits in the same places substitute alike |
| AoaiAnalysis.StripUnderscoresClean | scripts/aoai/azure_openai_analysis.py:21 | `strip("_")` of a substituted text is empty, or starts and ends with a letter or digit |
| AoaiAnalysis.StripUnderscores | scripts/aoai/azure_openai_analysis.py:21 | computes `strip("_")`; `AoaiAnalysis.StripUnderscoresClean` states its result (no contract of its own) |
| AoaiAnalysis.Sanitize | scripts/aoai/azure_openai_analysis.py:18-21 | the sanitised name is non-empty, has no '_' at either end, and holds only letters, digits and single '_' |
| AoaiAnalysis.CollapseNoAlnum | scripts/aoai/azure_openai_analysis.py:20 | a non-empty run of other characters becomes a single '_' |
| AoaiAnalysis.SanitizeNoAlnum | scripts/aoai/azure_openai_analysis.py:21 | a name without ASCII letters or digits becomes "blob" |
| AoaiAnalysis.SanitizeAlnum | scripts/aoai/azure_openai_analysis.py:20-21 | a non-empty alphanumeric name is kept |
| AoaiAnalysis.SanitizeIdempotent | scripts/aoai/azure_openai_analysis.py:18-21 | sanitising twice is sanitising once |
| AoaiAnalysis.SanitizeIgnoresBackslash | scripts/aoai/azure_openai_analysis.py:39-40 | turning '\\' into '/' first changes nothing |
| AoaiAnalysis.RootShape | scripts/aoai/azure_openai_analysis.py:41 | the root is the timestamp, '_' and the sanitised name, and ends in a letter or digit |
| AoaiAnalysis.FilenameRoot | scripts/aoai/azure_openai_analysis.py:39-41 | computes `f"{timestamp}_{safe_blob_name}"` after replacing '\\' by '/'; `AoaiAnalysis.RootShape` states its form (no contract of its own) |
| AoaiAnalysis.OutputNames | scripts/aoai/azure_openai_analysis.py:38-44 | both files share the root; their extensions are exactly ".json" and ".md" |
| AoaiAnalysis.JsonName | scripts/aoai/azure_openai_analysis.py:43 | computes `f"{filename_root}.json"`; `AoaiAnalysis.OutputNames` states it (no contract of its own) |
| AoaiAnalysis.MarkdownName | scripts/aoai/azure_openai_analysis.py:44 | computes `f"{filename_root}.md"`; `AoaiAnalysis.OutputNames` states it (no contract of its own) |
| AoaiAnalysis.CreateClient | scripts/aoai/azure_openai_analysis.py:102-116 | a client exactly when endpoint and key are non-empty and construction succeeds, built from those settings |
| AoaiAnalysis.CreateClientGuard | scripts/aoai/azure_openai_analysis.py:104-106 | without an endpoint or key no client is constructed, whatever construction would do |
| AoaiAnalysis.AnalyzeBlob | scripts/aoai/azure_openai_analysis.py:119-156 | a raising download escapes, an empty one is skipped, a raising request fails, and otherwise the first choice (or "<no content>") is saved with the blob's content type under the two names |
| AoaiAnalysis.UntilRaise | scripts/aoai/azure_openai_analysis.py:179-180 | a prefix of the listing whose downloads all succeed except perhaps the last, which raised when the prefix is shorter than the listing |
| AoaiAnalysis.AnalysedBlobs | scripts/aoai/azure_openai_analysis.py:159-180 | none without a deployment and a client; otherwise the listed blobs in order up to and including the first whose download raises, so all of them exactly when no earlier one raises |
| PdfsOcr.NonEmptyMarkdowns | scripts/mistral/pdfs_ocr_raw.py:72-75 | at most one part per page, none of them empty |
| PdfsOcr.CollectMarkdown | scripts/mistral/pdfs_ocr_raw.py:70-75 | the page loop collects exactly the non-empty markdowns, in page order |
| PdfsOcr.ExtractContent | scripts/mistral/pdfs_ocr_raw.py:48-104 | the extraction equals `ExtractionOf` of the response |
| PdfsOcr.ExtractionOf | scripts/mistral/pdfs_ocr_raw.py:48-104 | the extraction of each response shape; `PdfsOcr.EmptyResponseShape` and `PdfsOcr.DictShape` state its fields (no contract of its own) |
| PdfsOcr.EmptyResponseShape | scripts/mistral/pdfs_ocr_raw.py:57-63 | `None` gives "Empty response" with no pages, page count 0 and length 0 |
| PdfsOcr.DictShape | scripts/mistral/pdfs_ocr_raw.py:66-98 | without "pages" the result is "Unrecognized response format" of type "unknown"; with "pages" every page counts, the length is that of the combined markdown, and usage and model default to `{}` and "unknown" |
| PdfsOcr.NonEmptyMarkdownsAppend | scripts/mistral/pdfs_ocr_raw.py:72-75 | the parts of two page runs are the parts of each, in order |
| PdfsOcr.EmptyPageAnywhere | scripts/mistral/pdfs_ocr_raw.py:74-78 | a page without markdown adds neither text nor a page break, wherever it is |
| PdfsOcr.JoinLength | scripts/mistral/pdfs_ocr_raw.py:87 | the combined length is the parts' lengths plus one separator between each two |
| PdfsOcr.CombinedEmptyIff | scripts/mistral/pdfs_ocr_raw.py:78 | the combined markdown is empty exactly when no page has markdown |
| PdfsOcr.NoPartsIff | scripts/mistral/pdfs_ocr_raw.py:74 | there is no part exactly when no page has markdown |
| PdfsOcr.DocumentContentType | scripts/mistral/pdfs_ocr_raw.py:196-202 | testing ".pdf" before ".png" gives the same mapping as `resolve_content_type` |
| PdfsOcr.OutputFilenameShape | scripts/mistral/pdfs_ocr_raw.py:257 | the output name has no '/', ends in ".json", and that is its only '.' |
| PdfsOcr.OutputFilename | scripts/mistral/pdfs_ocr_raw.py:257 | computes the basename with '.' replaced by '_', plus ".json"; `PdfsOcr.OutputFilenameShape` states its form (no contract of its own) |
| PdfsOcr.ProcessDocuments | scripts/mistral/pdfs_ocr_raw.py:174-306 | the loop builds `successful_docs`, `failed_docs`, the summary and the saved names of `LedgerOf`, and is left (skipping the summary) exactly when some download raises |
| PdfsOcr.LedgerOf | scripts/mistral/pdfs_ocr_raw.py:184-266 | the lists, summary and saved names after each document in turn; `PdfsOcr.LedgerCounts`, `PdfsOcr.SummaryBound` and `PdfsOcr.DocStopsAtFirstRaise` state its properties (no contract of its own) |
| PdfsOcr.Record | scripts/mistral/pdfs_ocr_raw.py:184-266 | one document's effect: none after the loop was left, leaving it on a raising download, nothing when empty, then success, error or failure entries; `PdfsOcr.LedgerCounts` states the counts (no contract of its own) |
| PdfsOcr.LedgerAbortedStays | scripts/mistral/pdfs_ocr_raw.py:174-306 | once a raising download has left the loop, the later documents change nothing |
| PdfsOcr.LedgerAbortedIff | scripts/mistral/pdfs_ocr_raw.py:188 | the loop is left exactly when some download raises |
| PdfsOcr.DocStopsAtFirstRaise | scripts/mistral/pdfs_ocr_raw.py:184-188 | the run stops at the first document whose download raises, with the lists and summary of the documents before it |
| PdfsOcr.LedgerCounts | scripts/mistral/pdfs_ocr_raw.py:188-266 | each handled, unskipped document has one summary entry, so with no raising download entries plus skipped make the total; the lists hold the success and failure entries; a result is saved for every 200; `successful + failed <= total` |
| PdfsOcr.SummaryBound | scripts/mistral/pdfs_ocr_raw.py:238-266 | the three statuses together count every summary entry |
| PdfsOcr.CountStatus | scripts/mistral/pdfs_ocr_raw.py:238-266 | the number of summary entries with a status; `PdfsOcr.LedgerCounts` uses it (no contract of its own) |
| PdfsOcr.Skipped | scripts/mistral/pdfs_ocr_raw.py:191-193 | the number of empty downloads; `PdfsOcr.LedgerCounts` uses it (no contract of its own) |
| ImagesOcr.ImageContentType | scripts/mistral/images_ocr.py:105-110 | the jpeg default, overridden by ".png" then ".pdf", is the mapping of `resolve_content_type` |
| ImagesOcr.ImageOutputFilenameShape | scripts/mistral/images_ocr.py:120 | the name is the PDF script's name behind "response_", so it has no '/', ends in ".json" and has one '.' |
| ImagesOcr.ImageOutputFilename | scripts/mistral/images_ocr.py:120 | computes "response_" plus the PDF script's output name; `ImagesOcr.ImageOutputFilenameShape` states its form (no contract of its own) |
| ImagesOcr.StatusCodeOf | scripts/mistral/images_ocr.py:44-46 | a raising request is reported as status 500 |
| ImagesOcr.ProcessImages | scripts/mistral/images_ocr.py:85-146 | the loop builds the successful, failed and saved lists of `LedgerOfImages`, and is left (skipping the summary) exactly when some download raises |
| ImagesOcr.Track | scripts/mistral/images_ocr.py:97-127 | one image's effect: none after the loop was left, leaving it on a raising download, nothing when skipped, otherwise a saved name and a success exactly for status 200; `ImagesOcr.ImageCounts` states the counts (no contract of its own) |
| ImagesOcr.LedgerOfImages | scripts/mistral/images_ocr.py:93-127 | the lists after each image in turn; `ImagesOcr.ImageCounts`, `ImagesOcr.RaisedFails` and `ImagesOcr.StopsAtFirstRaise` state its properties (no contract of its own) |
| ImagesOcr.AbortedStays | scripts/mistral/images_ocr.py:85-146 | once a raising download has left the loop, the later images change nothing |
| ImagesOcr.AbortedIff | scripts/mistral/images_ocr.py:97 | the loop is left exactly when some download raises |
| ImagesOcr.StopsAtFirstRaise | scripts/mistral/images_ocr.py:93-97 | the run stops at the first image whose download raises, with the lists of the images before it |
| ImagesOcr.ImageCounts | scripts/mistral/images_ocr.py:100-127 | each handled, unskipped image is saved once and lands in one list; with no raising download `successful + failed == total - skipped` |
| ImagesOcr.SkippedImages | scripts/mistral/images_ocr.py:100-102 | the number of empty downloads; `ImagesOcr.ImageCounts` uses it (no contract of its own) |
| ImagesOcr.RaisedFails | scripts/mistral/images_ocr.py:124-127 | a downloaded image whose request raised is among the failed, unless an earlier download raised |
| LoadTest.SortReals | scripts/mistral/mistral_load_test.py:119 | `sorted` returns an ascending permutation |
| LoadTest.SortedEnds | scripts/mistral/mistral_load_test.py:129-130 | the first and last sorted latencies are latencies, and bound all the others |
| LoadTest.SortedElement | scripts/mistral/mistral_load_test.py:125 | every sorted element is one of the latencies |
| LoadTest.RoundPercent | scripts/mistral/mistral_load_test.py:124 | the rounding is within 1/2 of `p·(n-1)/100` |
| LoadTest.RoundPercentMonotone | scripts/mistral/mistral_load_test.py:124 | the rounding is monotone |
| LoadTest.PercentileIndex | scripts/mistral/mistral_load_test.py:124 | the clamped index lies in [0, n-1] |
| LoadTest.PercentileIndexMonotone | scripts/mistral/mistral_load_test.py:133-136 | a higher percentile never picks an earlier element |
| LoadTest.ComputeSummary | scripts/mistral/mistral_load_test.py:115-139 | `{}` exactly for no latencies; otherwise `count == n`, and `stdev_ms` is 0.0 when n is 1 |
| LoadTest.SummaryOrder | scripts/mistral/mistral_load_test.py:127-136 | with a monotone rounding, min ≤ p50 ≤ p90 ≤ p95 ≤ p99 ≤ max, and min and max bound every rounded latency |
| LoadTest.PercentilesAreLatencies | scripts/mistral/mistral_load_test.py:121-125 | p50 and p99 are the rounding of some latency |
| LoadTest.AttemptsFrom | scripts/mistral/mistral_load_test.py:237-292 | the loop stops at the first success or non-retryable status, and otherwise at the attempt limit |
| LoadTest.ActionOf | scripts/mistral/mistral_load_test.py:254-292 | the loop's reaction to an answer: a request error or 429 backs off, 2xx succeeds, 5xx fails and retries, anything else fails and stops (no contract of its own; `LoadTest.RunIteration` is proved against it) |
| LoadTest.Limit | scripts/mistral/mistral_load_test.py:237 | `while attempt <= max_retries` allows `max_retries + 1` attempts, none when negative; `LoadTest.RunIteration` is bounded by it (no contract of its own) |
| LoadTest.Terminal | scripts/mistral/mistral_load_test.py:266-292 | an answer that ends the loop: success or a non-retried failure; `LoadTest.RunIteration` uses it (no contract of its own) |
| LoadTest.BackoffsOf | scripts/mistral/mistral_load_test.py:258-290 | the `2 ** attempt` sleeps after backing off or a 5xx; `LoadTest.AttemptBound` bounds their number (no contract of its own) |
| LoadTest.RecordsOf | scripts/mistral/mistral_load_test.py:242-283 | the entries of one iteration: every answer but a request error or 429, with its rounded latency; `LoadTest.IterationSuccesses` counts their successes (no contract of its own) |
| LoadTest.Pow2 | scripts/mistral/mistral_load_test.py:258 | every backoff is at least one second |
| LoadTest.RunIteration | scripts/mistral/mistral_load_test.py:237-292 | the attempts, success flag, latency, records and backoffs of one iteration follow the retry rules (`None` or 429 retry, 2xx succeeds, 5xx retries, other statuses stop), and every latency kept is `round(latency_ms, 2)` |
| LoadTest.IterationSuccesses | scripts/mistral/mistral_load_test.py:270-278 | an iteration's records hold one success when it succeeded and none otherwise |
| LoadTest.AttemptBound | scripts/mistral/mistral_load_test.py:237-239 | at most `max_retries + 1` attempts, each sleeping at most once |
| LoadTest.SuccessLatencies | scripts/mistral/mistral_load_test.py:270-273 | `latencies` holds at most one rounded latency per iteration |
| LoadTest.AllRecords | scripts/mistral/mistral_load_test.py:213-283 | `records` is each iteration's entries in turn, numbered from 1 (no contract of its own) |
| LoadTest.SuccessLatenciesCount | scripts/mistral/mistral_load_test.py:270-297 | the successful records number exactly the latencies kept, one per successful iteration |
| LoadTest.RunLoadTest | scripts/mistral/mistral_load_test.py:213-298 | `latencies` is the rounded latency of each successful iteration in order, `records` every iteration's entries, and `successful_calls` counts the successful records, which equals the number of latencies; `failed_calls` is not negative |
| LoadTest.IterationAttempts | scripts/mistral/mistral_load_test.py:237-292 | the attempts one iteration makes; `LoadTest.RunLoadTest` is proved against it (no contract of its own) |
| LoadTest.Succeeded | scripts/mistral/mistral_load_test.py:237-292 | whether an iteration ends on a 2xx answer; `LoadTest.RunLoadTest` is proved against it (no contract of its own) |
| LoadTest.CountSuccess | scripts/mistral/mistral_load_test.py:297 | computes `len([r for r in records if r.get('success')])`; `LoadTest.CountSuccessAppend` and `LoadTest.SuccessLatenciesCount` state its properties (no contract of its own) |
| LoadTest.CountSuccessAppend | scripts/mistral/mistral_load_test.py:297 | the successes of two record lists add up |
| LoadTest.SummaryCountsSuccesses | scripts/mistral/mistral_load_test.py:295-297 | the summary count equals `successful_calls` whenever a call succeeded |
| ContentUnderstanding.PollFrom | scripts/content-understanding/content_understanding.py:90-123 | a returned body is the answer to its attempt, and an exit follows a request error, both within the limit |
| ContentUnderstanding.ContentUnderstandingClient.constructor | scripts/content-understanding/content_understanding.py:9-20 | the endpoint is stored without trailing '/'; the version and analyzer are fixed |
| ContentUnderstanding.ContentUnderstandingClient.PollForResults | scripts/content-understanding/content_understanding.py:72-123 | the polling loop ends as `PollFrom` over at most `max_attempts` answers |
| ContentUnderstanding.ContentUnderstandingClient.AnalyzeImage | scripts/content-understanding/content_understanding.py:48-70 | a failed submission exits, a missing "id" stops before any polling, and otherwise the results are polled |
| ContentUnderstanding.VersionedShape | scripts/content-understanding/content_understanding.py:35 | a URL is endpoint + path followed by "?api-version=2025-05-01-preview" |
| ContentUnderstanding.AnalyzeUrlShape | scripts/content-understanding/content_understanding.py:35 | the analyze URL is the endpoint, the analyzer path and id, and the version query |
| ContentUnderstanding.ResultsUrlShape | scripts/content-understanding/content_understanding.py:84 | the results URL is the endpoint, the results path and the request id, and the version query |
| ContentUnderstanding.ResultsUrlInjective | scripts/content-understanding/content_understanding.py:84 | different request ids are polled at different URLs |
| ContentUnderstanding.PollBound | scripts/content-understanding/content_understanding.py:90-94 | at most `max_attempts` requests, and a timeout without any when it is not positive |
| ContentUnderstanding.TimeoutIff | scripts/content-understanding/content_understanding.py:122-123 | the timeout error comes exactly when every allowed answer is "Running" or "NotStarted" |
| ContentUnderstanding.ReturnedIsFirstSettled | scripts/content-understanding/content_understanding.py:105-116 | the body returned is the first whose status is neither "Running" nor "NotStarted" |
| ContentUnderstanding.MissingStatusReturns | scripts/content-understanding/content_understanding.py:101 | a body without a status reads as "Unknown" and is returned at once |
| ContentUnderstanding.StatusOf | scripts/content-understanding/content_understanding.py:101 | computes `result.get("status", "Unknown")`; `ContentUnderstanding.MissingStatusReturns` states it (no contract of its own) |
| ContentUnderstanding.Pending | scripts/content-understanding/content_understanding.py:111-113 | "Running" and "NotStarted" keep polling; `ContentUnderstanding.TimeoutIff` and `ContentUnderstanding.ReturnedIsFirstSettled` use it (no contract of its own) |
| ContentUnderstanding.Limit | scripts/content-understanding/content_understanding.py:92 | `while attempts < max_attempts` allows `max_attempts` attempts, none when not positive; `ContentUnderstanding.PollBound` states it (no contract of its own) |
| ContentUnderstanding.ContentUnderstandingClient.Versioned | scripts/content-understanding/content_understanding.py:35 | computes `f"{endpoint}{path}?api-version={api_version}"`; `ContentUnderstanding.VersionedShape` states it (no contract of its own) |
| ContentUnderstanding.ContentUnderstandingClient.AnalyzeUrl | scripts/content-understanding/content_understanding.py:35 | computes the analyze URL; `ContentUnderstanding.AnalyzeUrlShape` states it (no contract of its own) |
| ContentUnderstanding.ContentUnderstandingClient.ResultsUrl | scripts/content-understanding/content_understanding.py:84 | computes the results URL; `ContentUnderstanding.ResultsUrlShape` and `ContentUnderstanding.ResultsUrlInjective` state it (no contract of its own) |
| DocIntel.Rendered | scripts/doc-intelligence/doc-intel-receipts.py:17 | one rendering per value, in order |
| DocIntel.FormatPrice | scripts/doc-intelligence/doc-intel-receipts.py:13-17 | "N/A" for a missing or empty dictionary |
| DocIntel.FormatPriceAppend | scripts/doc-intelligence/doc-intel-receipts.py:17 | one more value appends exactly its rendering |
| DocIntel.FormatPriceSingle | scripts/doc-intelligence/doc-intel-receipts.py:17 | a single value is rendered alone |
| DocIntel.ResponseFilename | scripts/doc-intelligence/doc-intel-receipts.py:26-27 | "response_" + the name with separators replaced + ".json", of length name + 14 |
| DocIntel.ResponseFilenameNoSeparator | scripts/doc-intelligence/doc-intel-receipts.py:26-27 | the file name contains neither '/' nor '\\' |
| DocIntel.ResponseFilenameIsSafeName | scripts/doc-intelligence/doc-intel-receipts.py:26 | for names without ':' the safe name is that of `safe_filename` |
| DocIntel.ProcessReceipt | scripts/doc-intelligence/doc-intel-receipts.py:36-72 | `None` exactly when the download raises or is empty or the analysis raises; otherwise the analysis, saved under its file name |
| DocIntel.SuccessCount | scripts/doc-intelligence/doc-intel-receipts.py:189 | the successes number at most the blobs |
| DocIntel.CountOutcomes | scripts/doc-intelligence/doc-intel-receipts.py:110-192 | `successful` counts the results with documents, and `successful + failed == len(blob_names)` |
| DocIntel.NoDataFails | scripts/doc-intelligence/doc-intel-receipts.py:49-51 | blobs whose download fails or is empty never count as successes |
| DocIntel.Succeeded | scripts/doc-intelligence/doc-intel-receipts.py:125 | a blob counts as processed when its analysis has receipt documents; `DocIntel.CountOutcomes` and `DocIntel.NoDataFails` use it (no contract of its own) |

## Left out

- External services: the Document Intelligence, Mistral, Azure OpenAI and Content Understanding
  calls, their SDK result objects, and blob listing and downloading. Each becomes a parameter: the
  downloaded text, a status code and decoded body, or an exception.
- The regex extraction of merchant, date, time, total, currency and items from OCR text in the
  workflow's Mistral processor, and the JSON fence-stripping of the direct extractor. Only their
  normalised `ReceiptExtractionResult` is modelled.
- File output: intermediary files, receipts, aggregation context, markdown, run reports, logging,
  telemetry and `save_*` helpers. Only the names files are saved under are modelled.
- Concurrency: the workflow graph's asynchronous execution and the asynchronous aiohttp runner of
  the load test, including its retry loop bounded by `args.iterations`.
- The environment: `load_dotenv`, environment reads and timestamps. They are supplied as
  parameters (the raw prefix, `TEST_MODE`, the timestamp of the Azure OpenAI file names).
- Base64 encoding and data-URL payloads of request bodies.
- Scoring.FinalScore: scores are exact reals, so IEEE rounding (which can flip the 0.01 tie-break
  between near-equal scores) is not modelled.
- LoadTest.ComputeSummary: `round(·, 2)`, `statistics.mean`, `median` and `stdev` are abstract
  functions. The percentile index is computed exactly from `p·(n-1)/100`; the float product
  `(p / 100.0) * (n - 1)` can differ from it in the last bit.
- LoadTest.RunIteration: the random blob choice, the pacing delay and the real sleeping are left
  out. The backoffs are recorded as the list of `2 ** attempt` values that would be slept. The
  timestamp, error text and blob name of each entry are not recorded, and `round(·, 2)` is the
  abstract `round2`.
- Text.Lower: only ASCII capitals are lower-cased; Python's full Unicode case mapping is not modelled.
- Text.Extension: POSIX path rules (`posixpath.splitext`); `'\\'` is not a path separator, as it
  would be under Windows' `ntpath`.
- AllAgents.StatusOf: an exception raised by the workflow after some results reached the aggregator
  is modelled as `Raised` with no deliveries, so its partial accumulator updates are not kept.
- AllAgents.Dispatch: the dispatcher's call to `get_blob_base64` is its `imageData` parameter. A
  download that raises there makes the workflow raise, which is the receipt's `Raised` run.
- AllAgents.Dispatch and Routing.RouteRequests: each `ctx.send_message` names no recipient, and
  the sending executor has three outgoing edges. Which processors receive each of the identical
  messages is decided by the workflow runtime, which is not part of this model. The model does
  not assume that each message reaches only the processor its variable is named after. It
  states only the texts sent and that each parses back to the blob name. The deliveries that
  reach the aggregator are an input (`ReceiptRun.delivered`), so any number of runs per
  processor is covered.
- StorageUtils.StorageCache.GetBlobServiceClient: the account name is a string; the `None` account
  that an unset `STORAGE_ACCOUNT_NAME` gives is not modelled.
- PdfsOcr.ExtractionOf: the `response_keys` list of an unrecognised response and a `null` value
  under "pages" (which makes the source raise and return its exception text) are not modelled. A
  `null` under "usage_info" or "model" is read as a missing key, so the model gives `{}` and
  "unknown" where the source's `.get` returns `None`.
- PdfsOcr.ProcessDocuments: the error message stored in a failure's summary entry is left out. A
  raising download ends the run, as modelled; any other exception escaping the loop (a failing
  save, say), which the outer `try` of `main` catches in the same way, is not modelled. In
  particular, a non-200 answer whose JSON body is `null` or not an object makes
  `response_data.get("error", ...)` raise, which ends the run in the source. The model instead
  records that document as `DocFailed` and goes on.
- ImagesOcr.ProcessImages: the early return of `main` when `AZURE_API_KEY` is unset is not
  modelled. A raising download ends the run, as modelled; a raising save, which the outer `try`
  of `main` catches in the same way, is not modelled.
- DocIntel.ProcessReceipt: an exception while saving the response, which the source turns into
  `None`, is not modelled; any returned analysis result counts as truthy.
- DocIntel.CountOutcomes: the printing of each receipt's fields, which is where `_format_price` is
  used, is left out. An exception raised while printing, such as an item without a "valueObject",
  would end `main`, and the later receipts would never be counted. That is not modelled either.
- ContentUnderstanding.ContentUnderstandingClient.PollForResults: `polling_interval` and the
  sleeping are left out, and a non-string JSON status is modelled as a missing one. Both are
  returned at once.
- AoaiAnalysis.AnalyzeBlob: a `None` message content is not distinguished from a string, and
  failures to create the data directory or write either file are not modelled. A raising download
  is modelled (`DownloadRaised`, and `AoaiAnalysis.AnalysedBlobs` stops there).
- The `main` example of the Content Understanding client, `run_workflow.py`, `test_workflow.py`,
  `verify_load_test.py` and the `test_load.py` scripts are connectivity checks and command-line
  plumbing; they are not part of this model.

=== FILE: aggregator.dfy ===
/**
 * The `aggregate_results` executor as the program runs it: the per-blob accumulator
 * `_accumulated_results`, and the scoring, sorting, seeding and gap-filling loops, each proved to
 * compute `Merge.Aggregate`.
 */
module Aggregator {
  import opened Wrappers
  import opened ReceiptModel
  import opened Scoring
  import opened Ranking
  import opened Merge

  /** The completeness part of the scoring loop: running totals over the fields, then the mean. */
  method NormalizedCompleteness(r: ExtractionResult) returns (normalized: real)
    ensures normalized == Completeness(r)
  {
    var completenessScore, fieldCounts := 0.0, 0;
    if Truthy(r.merchantName) {
      completenessScore, fieldCounts := completenessScore + 2.0, fieldCounts + 1;
    }
    if Truthy(r.transactionDate) {
      completenessScore, fieldCounts := completenessScore + 2.0, fieldCounts + 1;
    }
    if r.totalAmount.Some? {
      completenessScore, fieldCounts := completenessScore + 3.0, fieldCounts + 1;
    }
    if Truthy(r.currency) {
      completenessScore, fieldCounts := completenessScore + 1.0, fieldCounts + 1;
    }
    if |r.items| > 0 {
      var itemScore := if |r.items| as real * 0.5 <= 5.0 then |r.items| as real * 0.5 else 5.0;
      completenessScore, fieldCounts := completenessScore + itemScore, fieldCounts + 1;
    }
    if Truthy(r.transactionTime) {
      completenessScore, fieldCounts := completenessScore + 1.0, fieldCounts + 1;
    }
    normalized := if fieldCounts > 0 then completenessScore / fieldCounts as real else 0.0;
  }

  /** The body of the scoring loop for one result. */
  method ScoreResult(position: nat, r: ExtractionResult) returns (e: Scored)
    ensures e == ScoreOf(position, r)
  {
    var normalized := NormalizedCompleteness(r);
    var confidence := if r.confidenceScore.Some? then r.confidenceScore.value else 0.5;
    var finalScore := normalized * 0.7 + confidence * 0.3;
    finalScore := finalScore + Priority(r.source) as real * 0.01;
    e := Scored(position, r, normalized, confidence, finalScore);
  }

  lemma DedupAppend(before: seq<Tagged>, t: Tagged)
    ensures Dedup(before + [t]) ==
      if Described(t) && Key(t) !in Keys(Dedup(before)) then Dedup(before) + [t] else Dedup(before)
  {
    assert (before + [t])[..|before|] == before;
  }

  lemma ItemsOfAppend(d: seq<Tagged>, t: Tagged)
    ensures ItemsOf(d + [t]) == ItemsOf(d) + [t.item]
    ensures ItemSourcesOf(d + [t]) == ItemSourcesOf(d) + [ItemSource(t.item.description, t.source)]
  {
    assert ItemsOf(d + [t]) == ItemsOf(d) + [t.item];
    assert ItemSourcesOf(d + [t]) == ItemSourcesOf(d) + [ItemSource(t.item.description, t.source)];
  }

  /** Offering one more item to the dedup loop. */
  lemma DedupStep(before: seq<Tagged>, t: Tagged)
    ensures var d, d2 := Dedup(before), Dedup(before + [t]);
      if Described(t) && Key(t) !in Keys(d) then
        Keys(d2) == Keys(d) + {Key(t)} && ItemsOf(d2) == ItemsOf(d) + [t.item]
        && ItemSourcesOf(d2) == ItemSourcesOf(d) + [ItemSource(t.item.description, t.source)]
      else d2 == d
  {
    DedupAppend(before, t);
    var d := Dedup(before);
    if Described(t) && Key(t) !in Keys(d) {
      KeysAppend(d, t);
      ItemsOfAppend(d, t);
    }
  }

  lemma TagStep(offered: seq<Tagged>, items: seq<Item>, j: nat, source: Source)
    requires j < |items|
    ensures offered + Tag(items[..j + 1], source) == offered + Tag(items[..j], source) + [Tagged(items[j], source)]
  {
    assert Tag(items[..j + 1], source) == Tag(items[..j], source) + [Tagged(items[j], source)];
  }

  /**
   * The item loop: each item with a truthy description whose key is unseen is recorded, with its
   * source; the three accumulators always describe `Dedup` of everything offered so far.
   */
  method AddUniqueItems(items: seq<Item>, source: Source, ghost offered: seq<Tagged>,
                        seen: set<string>, allItems: seq<Item>, itemSources: seq<ItemSource>)
    returns (seen2: set<string>, allItems2: seq<Item>, itemSources2: seq<ItemSource>)
    requires seen == Keys(Dedup(offered))
    requires allItems == ItemsOf(Dedup(offered)) && itemSources == ItemSourcesOf(Dedup(offered))
    ensures seen2 == Keys(Dedup(offered + Tag(items, source)))
    ensures allItems2 == ItemsOf(Dedup(offered + Tag(items, source)))
    ensures itemSources2 == ItemSourcesOf(Dedup(offered + Tag(items, source)))
  {
    seen2, allItems2, itemSources2 := seen, allItems, itemSources;
    ghost var offeredSoFar := offered;
    assert offered + Tag(items[..0], source) == offered;
    for j := 0 to |items|
      invariant offeredSoFar == offered + Tag(items[..j], source)
      invariant seen2 == Keys(Dedup(offeredSoFar))
      invariant allItems2 == ItemsOf(Dedup(offeredSoFar))
      invariant itemSources2 == ItemSourcesOf(Dedup(offeredSoFar))
    {
      var item := items[j];
      ghost var t := Tagged(item, source);
      DedupStep(offeredSoFar, t);
      TagStep(offered, items, j, source);
      if item.description.Some? && item.description.value != "" {
        var key := DescriptionKey(item.description.value);
        if key !in seen2 {
          seen2 := seen2 + {key};
          allItems2 := allItems2 + [item];
          itemSources2 := itemSources2 + [ItemSource(item.description, source)];
        }
      }
      offeredSoFar := offeredSoFar + [t];
    }
    assert items[..|items|] == items;
  }

  /** The scoring loop: `scored_results`, in arrival order. */
  method ScoreAll(valid: seq<ExtractionResult>) returns (scored: seq<Scored>)
    ensures scored == ScoredResults(valid)
  {
    scored := [];
    for i := 0 to |valid|
      invariant |scored| == i
      invariant forall k :: 0 <= k < i ==> scored[k] == ScoreOf(k, valid[k])
    {
      var e := ScoreResult(i, valid[i]);
      scored := scored + [e];
    }
  }

  /** The five scalar fields and their provenance while gap-filling. */
  datatype Scalars = Scalars(
    merchantName: Option<string>, transactionDate: Option<string>, transactionTime: Option<string>,
    totalAmount: Option<real>, currency: Option<string>, fieldSources: FieldSources)

  /** The scalars as merged over the ranked results `rs`. */
  function MergedScalars(rs: seq<ExtractionResult>): Scalars
    requires |rs| > 0
  {
    Scalars(MergedText(rs, MerchantName), MergedText(rs, TransactionDate), MergedText(rs, TransactionTime),
            MergedTotal(rs), MergedText(rs, Currency), Provenance(rs))
  }

  /** Seeding from the best result: each field and, when it is set, its source. */
  method Seed(best: ExtractionResult) returns (s: Scalars)
    ensures s == MergedScalars([best])
  {
    var fs := FieldSources(
      if Truthy(best.merchantName) then Some(best.source) else None,
      if Truthy(best.transactionDate) then Some(best.source) else None,
      if Truthy(best.transactionTime) then Some(best.source) else None,
      if best.totalAmount.Some? then Some(best.source) else None,
      if Truthy(best.currency) then Some(best.source) else None);
    s := Scalars(best.merchantName, best.transactionDate, best.transactionTime, best.totalAmount, best.currency, fs);
    SeedFromBase([best], MerchantName);
    SeedFromBase([best], TransactionDate);
    SeedFromBase([best], TransactionTime);
    SeedFromBase([best], TotalAmount);
    SeedFromBase([best], Currency);
    assert [best][..1] == [best];
  }

  /** The five "fill in any missing fields" tests for one lower-ranked result. */
  method FillMissing(s: Scalars, r: ExtractionResult, ghost rs: seq<ExtractionResult>, ghost i: nat)
    returns (s2: Scalars)
    requires 1 <= i < |rs| && rs[i] == r
    requires s == MergedScalars(rs[..i])
    ensures s2 == MergedScalars(rs[..i + 1])
  {
    GapFillText(rs, i, MerchantName);
    GapFillText(rs, i, TransactionDate);
    GapFillText(rs, i, TransactionTime);
    GapFillTotal(rs, i);
    GapFillText(rs, i, Currency);
    s2 := s;
    if !Truthy(s2.merchantName) && Truthy(r.merchantName) {
      s2 := s2.(merchantName := r.merchantName, fieldSources := s2.fieldSources.(merchantName := Some(r.source)));
    }
    if !Truthy(s2.transactionDate) && Truthy(r.transactionDate) {
      s2 := s2.(transactionDate := r.transactionDate, fieldSources := s2.fieldSources.(transactionDate := Some(r.source)));
    }
    if !Truthy(s2.transactionTime) && Truthy(r.transactionTime) {
      s2 := s2.(transactionTime := r.transactionTime, fieldSources := s2.fieldSources.(transactionTime := Some(r.source)));
    }
    if s2.totalAmount.None? && r.totalAmount.Some? {
      s2 := s2.(totalAmount := r.totalAmount, fieldSources := s2.fieldSources.(totalAmount := Some(r.source)));
    }
    if !Truthy(s2.currency) && Truthy(r.currency) {
      s2 := s2.(currency := r.currency, fieldSources := s2.fieldSources.(currency := Some(r.source)));
    }
  }

  lemma CandidatesStep(rs: seq<ExtractionResult>, i: nat)
    requires i < |rs|
    ensures Candidates(rs[..i + 1]) == Candidates(rs[..i]) + Tag(rs[i].items, rs[i].source)
  {
    assert rs[..i + 1][..i] == rs[..i];
  }

  /**
   * Seeding from the base and the loop over `scored_results[1:]`: gap-fill the scalars and add
   * unseen items, from each lower-ranked result in turn.
   */
  method MergeRanked(ranked: seq<Scored>)
    returns (s: Scalars, seen: set<string>, allItems: seq<Item>, itemSources: seq<ItemSource>)
    requires |ranked| > 0
    ensures s == MergedScalars(ResultsOf(ranked))
    ensures allItems == ItemsOf(Dedup(Candidates(ResultsOf(ranked))))
    ensures itemSources == ItemSourcesOf(Dedup(Candidates(ResultsOf(ranked))))
  {
    ghost var rs := ResultsOf(ranked);
    var best := ranked[0].result;
    s := Seed(best);
    assert rs[..1] == [best];
    CandidatesStep(rs, 0);
    seen, allItems, itemSources := AddUniqueItems(best.items, best.source, [], {}, [], []);
    for i := 1 to |ranked|
      invariant s == MergedScalars(rs[..i])
      invariant seen == Keys(Dedup(Candidates(rs[..i])))
      invariant allItems == ItemsOf(Dedup(Candidates(rs[..i])))
      invariant itemSources == ItemSourcesOf(Dedup(Candidates(rs[..i])))
    {
      var r := ranked[i].result;
      s := FillMissing(s, r, rs, i);
      CandidatesStep(rs, i);
      seen, allItems, itemSources := AddUniqueItems(r.items, r.source, Candidates(rs[..i]), seen, allItems, itemSources);
    }
    assert rs[..|ranked|] == rs;
  }

  /** `aggregate_results` after the accumulator update: filter, score, sort, seed and gap-fill. */
  method AggregateResults(results: seq<ExtractionResult>) returns (out: Aggregation)
    ensures out == Aggregate(results)
  {
    var valid := ValidResults(results);
    if |valid| == 0 {
      return NoValidResults;
    }
    var sourcesUsed := SourcesOf(valid);
    var blobName := valid[0].blobName;

    var scored := ScoreAll(valid);
    var a := new Scored[|scored|](k requires 0 <= k < |scored| => scored[k]);
    assert a[..] == scored;
    SortByScore(a);
    var ranked := a[..];
    var s, seen, allItems, itemSources := MergeRanked(ranked);

    var total := if s.totalAmount.Some? && s.totalAmount.value != 0.0 then s.totalAmount.value else 0.0;
    var metadata := Metadata(ranked[0].confidence, ranked[0].completeness, ranked[0].score,
                             ranked[0].result.source, SourceScores(ranked), s.fieldSources, itemSources);
    out := Aggregated(FinalReceipt(
      OrDefault(s.merchantName, "Unknown"), OrDefault(s.transactionDate, "Unknown"), s.transactionTime,
      total, OrDefault(s.currency, "USD"), allItems, metadata, sourcesUsed, blobName));
  }

  /** `_accumulated_results` after a result arrives: its blob's list, created if new, grows by it. */
  function Appended(m: map<string, seq<ExtractionResult>>, r: ExtractionResult): (m2: map<string, seq<ExtractionResult>>)
    ensures m2.Keys == m.Keys + {r.blobName}
    ensures m2[r.blobName] == (if r.blobName in m then m[r.blobName] else []) + [r]
    ensures forall b :: b in m && b != r.blobName ==> m2[b] == m[b]
  {
    m[r.blobName := (if r.blobName in m then m[r.blobName] else []) + [r]]
  }

  /** The accumulator shared by every call of `aggregate_results`, keyed by blob name. */
  class ResultStore {
    var results: map<string, seq<ExtractionResult>>

    constructor()
      ensures results == map[]
    {
      results := map[];
    }

    /** One call of `aggregate_results`: record the result, then aggregate its blob's results. */
    method Receive(r: ExtractionResult) returns (out: Aggregation)
      modifies this
      ensures results == Appended(old(results), r)
      ensures out == Aggregate(results[r.blobName])
    {
      var name := r.blobName;
      ghost var before := results;
      if name !in results {
        results := results[name := []];
      }
      var list := results[name] + [r];
      assert list == (if name in before then before[name] else []) + [r];
      results := results[name := list];
      assert results == before[name := list];
      out := AggregateResults(list);
    }

    /** `del _accumulated_results[blob_name]` when present, before a receipt is processed. */
    method Reset(blobName: string)
      modifies this
      ensures results == old(results) - {blobName}
    {
      if blobName in results {
        results := results - {blobName};
      }
    }
  }
}

=== FILE: all_agents.dfy ===
/**
 * The all-agents runner: the dispatcher that reads the blob name from the initial request and fans
 * the receipt out to the three processors, the test-mode selection of receipts, and the loop of
 * `main` that resets the accumulator before each receipt and counts successes and failures.
 */
module AllAgents {
  import opened Wrappers
  import opened Text
  import opened ReceiptModel
  import opened Merge
  import opened Aggregator
  import opened Routing

  const Marker := "Process receipt: "

  /** The lead of the requests the dispatcher forwards. */
  const ForwardLead := "Process this receipt image"

  /** `f"Process receipt: {blob_name}"`, the request `main` starts the workflow with. */
  function InitialRequest(blobName: string): string {
    Marker + blobName
  }

  /**
   * `message_text.split("Process receipt: ")[1].strip()` when the marker occurs, else "unknown":
   * the text between the first marker and the next one (or the end), stripped.
   */
  function DispatchBlobName(text: string): string {
    if Contains(text, Marker) then Strip(SplitSecond(text, Marker)) else "unknown"
  }

  /**
   * The dispatcher reads back the name `main` put into the initial request, provided the name has
   * no surrounding whitespace and does not itself contain the marker.
   */
  lemma DispatchRoundTrip(blobName: string)
    requires |blobName| == 0 || (!IsSpace(blobName[0]) && !IsSpace(blobName[|blobName| - 1]))
    requires !Contains(blobName, Marker)
    ensures DispatchBlobName(InitialRequest(blobName)) == blobName
  {
    SplitSecondAfterSeparator(Marker, blobName);
    StripUnchanged(blobName);
  }

  /**
   * `dispatch_to_all_agents`: nothing when the image data is empty, otherwise the same request text
   * sent three times (meant for Document Intelligence, Mistral and direct extraction, in that
   * order, though no send names its recipient). The image data is what `get_blob_base64` returned
   * for the parsed name.
   */
  function Dispatch(text: string, imageData: string): (rs: seq<string>)
    ensures |rs| == if imageData == "" then 0 else 3
    ensures forall i, j :: 0 <= i < j < |rs| ==> rs[i] == rs[j]
  {
    if imageData == "" then []
    else
      var forwarded := RequestText(ForwardLead, DispatchBlobName(text), imageData);
      [forwarded, forwarded, forwarded]
  }

  lemma ForwardLeadWithoutColon()
    ensures ':' !in ForwardLead
  {
  }

  /**
   * End to end: every request dispatched for the initial request of a blob reads that blob's name
   * back, when the name has no surrounding whitespace and holds neither the marker, ": " nor a
   * newline.
   */
  lemma DispatchDelivers(blobName: string, imageData: string)
    requires |blobName| == 0 || (!IsSpace(blobName[0]) && !IsSpace(blobName[|blobName| - 1]))
    requires !Contains(blobName, Marker) && !Contains(blobName, ": ") && '\n' !in blobName
    ensures forall req :: req in Dispatch(InitialRequest(blobName), imageData) ==>
      ProcessorBlobName(req) == blobName
  {
    DispatchRoundTrip(blobName);
    ForwardLeadWithoutColon();
    RequestTextRoundTrip(ForwardLead, blobName, imageData);
  }

  /** `os.environ.get("TEST_MODE", "true").lower() == "true"`. */
  function IsTestMode(setting: Option<string>): bool {
    Lower(setting.GetOr("true")) == "true"
  }

  /** Test mode is the default, and the comparison ignores case. */
  lemma TestModeDefault()
    ensures IsTestMode(None) && IsTestMode(Some("TRUE")) && IsTestMode(Some("True"))
    ensures !IsTestMode(Some("false")) && !IsTestMode(Some(""))
  {
    assert Lower("TRUE") == "true";
    assert Lower("True") == "true";
    assert Lower("false")[0] == 'f';
  }

  /** `blob_names[:3] if test_mode else blob_names`. */
  function ReceiptsToProcess(blobNames: seq<string>, testMode: bool): (rs: seq<string>)
    ensures testMode ==> rs == blobNames[..if |blobNames| < 3 then |blobNames| else 3]
    ensures !testMode ==> rs == blobNames
  {
    if testMode && |blobNames| > 3 then blobNames[..3] else blobNames
  }

  /** The outcome of one receipt's `results_summary["results"]` entry. */
  datatype Status = Skipped | Success | NoOutput | Error

  /**
   * What happens to one receipt outside the model: either `get_blob_base64` or the workflow run
   * raises before any result reaches the aggregator, or the image data is fetched and the workflow
   * delivers a sequence of extraction results to `aggregate_results`.
   */
  datatype ReceiptRun = Raised | Fetched(imageData: string, delivered: seq<ExtractionResult>)

  /** The status a run ends in: every `aggregate_results` call yields one output. */
  function StatusOf(run: ReceiptRun): Status {
    match run
    case Raised => Error
    case Fetched(imageData, delivered) =>
      if imageData == "" then Skipped else if |delivered| > 0 then Success else NoOutput
  }

  /** The accumulator after each of `rs` has been appended in turn. */
  function AppendedAll(m: map<string, seq<ExtractionResult>>, rs: seq<ExtractionResult>): map<string, seq<ExtractionResult>> {
    if |rs| == 0 then m else Appended(AppendedAll(m, rs[..|rs| - 1]), rs[|rs| - 1])
  }

  /** Each result only grows its own blob's list: blobs no result names keep their lists. */
  lemma {:induction false} AppendedAllElsewhere(m: map<string, seq<ExtractionResult>>, rs: seq<ExtractionResult>, b: string)
    requires forall r :: r in rs ==> r.blobName != b
    ensures b in AppendedAll(m, rs) <==> b in m
    ensures b in m ==> AppendedAll(m, rs)[b] == m[b]
  {
    if |rs| > 0 {
      var init := rs[..|rs| - 1];
      assert forall r :: r in init ==> r in rs;
      AppendedAllElsewhere(m, init, b);
    }
  }

  /**
   * The outputs `aggregate_results` yields for the deliveries `rs` starting from accumulator `m`:
   * each one aggregates its blob's list as it stands after that delivery.
   */
  function Outputs(m: map<string, seq<ExtractionResult>>, rs: seq<ExtractionResult>): (outs: seq<Aggregation>)
    ensures |outs| == |rs|
  {
    if |rs| == 0 then []
    else
      var last := rs[|rs| - 1];
      Outputs(m, rs[..|rs| - 1]) + [Aggregate(AppendedAll(m, rs)[last.blobName])]
  }

  /** The first output aggregates exactly the first delivery on top of what the blob already had. */
  lemma {:induction false} FirstOutput(m: map<string, seq<ExtractionResult>>, rs: seq<ExtractionResult>)
    requires |rs| > 0
    ensures Outputs(m, rs)[0] == Aggregate(Appended(m, rs[0])[rs[0].blobName])
  {
    var init := rs[..|rs| - 1];
    if |rs| == 1 {
      assert AppendedAll(m, init) == m;
    } else {
      FirstOutput(m, init);
      assert Outputs(m, rs)[0] == Outputs(m, init)[0];
    }
  }

  lemma OutputsStep(m: map<string, seq<ExtractionResult>>, rs: seq<ExtractionResult>, k: nat)
    requires k < |rs|
    ensures AppendedAll(m, rs[..k + 1]) == Appended(AppendedAll(m, rs[..k]), rs[k])
    ensures Outputs(m, rs[..k + 1]) ==
      Outputs(m, rs[..k]) + [Aggregate(AppendedAll(m, rs[..k + 1])[rs[k].blobName])]
  {
    assert rs[..k + 1][..k] == rs[..k];
  }

  /** A blob absent from the accumulator ends up holding exactly the deliveries that name it. */
  lemma {:induction false} AppendedAllFresh(m: map<string, seq<ExtractionResult>>, rs: seq<ExtractionResult>, b: string)
    requires b !in m && forall i :: 0 <= i < |rs| ==> rs[i].blobName == b
    ensures b in AppendedAll(m, rs) <==> |rs| > 0
    ensures |rs| > 0 ==> AppendedAll(m, rs)[b] == rs
  {
    if |rs| > 0 {
      AppendedAllFresh(m, rs[..|rs| - 1], b);
      AppendedFreshStep(m, rs, b);
    }
  }

  /** The last delivery for a fresh blob extends its list by itself. */
  lemma AppendedFreshStep(m: map<string, seq<ExtractionResult>>, rs: seq<ExtractionResult>, b: string)
    requires |rs| > 0 && rs[|rs| - 1].blobName == b
    requires var init := rs[..|rs| - 1];
      (b in AppendedAll(m, init) <==> |init| > 0) && (|init| > 0 ==> AppendedAll(m, init)[b] == init)
    ensures b in AppendedAll(m, rs) && AppendedAll(m, rs)[b] == rs
  {
    assert rs[..|rs| - 1] + [rs[|rs| - 1]] == rs;
  }

  /**
   * Because the entry is reset first, the output a successful receipt reports aggregates its first
   * delivered result alone, whatever the accumulator held before.
   */
  lemma SuccessOutputIsFirstResult(m: map<string, seq<ExtractionResult>>, b: string, rs: seq<ExtractionResult>)
    requires |rs| > 0 && rs[0].blobName == b
    ensures Outputs(m - {b}, rs)[0] == Aggregate([rs[0]])
  {
    FirstOutput(m - {b}, rs);
    assert Appended(m - {b}, rs[0])[b] == [rs[0]];
  }

  /** The workflow's deliveries for one receipt, each handled by `aggregate_results` in turn. */
  method Deliver(store: ResultStore, delivered: seq<ExtractionResult>) returns (outputs: seq<Aggregation>)
    modifies store
    ensures store.results == AppendedAll(old(store.results), delivered)
    ensures outputs == Outputs(old(store.results), delivered)
  {
    ghost var start := store.results;
    outputs := [];
    for k := 0 to |delivered|
      invariant store.results == AppendedAll(start, delivered[..k])
      invariant outputs == Outputs(start, delivered[..k])
    {
      OutputsStep(start, delivered, k);
      var out := store.Receive(delivered[k]);
      outputs := outputs + [out];
    }
    assert delivered[..|delivered|] == delivered;
  }

  /**
   * The accumulator after one pass of the loop body of `main`: the blob's entry deleted, then the
   * run's deliveries appended when the workflow ran.
   */
  function AfterReceipt(m: map<string, seq<ExtractionResult>>, blobName: string, run: ReceiptRun): map<string, seq<ExtractionResult>> {
    if StatusOf(run) in {Success, NoOutput} then AppendedAll(m - {blobName}, run.delivered)
    else m - {blobName}
  }

  /**
   * When the run delivers only results for its own blob, the blob's entry afterwards is exactly
   * those results: earlier runs of the same blob leave nothing behind.
   */
  lemma AfterReceiptOwn(m: map<string, seq<ExtractionResult>>, blobName: string, run: ReceiptRun)
    requires run.Fetched? ==> forall r :: r in run.delivered ==> r.blobName == blobName
    ensures blobName in AfterReceipt(m, blobName, run) <==> StatusOf(run) == Success
    ensures StatusOf(run) == Success ==> AfterReceipt(m, blobName, run)[blobName] == run.delivered
  {
    if StatusOf(run) in {Success, NoOutput} {
      assert forall i :: 0 <= i < |run.delivered| ==> run.delivered[i] in run.delivered;
      AppendedAllFresh(m - {blobName}, run.delivered, blobName);
    }
  }

  /** The accumulator after `main` has handled each receipt with its run, in order. */
  function ResultsAfter(m: map<string, seq<ExtractionResult>>, receipts: seq<string>, runs: seq<ReceiptRun>): map<string, seq<ExtractionResult>>
    requires |runs| == |receipts|
  {
    if |receipts| == 0 then m
    else
      var n := |receipts| - 1;
      AfterReceipt(ResultsAfter(m, receipts[..n], runs[..n]), receipts[n], runs[n])
  }

  lemma ResultsAfterStep(m: map<string, seq<ExtractionResult>>, receipts: seq<string>, runs: seq<ReceiptRun>, i: nat)
    requires |runs| == |receipts| && i < |receipts|
    ensures ResultsAfter(m, receipts[..i + 1], runs[..i + 1])
      == AfterReceipt(ResultsAfter(m, receipts[..i], runs[..i]), receipts[i], runs[i])
  {
    assert receipts[..i + 1][..i] == receipts[..i] && runs[..i + 1][..i] == runs[..i];
  }

  /**
   * One pass of the loop body of `main`: the blob's accumulator entry is deleted, then the run's
   * results, if any, are aggregated; the status is the run's.
   */
  method ProcessReceipt(store: ResultStore, blobName: string, run: ReceiptRun)
    returns (status: Status, output: Option<Aggregation>)
    modifies store
    ensures status == StatusOf(run)
    ensures status == Success ==> output == Some(Outputs(old(store.results) - {blobName}, run.delivered)[0])
    ensures status != Success ==> output.None?
    ensures store.results == AfterReceipt(old(store.results), blobName, run)
  {
    store.Reset(blobName);
    output := None;
    match run
    case Raised =>
      status := Error;
    case Fetched(imageData, delivered) =>
      if imageData == "" {
        status := Skipped;
      } else {
        var outputs := Deliver(store, delivered);
        if |outputs| > 0 {
          status, output := Success, Some(outputs[0]);
        } else {
          status := NoOutput;
        }
      }
  }

  /** The number of successes among the statuses. */
  function Successes(statuses: seq<Status>): (n: nat)
    ensures n <= |statuses|
  {
    if |statuses| == 0 then 0
    else Successes(statuses[..|statuses| - 1]) + (if statuses[|statuses| - 1] == Success then 1 else 0)
  }

  /**
   * The receipt loop of `main`: every receipt ends in exactly one status and increments exactly
   * one of `successful` and `failed`, so the two add up to `total`; the accumulator ends as the
   * receipts' passes leave it.
   */
  method ProcessAll(store: ResultStore, receipts: seq<string>, runs: seq<ReceiptRun>)
    returns (statuses: seq<Status>, successful: nat, failed: nat)
    requires |runs| == |receipts|
    modifies store
    ensures |statuses| == |receipts|
    ensures forall i :: 0 <= i < |receipts| ==> statuses[i] == StatusOf(runs[i])
    ensures successful == Successes(statuses)
    ensures successful + failed == |receipts|
    ensures store.results == ResultsAfter(old(store.results), receipts, runs)
  {
    statuses, successful, failed := [], 0, 0;
    ghost var start := store.results;
    for i := 0 to |receipts|
      invariant |statuses| == i
      invariant forall k :: 0 <= k < i ==> statuses[k] == StatusOf(runs[k])
      invariant successful == Successes(statuses)
      invariant successful + failed == i
      invariant store.results == ResultsAfter(start, receipts[..i], runs[..i])
    {
      ResultsAfterStep(start, receipts, runs, i);
      var status, _ := ProcessReceipt(store, receipts[i], runs[i]);
      if status == Success {
        successful := successful + 1;
      } else {
        failed := failed + 1;
      }
      assert (statuses + [status])[..i] == statuses;
      statuses := statuses + [status];
    }
    assert receipts[..|receipts|] == receipts && runs[..|runs|] == runs;
  }
}

=== FILE: aoai_analysis.dfy ===
/**
 * The Azure OpenAI vision script: the sanitiser that turns a blob name into a file-name root, the
 * names of the two output files, the guard that builds a client only when it is configured, and
 * what one blob's analysis ends in.
 */
module AoaiAnalysis {
  import opened Wrappers
  import opened Text
  import opened ReceiptModel
  import opened WorkflowUtils

  /** A character the pattern `[^A-Za-z0-9]` matches, '_' included. */
  predicate IsOther(c: char) {
    !IsAsciiAlnum(c)
  }

  /** Every character is an ASCII letter, digit or '_'. */
  predicate WordChars(s: string) {
    forall i :: 0 <= i < |s| ==> IsAsciiAlnum(s[i]) || s[i] == '_'
  }

  /** No two '_' in a row. */
  predicate NoDoubleUnderscore(s: string) {
    forall i :: 0 <= i < |s| - 1 ==> !(s[i] == '_' && s[i + 1] == '_')
  }

  /**
   * `re.sub(r"[^A-Za-z0-9]+", "_", value)`: every maximal run of other characters becomes one
   * '_'. A character that continues a run adds nothing.
   */
  function Collapse(s: string): (r: string)
    ensures WordChars(r) && NoDoubleUnderscore(r)
    ensures |r| <= |s| && (|r| == 0 <==> |s| == 0)
    ensures |s| > 0 ==> (r[0] == '_' <==> IsOther(s[0]))
    ensures |s| > 0 ==> (r[|r| - 1] == '_' <==> IsOther(s[|s| - 1]))
  {
    if |s| == 0 then ""
    else
      var c := Collapse(s[..|s| - 1]);
      var x := s[|s| - 1];
      if IsAsciiAlnum(x) then c + [x]
      else if |s| > 1 && IsOther(s[|s| - 2]) then c
      else c + "_"
  }

  /** The ASCII letters and digits of `s`, in order. */
  function Alnums(s: string): string {
    if |s| == 0 then ""
    else Alnums(s[..|s| - 1]) + (if IsAsciiAlnum(s[|s| - 1]) then [s[|s| - 1]] else "")
  }

  /** The substitution keeps every letter and digit, in order, and adds none. */
  lemma {:induction false} CollapseKeepsAlnums(s: string)
    ensures Alnums(Collapse(s)) == Alnums(s)
  {
    if |s| > 0 {
      var init := s[..|s| - 1];
      var c := Collapse(init);
      CollapseKeepsAlnums(init);
      var x := s[|s| - 1];
      if IsAsciiAlnum(x) {
        assert (c + [x])[..|c|] == c;
      } else if !(|s| > 1 && IsOther(s[|s| - 2])) {
        assert (c + "_")[..|c|] == c;
      }
    }
  }

  /** A text of letters, digits and single '_' is its own substitution. */
  lemma {:induction false} CollapseClean(s: string)
    requires WordChars(s) && NoDoubleUnderscore(s)
    ensures Collapse(s) == s
  {
    if |s| > 0 {
      var init := s[..|s| - 1];
      assert WordChars(init) && NoDoubleUnderscore(init);
      CollapseClean(init);
      assert s == init + [s[|s| - 1]];
    }
  }

  /** The substitution sees only which characters are letters or digits and what those are. */
  lemma {:induction false} CollapseSameMask(s: string, t: string)
    requires |s| == |t|
    requires forall i :: 0 <= i < |s| ==> (IsAsciiAlnum(s[i]) <==> IsAsciiAlnum(t[i]))
    requires forall i :: 0 <= i < |s| && IsAsciiAlnum(s[i]) ==> s[i] == t[i]
    ensures Collapse(s) == Collapse(t)
  {
    if |s| > 0 {
      CollapseSameMask(s[..|s| - 1], t[..|t| - 1]);
    }
  }

  predicate IsUnderscore(c: char) {
    c == '_'
  }

  /** `sanitized.strip("_")`. */
  function StripUnderscores(s: string): string {
    RStrip(LStrip(s, IsUnderscore), IsUnderscore)
  }

  /** A stretch of a text of word characters without "__" keeps both properties. */
  lemma CleanSlice(s: string, a: nat, b: nat)
    requires a <= b <= |s| && WordChars(s) && NoDoubleUnderscore(s)
    ensures WordChars(s[a..b]) && NoDoubleUnderscore(s[a..b])
  {
    var t := s[a..b];
    assert forall i :: 0 <= i < |t| ==> t[i] == s[a + i];
  }

  /** Dropping the leading '_' of a clean text leaves a clean text that does not start with '_'. */
  lemma LStripClean(s: string)
    requires WordChars(s) && NoDoubleUnderscore(s)
    ensures var l := LStrip(s, IsUnderscore);
      WordChars(l) && NoDoubleUnderscore(l) && (|l| > 0 ==> l[0] != '_')
  {
    var l := LStrip(s, IsUnderscore);
    CleanSlice(s, |s| - |l|, |s|);
  }

  /** Dropping the trailing '_' as well leaves a clean text with no '_' at either end. */
  lemma RStripClean(l: string)
    requires WordChars(l) && NoDoubleUnderscore(l) && (|l| > 0 ==> l[0] != '_')
    ensures var t := RStrip(l, IsUnderscore);
      WordChars(t) && NoDoubleUnderscore(t) && (|t| > 0 ==> t[0] != '_' && t[|t| - 1] != '_')
  {
    var t := RStrip(l, IsUnderscore);
    CleanSlice(l, 0, |t|);
    if |t| > 0 {
      assert t[0] == l[0];
    }
  }

  /** Stripping the '_' of a clean text leaves a clean text that neither starts nor ends with '_'. */
  lemma StripUnderscoresClean(s: string)
    requires WordChars(s) && NoDoubleUnderscore(s)
    ensures var t := StripUnderscores(s);
      WordChars(t) && NoDoubleUnderscore(t) && (|t| > 0 ==> t[0] != '_' && t[|t| - 1] != '_')
  {
    LStripClean(s);
    RStripClean(LStrip(s, IsUnderscore));
  }

  lemma BlobClean()
    ensures WordChars("blob") && NoDoubleUnderscore("blob")
  {
  }

  /**
   * `_sanitize_for_filename`: the substitution, stripped of '_' at both ends, or "blob" when that
   * leaves nothing. The result is a non-empty run of letters, digits and single '_' that neither
   * starts nor ends with '_'.
   */
  function Sanitize(value: string): (r: string)
    ensures |r| > 0 && r[0] != '_' && r[|r| - 1] != '_'
    ensures WordChars(r) && NoDoubleUnderscore(r)
  {
    var t := StripUnderscores(Collapse(value));
    StripUnderscoresClean(Collapse(value));
    BlobClean();
    if t == "" then "blob" else t
  }

  /** A non-empty text of other characters substitutes to a single '_'. */
  lemma {:induction false} CollapseNoAlnum(s: string)
    requires |s| > 0 && forall i :: 0 <= i < |s| ==> IsOther(s[i])
    ensures Collapse(s) == "_"
  {
    if |s| > 1 {
      CollapseNoAlnum(s[..|s| - 1]);
    }
  }

  /** A name with no ASCII letter or digit becomes "blob". */
  lemma SanitizeNoAlnum(value: string)
    requires forall i :: 0 <= i < |value| ==> IsOther(value[i])
    ensures Sanitize(value) == "blob"
  {
    if |value| > 0 {
      CollapseNoAlnum(value);
      assert LStrip("_", IsUnderscore) == "";
    }
  }

  /** A non-empty name of letters and digits is kept as it is. */
  lemma SanitizeAlnum(value: string)
    requires |value| > 0 && forall i :: 0 <= i < |value| ==> IsAsciiAlnum(value[i])
    ensures Sanitize(value) == value
  {
    CollapseClean(value);
  }

  /** Sanitising a sanitised name changes nothing. */
  lemma SanitizeIdempotent(value: string)
    ensures Sanitize(Sanitize(value)) == Sanitize(value)
  {
    var r := Sanitize(value);
    CollapseClean(r);
    assert LStrip(r, IsUnderscore) == r;
  }

  /** Turning '\\' into '/' first makes no difference: both are replaced all the same. */
  lemma SanitizeIgnoresBackslash(value: string)
    ensures Sanitize(ReplaceChar(value, '\\', '/')) == Sanitize(value)
  {
    CollapseSameMask(ReplaceChar(value, '\\', '/'), value);
  }

  /** `f"{timestamp}_{safe_blob_name}"`; the timestamp is supplied by the caller. */
  function FilenameRoot(timestamp: string, blobName: string): string {
    timestamp + "_" + Sanitize(ReplaceChar(blobName, '\\', '/'))
  }

  function JsonName(timestamp: string, blobName: string): string {
    FilenameRoot(timestamp, blobName) + ".json"
  }

  function MarkdownName(timestamp: string, blobName: string): string {
    FilenameRoot(timestamp, blobName) + ".md"
  }

  /** The root ends in a letter or digit, and does not depend on backslashes. */
  lemma RootShape(timestamp: string, blobName: string)
    ensures var root := FilenameRoot(timestamp, blobName);
      root == timestamp + "_" + Sanitize(blobName) && IsAsciiAlnum(root[|root| - 1])
  {
    SanitizeIgnoresBackslash(blobName);
    var s := Sanitize(blobName);
    var root := timestamp + "_" + s;
    assert root[|root| - 1] == s[|s| - 1];
  }

  lemma OutputExtensions()
    ensures '.' !in ".json"[1..] && '/' !in ".json"
    ensures '.' !in ".md"[1..] && '/' !in ".md"
  {
    assert ".json"[1..] == "json";
    assert ".md"[1..] == "md";
  }

  /**
   * Both output files share the root `timestamp + "_" + Sanitize(blobName)`, and their extensions
   * are exactly ".json" and ".md".
   */
  lemma OutputNames(timestamp: string, blobName: string)
    ensures var root := timestamp + "_" + Sanitize(blobName);
      JsonName(timestamp, blobName) == root + ".json" && MarkdownName(timestamp, blobName) == root + ".md"
    ensures Extension(JsonName(timestamp, blobName)) == ".json"
    ensures Extension(MarkdownName(timestamp, blobName)) == ".md"
  {
    RootShape(timestamp, blobName);
    var root := FilenameRoot(timestamp, blobName);
    OutputExtensions();
    ExtensionOfStem(root, ".json");
    ExtensionOfStem(root, ".md");
  }

  /** The settings an `AzureOpenAI` client is built from. */
  datatype ClientConfig = ClientConfig(apiVersion: string, endpoint: string, apiKey: string)

  /**
   * `_create_client`: no client when the endpoint or the key is missing or empty; otherwise the
   * client, unless its construction raises (`constructionFails`, decided outside the model).
   */
  function CreateClient(endpoint: Option<string>, apiKey: Option<string>, apiVersion: string,
                        constructionFails: bool): (c: Option<ClientConfig>)
    ensures c.Some? <==> Truthy(endpoint) && Truthy(apiKey) && !constructionFails
    ensures c.Some? ==> c.value == ClientConfig(apiVersion, endpoint.value, apiKey.value)
  {
    if !Truthy(endpoint) || !Truthy(apiKey) then None
    else if constructionFails then None
    else Some(ClientConfig(apiVersion, endpoint.value, apiKey.value))
  }

  /** Without an endpoint or a key the construction is never attempted, so its outcome is irrelevant. */
  lemma CreateClientGuard(endpoint: Option<string>, apiKey: Option<string>, apiVersion: string)
    requires !Truthy(endpoint) || !Truthy(apiKey)
    ensures CreateClient(endpoint, apiKey, apiVersion, false) == CreateClient(endpoint, apiKey, apiVersion, true) == None
  {
  }

  /** How `analyze_blob` ends; a raising download also ends `main`. */
  datatype Analysis =
    | DownloadRaised
    | SkippedEmpty
    | RequestFailed
    | Saved(contentType: string, resultText: string, jsonName: string, markdownName: string)

  /**
   * `analyze_blob` for one blob, given its download (`None` when `get_blob_base64` raises, which
   * happens outside the function's `try`): skipped when the download is empty; otherwise the
   * request is sent with the blob's content type and either raises (`None`) or answers with its
   * choices, whose first message content (or "<no content>") is saved under the timestamped names.
   */
  function AnalyzeBlob(blobName: string, download: Option<string>, choices: Option<seq<string>>, timestamp: string): (a: Analysis)
    ensures download.None? <==> a == DownloadRaised
    ensures download == Some("") <==> a == SkippedEmpty
    ensures (download.Some? && download.value != "" && choices.None?) <==> a == RequestFailed
    ensures a.Saved? ==>
              && a.contentType == ResolveContentType(blobName)
              && a.resultText == (if |choices.value| > 0 then choices.value[0] else "<no content>")
              && a.jsonName == JsonName(timestamp, blobName)
              && a.markdownName == MarkdownName(timestamp, blobName)
  {
    if download.None? then DownloadRaised
    else if download.value == "" then SkippedEmpty
    else if choices.None? then RequestFailed
    else
      var text := if |choices.value| > 0 then choices.value[0] else "<no content>";
      Saved(ResolveContentType(blobName), text, JsonName(timestamp, blobName), MarkdownName(timestamp, blobName))
  }

  /**
   * The loop of `main` without its guards: the blobs are analysed in order until one whose
   * download raises, which is the last one reached.
   */
  function UntilRaise(blobNames: seq<string>, downloads: seq<Option<string>>): (rs: seq<string>)
    requires |downloads| == |blobNames|
    ensures rs <= blobNames
    ensures forall i :: 0 <= i < |rs| - 1 ==> downloads[i].Some?
    ensures |rs| < |blobNames| ==> |rs| > 0 && downloads[|rs| - 1].None?
  {
    if |blobNames| == 0 then []
    else if downloads[0].None? then [blobNames[0]]
    else [blobNames[0]] + UntilRaise(blobNames[1..], downloads[1..])
  }

  /**
   * The blobs `main` analyses: none when the deployment is unset or no client could be built (or
   * the listing is empty); otherwise the listed blobs in order, up to and including the first
   * whose download raises, since that exception ends the run.
   */
  function AnalysedBlobs(deployment: Option<string>, client: Option<ClientConfig>, blobNames: seq<string>,
                         downloads: seq<Option<string>>): (rs: seq<string>)
    requires |downloads| == |blobNames|
    ensures rs <= blobNames
    ensures !(Truthy(deployment) && client.Some?) ==> rs == []
    ensures Truthy(deployment) && client.Some? ==>
              && (forall i :: 0 <= i < |rs| - 1 ==> downloads[i].Some?)
              && (|rs| < |blobNames| ==> |rs| > 0 && downloads[|rs| - 1].None?)
    ensures rs == blobNames <==>
              blobNames == [] || (Truthy(deployment) && client.Some? && forall i :: 0 <= i < |blobNames| - 1 ==> downloads[i].Some?)
  {
    if !Truthy(deployment) || client.None? then [] else UntilRaise(blobNames, downloads)
  }
}

=== FILE: content_understanding.dfy ===
/**
 * The Content Understanding image-analysis client: its normalised endpoint, the two URLs it
 * builds, and the submit-then-poll protocol, with the service's answers supplied from outside.
 */
module ContentUnderstanding {
  import opened Wrappers
  import opened Text

  const ApiVersion := "2025-05-01-preview"
  const AnalyzerId := "prebuilt-imageAnalyzer"
  const ApiVersionQuery := "?api-version=2025-05-01-preview"

  /** The answer to one results request: its JSON body's "status", if any, or a request exception. */
  datatype PollAnswer = Answer(status: Option<string>) | RequestError

  /** `result.get("status", "Unknown")`. */
  function StatusOf(status: Option<string>): string {
    status.GetOr("Unknown")
  }

  /** A status after which polling goes on. */
  predicate Pending(status: Option<string>) {
    StatusOf(status) == "Running" || StatusOf(status) == "NotStarted"
  }

  /**
   * How polling ends: the body of attempt `attempts` is returned, the "Timeout waiting for
   * results" error is returned, or a request exception ends the program (`sys.exit(1)`).
   */
  datatype PollOutcome = Returned(attempts: nat, answer: PollAnswer) | Timeout | Exited(attempts: nat)

  /** The outcome of polling from attempt `k + 1` on, when at most `limit` attempts are allowed. */
  function PollFrom(answers: seq<PollAnswer>, k: nat, limit: nat): (o: PollOutcome)
    requires k <= limit <= |answers|
    ensures o.Returned? ==> k < o.attempts <= limit && o.answer == answers[o.attempts - 1]
    ensures o.Exited? ==> k < o.attempts <= limit && answers[o.attempts - 1] == RequestError
    decreases limit - k
  {
    if k == limit then Timeout
    else
      match answers[k]
      case RequestError => Exited(k + 1)
      case Answer(status) => if Pending(status) then PollFrom(answers, k + 1, limit) else Returned(k + 1, answers[k])
  }

  /** `while attempts < max_attempts` allows `max_attempts` attempts, and none when it is not positive. */
  function Limit(maxAttempts: int): nat {
    if maxAttempts < 0 then 0 else maxAttempts
  }

  /** The outcome the submit-then-poll protocol ends in. */
  datatype AnalysisOutcome = SubmitError | MissingRequestId | Polled(outcome: PollOutcome)

  class ContentUnderstandingClient {
    var endpoint: string
    var apiKey: string
    var apiVersion: string
    var analyzerId: string

    /** The endpoint has no trailing '/', and the version and analyzer are the fixed ones. */
    predicate Valid()
      reads this
    {
      (endpoint == "" || endpoint[|endpoint| - 1] != '/') && apiVersion == ApiVersion && analyzerId == AnalyzerId
    }

    /** `__init__`: the endpoint is kept without its trailing slashes. */
    constructor(endpoint: string, apiKey: string)
      ensures Valid()
      ensures this.endpoint == RStrip(endpoint, IsSlash) && this.apiKey == apiKey
    {
      this.endpoint := RStrip(endpoint, IsSlash);
      this.apiKey := apiKey;
      this.apiVersion := ApiVersion;
      this.analyzerId := AnalyzerId;
    }

    /** `f"{self.endpoint}{path}?api-version={self.api_version}"`. */
    function Versioned(path: string): string
      reads this
    {
      endpoint + path + "?api-version=" + apiVersion
    }

    /** The URL an image is submitted to. */
    function AnalyzeUrl(): string
      reads this
    {
      Versioned("/contentunderstanding/analyzers/" + analyzerId + ":analyze")
    }

    /** The URL the results of request `requestId` are polled at. */
    function ResultsUrl(requestId: string): string
      reads this
    {
      Versioned("/contentunderstanding/analyzerResults/" + requestId)
    }

    /**
     * `_poll_for_results`: `answers[j]` is the service's answer to attempt `j + 1`. Each attempt
     * returns its body unless the status is "Running" or "NotStarted"; a body without a status
     * reads as "Unknown" and is returned.
     */
    method PollForResults(requestId: string, maxAttempts: int, answers: seq<PollAnswer>)
      returns (outcome: PollOutcome)
      requires |answers| >= Limit(maxAttempts)
      ensures outcome == PollFrom(answers, 0, Limit(maxAttempts))
    {
      var url := ResultsUrl(requestId);
      var attempts := 0;
      while attempts < maxAttempts
        invariant 0 <= attempts <= Limit(maxAttempts)
        invariant PollFrom(answers, attempts, Limit(maxAttempts)) == PollFrom(answers, 0, Limit(maxAttempts))
        decreases maxAttempts - attempts
      {
        attempts := attempts + 1;
        match answers[attempts - 1]
        case RequestError =>
          return Exited(attempts);
        case Answer(status) =>
          var st := StatusOf(status);
          if st == "Succeeded" {
            return Returned(attempts, answers[attempts - 1]);
          } else if st == "Failed" {
            return Returned(attempts, answers[attempts - 1]);
          } else if st == "Running" || st == "NotStarted" {
            continue;
          } else {
            return Returned(attempts, answers[attempts - 1]);
          }
      }
      outcome := Timeout;
    }

    /**
     * `analyze_image`: a failed submission ends the program; a submission answered without an
     * "id" raises `ValueError` before any polling; otherwise the results are polled.
     */
    method AnalyzeImage(submitted: Option<Option<string>>, maxAttempts: int, answers: seq<PollAnswer>)
      returns (outcome: AnalysisOutcome)
      requires |answers| >= Limit(maxAttempts)
      ensures submitted.None? ==> outcome == SubmitError
      ensures submitted.Some? && (submitted.value.None? || submitted.value.value == "") ==> outcome == MissingRequestId
      ensures submitted.Some? && submitted.value.Some? && submitted.value.value != "" ==>
        outcome == Polled(PollFrom(answers, 0, Limit(maxAttempts)))
    {
      if submitted.None? {
        return SubmitError;
      }
      var requestId := submitted.value;
      if requestId.None? || requestId.value == "" {
        return MissingRequestId;
      }
      var polled := PollForResults(requestId.value, maxAttempts, answers);
      outcome := Polled(polled);
    }
  }

  /** A versioned URL is the endpoint and the path, followed by the API version query. */
  lemma VersionedShape(c: ContentUnderstandingClient, path: string)
    requires c.Valid()
    ensures var u := c.Versioned(path);
      StartsWith(u, c.endpoint + path) && EndsWith(u, ApiVersionQuery)
      && |u| == |c.endpoint + path| + |ApiVersionQuery|
  {
    var u := c.Versioned(path);
    assert u == (c.endpoint + path) + ApiVersionQuery;
    assert u[..|c.endpoint + path|] == c.endpoint + path;
    assert u[|u| - |ApiVersionQuery|..] == ApiVersionQuery;
  }

  /** The analyze URL is the endpoint, the analyzer's path and the API version query. */
  lemma AnalyzeUrlShape(c: ContentUnderstandingClient)
    requires c.Valid()
    ensures StartsWith(c.AnalyzeUrl(), c.endpoint + "/contentunderstanding/analyzers/" + AnalyzerId + ":analyze")
    ensures EndsWith(c.AnalyzeUrl(), ApiVersionQuery)
  {
    VersionedShape(c, "/contentunderstanding/analyzers/" + AnalyzerId + ":analyze");
    assert c.endpoint + ("/contentunderstanding/analyzers/" + AnalyzerId + ":analyze")
      == c.endpoint + "/contentunderstanding/analyzers/" + AnalyzerId + ":analyze";
  }

  /** The results URL is the endpoint, the results path and the request id, then the API version query. */
  lemma ResultsUrlShape(c: ContentUnderstandingClient, requestId: string)
    requires c.Valid()
    ensures StartsWith(c.ResultsUrl(requestId), c.endpoint + "/contentunderstanding/analyzerResults/" + requestId)
    ensures EndsWith(c.ResultsUrl(requestId), ApiVersionQuery)
  {
    VersionedShape(c, "/contentunderstanding/analyzerResults/" + requestId);
    assert c.endpoint + ("/contentunderstanding/analyzerResults/" + requestId)
      == c.endpoint + "/contentunderstanding/analyzerResults/" + requestId;
  }

  /** The results URL determines the request id: different requests are polled at different URLs. */
  lemma ResultsUrlInjective(c: ContentUnderstandingClient, a: string, b: string)
    requires c.Valid() && c.ResultsUrl(a) == c.ResultsUrl(b)
    ensures a == b
  {
    var p := c.endpoint + "/contentunderstanding/analyzerResults/";
    ResultsUrlShape(c, a);
    ResultsUrlShape(c, b);
    VersionedShape(c, "/contentunderstanding/analyzerResults/" + a);
    VersionedShape(c, "/contentunderstanding/analyzerResults/" + b);
    var u := c.ResultsUrl(a);
    assert |a| == |b|;
    assert a == u[|p|..|p| + |a|];
    assert b == u[|p|..|p| + |b|];
  }

  /** Polling never makes more than `max_attempts` requests, and none when that is not positive. */
  lemma PollBound(answers: seq<PollAnswer>, maxAttempts: int)
    requires |answers| >= Limit(maxAttempts)
    ensures var o := PollFrom(answers, 0, Limit(maxAttempts));
      (o.Returned? || o.Exited?) ==> 1 <= o.attempts <= maxAttempts
    ensures maxAttempts <= 0 ==> PollFrom(answers, 0, Limit(maxAttempts)) == Timeout
  {
  }

  /**
   * Polling times out exactly when all `max_attempts` answers are bodies whose status is
   * "Running" or "NotStarted".
   */
  lemma {:induction false} TimeoutIff(answers: seq<PollAnswer>, k: nat, limit: nat)
    requires k <= limit <= |answers|
    ensures PollFrom(answers, k, limit) == Timeout <==>
      forall j :: k <= j < limit ==> answers[j].Answer? && Pending(answers[j].status)
    decreases limit - k
  {
    if k < limit {
      TimeoutIff(answers, k + 1, limit);
    }
  }

  /**
   * A returned body is the first one that is not pending: every earlier attempt was answered
   * with "Running" or "NotStarted".
   */
  lemma {:induction false} ReturnedIsFirstSettled(answers: seq<PollAnswer>, k: nat, limit: nat)
    requires k <= limit <= |answers|
    ensures var o := PollFrom(answers, k, limit);
      o.Returned? ==>
        && o.answer.Answer? && !Pending(o.answer.status)
        && forall j :: k <= j < o.attempts - 1 ==> answers[j].Answer? && Pending(answers[j].status)
    decreases limit - k
  {
    if k < limit {
      ReturnedIsFirstSettled(answers, k + 1, limit);
    }
  }

  /** A first answer without a status is returned at once. */
  lemma MissingStatusReturns(answers: seq<PollAnswer>, maxAttempts: int)
    requires maxAttempts > 0 && |answers| >= maxAttempts && answers[0] == Answer(None)
    ensures PollFrom(answers, 0, Limit(maxAttempts)) == Returned(1, Answer(None))
  {
    assert StatusOf(None) == "Unknown";
  }
}

=== FILE: doc_intel.dfy ===
/**
 * The Document Intelligence receipt script: the price formatting of its report, the name each
 * response is saved under, what processing one blob returns, and the success and failure counts
 * of `main`.
 */
module DocIntel {
  import opened Wrappers
  import opened Text
  import opened WorkflowUtils

  /** `[f"{p}" for p in values]`, with `str` supplied by the caller. */
  function Rendered<V>(values: seq<V>, str: V -> string): (r: seq<string>)
    ensures |r| == |values|
    ensures forall i :: 0 <= i < |values| ==> r[i] == str(values[i])
  {
    if |values| == 0 then [] else Rendered(values[..|values| - 1], str) + [str(values[|values| - 1])]
  }

  /**
   * `_format_price`: "N/A" for a missing or empty dictionary, otherwise the rendered values of the
   * dictionary, in order, with nothing between them.
   */
  function FormatPrice<V>(values: Option<seq<V>>, str: V -> string): (s: string)
    ensures values.None? || values.value == [] ==> s == "N/A"
  {
    if values.None? || values.value == [] then "N/A" else Join(Rendered(values.value, str), "")
  }

  /** One more value adds exactly its rendering at the end. */
  lemma FormatPriceAppend<V>(values: seq<V>, v: V, str: V -> string)
    requires values != []
    ensures FormatPrice(Some(values + [v]), str) == FormatPrice(Some(values), str) + str(v)
  {
    var r := Rendered(values + [v], str);
    assert (values + [v])[..|values|] == values;
    assert r == Rendered(values, str) + [str(v)];
    assert r[..|r| - 1] == Rendered(values, str);
  }

  /** A single value is rendered on its own. */
  lemma FormatPriceSingle<V>(v: V, str: V -> string)
    ensures FormatPrice(Some([v]), str) == str(v)
  {
    assert Rendered([v], str) == [str(v)];
  }

  /** `f"response_{blob_name.replace('/', '_').replace('\\', '_')}.json"`. */
  function ResponseFilename(blobName: string): (f: string)
    ensures |f| == |blobName| + 14
    ensures StartsWith(f, "response_") && EndsWith(f, ".json")
    ensures '/' !in f[9..|f| - 5] && '\\' !in f[9..|f| - 5]
  {
    var safe := ReplaceChar(ReplaceChar(blobName, '/', '_'), '\\', '_');
    var f := "response_" + safe + ".json";
    assert f[..9] == "response_";
    assert f[|f| - 5..] == ".json";
    assert f[9..|f| - 5] == safe;
    f
  }

  /** The name has no separator at all, since neither fixed part has one. */
  lemma ResponseFilenameNoSeparator(blobName: string)
    ensures '/' !in ResponseFilename(blobName) && '\\' !in ResponseFilename(blobName)
  {
    var f := ResponseFilename(blobName);
    var safe := ReplaceChar(ReplaceChar(blobName, '/', '_'), '\\', '_');
    assert f == "response_" + safe + ".json";
    forall i | 0 <= i < |f| ensures f[i] != '/' && f[i] != '\\' {
      if 9 <= i < |f| - 5 {
        assert f[i] == safe[i - 9];
      }
    }
  }

  /**
   * Apart from ':', which this script keeps, the file name carries the same safe name as the
   * workflow's `safe_filename`.
   */
  lemma ResponseFilenameIsSafeName(blobName: string)
    requires ':' !in blobName
    ensures ResponseFilename(blobName) == "response_" + SafeFilename(blobName) + ".json"
  {
    var a := ReplaceChar(ReplaceChar(blobName, '/', '_'), '\\', '_');
    var b := SafeFilename(blobName);
    assert forall i :: 0 <= i < |a| ==> a[i] == b[i];
  }

  /** `receipts.documents` of an analysis result: how many receipt documents it found. */
  datatype Analysis = Analysis(documents: nat)

  /**
   * What happens to one blob outside the model: the download raises, or it returns the blob's data
   * and the analysis then either raises (`None`) or returns a result.
   */
  datatype BlobRun = DownloadRaised | Downloaded(blobData: string, analysis: Option<Analysis>)

  /** The value `process_receipt_from_blob` returns, and the file its response was saved to. */
  datatype Processed = Processed(result: Option<Analysis>, savedAs: Option<string>)

  /**
   * `process_receipt_from_blob`: `None` when the download raises or is empty or the analysis
   * raises, otherwise the analysis result, saved under its file name first.
   */
  function ProcessReceipt(blobName: string, run: BlobRun): (p: Processed)
    ensures p.result.None? <==> run.DownloadRaised? || run.blobData == "" || run.analysis.None?
    ensures p.result.Some? ==> p.result == run.analysis && p.savedAs == Some(ResponseFilename(blobName))
    ensures p.result.None? ==> p.savedAs.None?
  {
    match run
    case DownloadRaised => Processed(None, None)
    case Downloaded(data, analysis) =>
      if data == "" || analysis.None? then Processed(None, None)
      else Processed(analysis, Some(ResponseFilename(blobName)))
  }

  /** A blob counts as processed when its analysis found at least one receipt document. */
  predicate Succeeded(blobName: string, run: BlobRun) {
    var r := ProcessReceipt(blobName, run).result;
    r.Some? && r.value.documents > 0
  }

  /** The number of blobs among the first `|names|` that succeeded. */
  function SuccessCount(names: seq<string>, runs: seq<BlobRun>): (n: nat)
    requires |runs| == |names|
    ensures n <= |names|
  {
    if |names| == 0 then 0
    else
      SuccessCount(names[..|names| - 1], runs[..|runs| - 1])
      + (if Succeeded(names[|names| - 1], runs[|runs| - 1]) then 1 else 0)
  }

  /**
   * The receipt loop of `main`: each blob increments exactly one of `successful` (a result with
   * documents) and `failed` (no result, or a result without documents).
   */
  method CountOutcomes(names: seq<string>, runs: seq<BlobRun>) returns (successful: nat, failed: nat)
    requires |runs| == |names|
    ensures successful == SuccessCount(names, runs)
    ensures successful + failed == |names|
  {
    successful, failed := 0, 0;
    for i := 0 to |names|
      invariant successful == SuccessCount(names[..i], runs[..i])
      invariant successful + failed == i
    {
      assert names[..i + 1][..i] == names[..i] && runs[..i + 1][..i] == runs[..i];
      var receipts := ProcessReceipt(names[i], runs[i]).result;
      if receipts.None? {
        failed := failed + 1;
        continue;
      }
      if receipts.value.documents > 0 {
        successful := successful + 1;
      } else {
        failed := failed + 1;
      }
    }
    assert names[..|names|] == names && runs[..|runs|] == runs;
  }

  /** Every blob whose download fails or is empty counts as a failure. */
  lemma {:induction false} NoDataFails(names: seq<string>, runs: seq<BlobRun>)
    requires |runs| == |names|
    requires forall i :: 0 <= i < |runs| ==> runs[i].DownloadRaised? || runs[i].blobData == ""
    ensures SuccessCount(names, runs) == 0
  {
    if |names| > 0 {
      NoDataFails(names[..|names| - 1], runs[..|runs| - 1]);
    }
  }
}

=== FILE: images_ocr.dfy ===
/**
 * The Mistral OCR script for images: the content type and output file name of each blob, the
 * status an exception in the request is reported as, and the bookkeeping of `main`.
 */
module ImagesOcr {
  import opened Text
  import opened WorkflowUtils
  import opened PdfsOcr

  /** The content type `main` picks: "image/jpeg" unless the extension is ".png" or ".pdf". */
  function ImageContentType(blobName: string): (ct: string)
    ensures ct == ResolveContentType(blobName)
  {
    var ext := Extension(Lower(blobName));
    if ext == ".png" then "image/png"
    else if ext == ".pdf" then "application/pdf"
    else "image/jpeg"
  }

  /** `f"response_{os.path.basename(blob_name).replace('.', '_')}.json"`. */
  function ImageOutputFilename(blobName: string): string {
    "response_" + ReplaceChar(Basename(blobName), '.', '_') + ".json"
  }

  /**
   * The image script's name is the PDF script's name behind "response_", so it too has no '/',
   * ends in ".json", and that is its only '.'.
   */
  lemma ImageOutputFilenameShape(blobName: string)
    ensures ImageOutputFilename(blobName) == "response_" + OutputFilename(blobName)
    ensures var f := ImageOutputFilename(blobName);
      '/' !in f && EndsWith(f, ".json") && Count(f, '.') == 1
  {
    var b := ReplaceChar(Basename(blobName), '.', '_');
    var o := OutputFilename(blobName);
    assert o == b + ".json";
    assert "response_" + b + ".json" == "response_" + o;
    OutputFilenameShape(blobName);
    ResponseLead();
    CountAppend("response_", o, '.');
    EndsWithPrefixed("response_", o, ".json");
  }

  lemma ResponseLead()
    ensures '/' !in "response_" && Count("response_", '.') == 0
  {
    CountAbsent("response_", '.');
  }

  /** The request as the environment answers it: an exception, or a status code. */
  datatype RequestOutcome = Raised | Answered(statusCode: int)

  /** `process_document`'s status code: an exception is reported as 500. */
  function StatusCodeOf(r: RequestOutcome): (code: int)
    ensures r.Raised? ==> code == 500
    ensures r.Answered? ==> code == r.statusCode
  {
    match r
    case Raised => 500
    case Answered(code) => code
  }

  /**
   * What one blob meets outside the model: a download that raises, or its downloaded data and the
   * request's outcome.
   */
  datatype ImageRun = ImageDownloadRaised | ImageRun(imageData: string, request: RequestOutcome)

  /**
   * `successful_docs`, `failed_docs`, the names responses were saved under, and whether an
   * exception left the loop (the outer `try` of `main` then prints it and skips the summary).
   */
  datatype ImageLedger = ImageLedger(successful: seq<string>, failed: seq<string>, saved: seq<string>, aborted: bool)

  /**
   * One blob: nothing once the loop has been left; a raising download leaves it; otherwise skipped
   * when empty, else saved, then successful on 200 and failed otherwise.
   */
  function Track(l: ImageLedger, name: string, run: ImageRun): ImageLedger {
    if l.aborted then l
    else if run.ImageDownloadRaised? then l.(aborted := true)
    else if run.imageData == "" then l
    else
      var saved := l.saved + [ImageOutputFilename(name)];
      if StatusCodeOf(run.request) == 200 then l.(successful := l.successful + [name], saved := saved)
      else l.(failed := l.failed + [name], saved := saved)
  }

  function LedgerOfImages(names: seq<string>, runs: seq<ImageRun>): ImageLedger
    requires |runs| == |names|
  {
    if |names| == 0 then ImageLedger([], [], [], false)
    else Track(LedgerOfImages(names[..|names| - 1], runs[..|runs| - 1]), names[|names| - 1], runs[|runs| - 1])
  }

  /**
   * The loop of `main` over the listed blobs, which a raising download leaves (`aborted`); the
   * summary is printed only when it was not left.
   */
  method ProcessImages(names: seq<string>, runs: seq<ImageRun>)
    returns (successful: seq<string>, failed: seq<string>, saved: seq<string>, aborted: bool)
    requires |runs| == |names|
    ensures ImageLedger(successful, failed, saved, aborted) == LedgerOfImages(names, runs)
    ensures aborted <==> exists k :: 0 <= k < |runs| && runs[k].ImageDownloadRaised?
  {
    successful, failed, saved, aborted := [], [], [], false;
    var i := 0;
    while i < |names| && !aborted
      invariant 0 <= i <= |names|
      invariant ImageLedger(successful, failed, saved, aborted) == LedgerOfImages(names[..i], runs[..i])
    {
      assert names[..i + 1][..i] == names[..i] && runs[..i + 1][..i] == runs[..i];
      var run := runs[i];
      i := i + 1;
      if run.ImageDownloadRaised? {
        aborted := true;
        continue;
      }
      if run.imageData == "" {
        continue;
      }
      var statusCode := StatusCodeOf(run.request);
      saved := saved + [ImageOutputFilename(names[i - 1])];
      if statusCode == 200 {
        successful := successful + [names[i - 1]];
      } else {
        failed := failed + [names[i - 1]];
      }
    }
    if aborted {
      AbortedStays(names, runs, i);
    } else {
      assert names[..|names|] == names && runs[..|runs|] == runs;
    }
    AbortedIff(names, runs);
  }

  /** Once the loop has been left, the later blobs change nothing. */
  lemma {:induction false} AbortedStays(names: seq<string>, runs: seq<ImageRun>, k: nat)
    requires |runs| == |names| && k <= |names|
    requires LedgerOfImages(names[..k], runs[..k]).aborted
    ensures LedgerOfImages(names, runs) == LedgerOfImages(names[..k], runs[..k])
  {
    if k < |names| {
      var init, rinit := names[..|names| - 1], runs[..|runs| - 1];
      assert init[..k] == names[..k] && rinit[..k] == runs[..k];
      AbortedStays(init, rinit, k);
    } else {
      assert names[..k] == names && runs[..k] == runs;
    }
  }

  /** The loop is left exactly when some download raises. */
  lemma {:induction false} AbortedIff(names: seq<string>, runs: seq<ImageRun>)
    requires |runs| == |names|
    ensures LedgerOfImages(names, runs).aborted <==> exists k :: 0 <= k < |runs| && runs[k].ImageDownloadRaised?
  {
    if |names| > 0 {
      var init, rinit := names[..|names| - 1], runs[..|runs| - 1];
      AbortedIff(init, rinit);
      TrackAborted(LedgerOfImages(init, rinit), names[|names| - 1], runs[|runs| - 1]);
      RaisedSplit(runs, rinit);
    }
  }

  /** A step leaves the loop when it had been left already or the download raises. */
  lemma TrackAborted(l: ImageLedger, name: string, run: ImageRun)
    ensures Track(l, name, run).aborted <==> l.aborted || run.ImageDownloadRaised?
  {
  }

  /** Some download raises exactly when one of the earlier ones or the last one does. */
  lemma RaisedSplit(runs: seq<ImageRun>, rinit: seq<ImageRun>)
    requires |runs| > 0 && rinit == runs[..|runs| - 1]
    ensures (exists k :: 0 <= k < |runs| && runs[k].ImageDownloadRaised?) <==>
            (exists k :: 0 <= k < |rinit| && rinit[k].ImageDownloadRaised?) || runs[|runs| - 1].ImageDownloadRaised?
  {
    if exists k :: 0 <= k < |runs| && runs[k].ImageDownloadRaised? {
      var k :| 0 <= k < |runs| && runs[k].ImageDownloadRaised?;
      if k < |rinit| {
        assert rinit[k] == runs[k];
      }
    }
  }

  /**
   * The run stops at the first blob whose download raises: the lists are those of the blobs before
   * it, and nothing after it is downloaded, sent or saved.
   */
  lemma StopsAtFirstRaise(names: seq<string>, runs: seq<ImageRun>, k: nat)
    requires |runs| == |names| && k < |names|
    requires runs[k].ImageDownloadRaised? && forall j :: 0 <= j < k ==> runs[j].ImageRun?
    ensures LedgerOfImages(names, runs) == LedgerOfImages(names[..k], runs[..k]).(aborted := true)
  {
    var pre, rpre := names[..k + 1], runs[..k + 1];
    assert pre[..k] == names[..k] && rpre[..k] == runs[..k];
    AbortedIff(names[..k], runs[..k]);
    AbortedStays(names, runs, k + 1);
  }

  /** The number of blobs whose download was empty. */
  function SkippedImages(runs: seq<ImageRun>): nat {
    if |runs| == 0 then 0
    else
      var last := runs[|runs| - 1];
      SkippedImages(runs[..|runs| - 1]) + (if last.ImageRun? && last.imageData == "" then 1 else 0)
  }

  /**
   * Every blob that was handled and not skipped is saved once and lands in exactly one of the two
   * lists; when no download raised, that makes `successful + failed == total - skipped`.
   */
  lemma {:induction false} ImageCounts(names: seq<string>, runs: seq<ImageRun>)
    requires |runs| == |names|
    ensures var l := LedgerOfImages(names, runs);
      && |l.successful| + |l.failed| == |l.saved|
      && (!l.aborted ==> |l.saved| == |names| - SkippedImages(runs))
  {
    if |names| > 0 {
      ImageCounts(names[..|names| - 1], runs[..|runs| - 1]);
    }
  }

  /** The lists only grow: what the first blobs put in a list stays there. */
  lemma LedgerGrows(l: ImageLedger, name: string, run: ImageRun)
    ensures var t := Track(l, name, run);
      l.successful <= t.successful && l.failed <= t.failed && l.saved <= t.saved
  {
    if !l.aborted && run.ImageRun? && run.imageData != "" {
      var f := ImageOutputFilename(name);
      assert (l.saved + [f])[..|l.saved|] == l.saved;
      assert (l.successful + [name])[..|l.successful|] == l.successful;
      assert (l.failed + [name])[..|l.failed|] == l.failed;
    }
  }

  /**
   * A blob that was downloaded but whose request raised is among the failed, provided no earlier
   * download raised (which would have ended the loop before it).
   */
  lemma {:induction false} RaisedFails(names: seq<string>, runs: seq<ImageRun>, i: nat)
    requires |runs| == |names| && i < |names|
    requires runs[i].ImageRun? && runs[i].imageData != "" && runs[i].request.Raised?
    ensures (forall j :: 0 <= j < i ==> runs[j].ImageRun?) ==> names[i] in LedgerOfImages(names, runs).failed
  {
    if forall j :: 0 <= j < i ==> runs[j].ImageRun? {
      var init, rinit := names[..|names| - 1], runs[..|runs| - 1];
      if i < |names| - 1 {
        RaisedFails(init, rinit, i);
        var l := LedgerOfImages(init, rinit);
        LedgerGrows(l, names[|names| - 1], runs[|runs| - 1]);
        assert names[i] in l.failed;
      } else {
        AbortedIff(init, rinit);
        assert forall k :: 0 <= k < |rinit| ==> rinit[k] == runs[k];
      }
    }
  }
}

=== FILE: load_test.dfy ===
/**
 * The Mistral load test: the latency summary (sorting and the choice of percentile indices) and
 * the synchronous retry loop of `run_load_test`, with every HTTP answer supplied from outside.
 */
module LoadTest {
  import opened Wrappers

  // ---------------------------------------------------------------- sorting

  predicate Ascending(s: seq<real>) {
    forall i, j :: 0 <= i < j < |s| ==> s[i] <= s[j]
  }

  /** `x` put into the ascending `s` before the first element not below it. */
  function Insert(x: real, s: seq<real>): (r: seq<real>)
    requires Ascending(s)
    ensures Ascending(r) && multiset(r) == multiset(s) + multiset{x} && |r| == |s| + 1
    ensures r[0] == x || (|s| > 0 && r[0] == s[0])
  {
    if |s| == 0 || x <= s[0] then [x] + s
    else
      var t := Insert(x, s[1..]);
      assert s == [s[0]] + s[1..];
      [s[0]] + t
  }

  /** `sorted(latencies)`. */
  function SortReals(xs: seq<real>): (r: seq<real>)
    ensures Ascending(r) && multiset(r) == multiset(xs) && |r| == |xs|
  {
    if |xs| == 0 then []
    else
      assert xs == xs[..|xs| - 1] + [xs[|xs| - 1]];
      Insert(xs[|xs| - 1], SortReals(xs[..|xs| - 1]))
  }

  /** In an ascending list every element lies between the first and the last. */
  lemma AscendingBounds(r: seq<real>, x: real)
    requires Ascending(r) && x in r
    ensures r[0] <= x <= r[|r| - 1]
  {
    var i :| 0 <= i < |r| && r[i] == x;
  }

  /** Lists with the same multiset have the same elements. */
  lemma SameMembers(a: seq<real>, b: seq<real>)
    requires multiset(a) == multiset(b)
    ensures forall x :: x in a <==> x in b
  {
    forall x ensures x in a <==> x in b {
      assert x in a <==> x in multiset(a);
      assert x in b <==> x in multiset(b);
    }
  }

  /** The first and last elements of the sorted list are the smallest and largest latencies. */
  lemma SortedEnds(xs: seq<real>)
    requires |xs| > 0
    ensures var r := SortReals(xs);
      r[0] in xs && r[|r| - 1] in xs
      && forall x :: x in xs ==> r[0] <= x <= r[|r| - 1]
  {
    AscendingEnds(SortReals(xs), xs);
  }

  lemma AscendingEnds(r: seq<real>, xs: seq<real>)
    requires |r| > 0 && Ascending(r) && multiset(r) == multiset(xs)
    ensures r[0] in xs && r[|r| - 1] in xs
    ensures forall x :: x in xs ==> r[0] <= x <= r[|r| - 1]
  {
    SameMembers(r, xs);
    assert r[0] in r && r[|r| - 1] in r;
    forall x | x in xs ensures r[0] <= x <= r[|r| - 1] {
      AscendingBounds(r, x);
    }
  }

  /** Every element of the sorted list is one of the latencies. */
  lemma SortedElement(xs: seq<real>, k: nat)
    requires k < |xs|
    ensures SortReals(xs)[k] in xs
  {
    var r := SortReals(xs);
    assert r[k] in multiset(r);
  }

  // ---------------------------------------------------------------- percentile index

  /** Python's `round` (half to even) of `a / 100`. */
  function RoundPercent(a: nat): (k: nat)
    ensures 2 * a - 100 <= 200 * k <= 2 * a + 100
  {
    var q, r := a / 100, a % 100;
    if 2 * r < 100 then q
    else if 2 * r > 100 then q + 1
    else if q % 2 == 0 then q
    else q + 1
  }

  lemma RoundPercentMonotone(a: nat, b: nat)
    requires a <= b
    ensures RoundPercent(a) <= RoundPercent(b)
  {
    if a / 100 == b / 100 {
      assert a % 100 <= b % 100;
    } else {
      assert a / 100 < b / 100;
    }
  }

  /** `max(0, min(n - 1, int(round((p / 100.0) * (n - 1)))))`. */
  function PercentileIndex(p: nat, n: nat): (k: nat)
    requires n > 0
    ensures k < n
  {
    var k := RoundPercent(p * (n - 1));
    if k > n - 1 then n - 1 else k
  }

  /** A higher percentile never picks an earlier element. */
  lemma PercentileIndexMonotone(p: nat, q: nat, n: nat)
    requires n > 0 && p <= q
    ensures PercentileIndex(p, n) <= PercentileIndex(q, n)
  {
    ScaleMonotone(p, q, n - 1);
    RoundPercentMonotone(p * (n - 1), q * (n - 1));
  }

  lemma ScaleMonotone(p: nat, q: nat, m: nat)
    requires p <= q
    ensures p * m <= q * m
  {
  }

  // ---------------------------------------------------------------- summary

  /**
   * The library functions the summary applies: `round(·, 2)` and `statistics.mean`, `median` and
   * `stdev`, all left abstract.
   */
  datatype Statistics = Statistics(
    round2: real -> real,
    mean: seq<real> -> real,
    median: seq<real> -> real,
    stdev: seq<real> -> real)

  datatype LatencySummary = LatencySummary(
    count: nat, minMs: real, maxMs: real, meanMs: real, medianMs: real,
    p50Ms: real, p90Ms: real, p95Ms: real, p99Ms: real, stdevMs: real)

  /** `compute_summary`: `None` stands for the empty dictionary returned for no latencies. */
  function ComputeSummary(latencies: seq<real>, st: Statistics): (s: Option<LatencySummary>)
    ensures s.None? <==> |latencies| == 0
    ensures s.Some? ==> s.value.count == |latencies|
    ensures s.Some? && |latencies| == 1 ==> s.value.stdevMs == 0.0
  {
    if |latencies| == 0 then None
    else
      var sorted := SortReals(latencies);
      var n := |sorted|;
      Some(LatencySummary(
        n, st.round2(sorted[0]), st.round2(sorted[n - 1]), st.round2(st.mean(sorted)),
        st.round2(st.median(sorted)),
        st.round2(sorted[PercentileIndex(50, n)]), st.round2(sorted[PercentileIndex(90, n)]),
        st.round2(sorted[PercentileIndex(95, n)]), st.round2(sorted[PercentileIndex(99, n)]),
        if n > 1 then st.round2(st.stdev(sorted)) else 0.0))
  }

  ghost predicate MonotoneRounding(round2: real -> real) {
    forall x, y :: x <= y ==> round2(x) <= round2(y)
  }

  lemma RoundedOrder(round2: real -> real, x: real, y: real)
    requires MonotoneRounding(round2) && x <= y
    ensures round2(x) <= round2(y)
  {
  }

  /** Two picks from an ascending list, rounded, keep their order. */
  lemma RoundedPicks(round2: real -> real, sorted: seq<real>, i: nat, j: nat)
    requires MonotoneRounding(round2) && Ascending(sorted) && i <= j < |sorted|
    ensures round2(sorted[i]) <= round2(sorted[j])
  {
    RoundedOrder(round2, sorted[i], sorted[j]);
  }

  /**
   * With a monotone rounding the fields are ordered min <= p50 <= p90 <= p95 <= p99 <= max, and
   * the minimum and maximum bound every rounded latency.
   */
  lemma SummaryOrder(latencies: seq<real>, st: Statistics)
    requires |latencies| > 0 && MonotoneRounding(st.round2)
    ensures var s := ComputeSummary(latencies, st).value;
      && s.minMs <= s.p50Ms <= s.p90Ms <= s.p95Ms <= s.p99Ms <= s.maxMs
      && forall x :: x in latencies ==> s.minMs <= st.round2(x) <= s.maxMs
  {
    SummaryChain(latencies, st);
    SummaryBounds(latencies, st);
  }

  /** With a monotone rounding the extreme and percentile fields are ordered. */
  lemma SummaryChain(latencies: seq<real>, st: Statistics)
    requires |latencies| > 0 && MonotoneRounding(st.round2)
    ensures var s := ComputeSummary(latencies, st).value;
      s.minMs <= s.p50Ms <= s.p90Ms <= s.p95Ms <= s.p99Ms <= s.maxMs
  {
    SummaryPicks(latencies, st);
    PicksOrdered(st.round2, SortReals(latencies));
  }

  /** With a monotone rounding the minimum and maximum fields bound every rounded latency. */
  lemma SummaryBounds(latencies: seq<real>, st: Statistics)
    requires |latencies| > 0 && MonotoneRounding(st.round2)
    ensures var s := ComputeSummary(latencies, st).value;
      forall x :: x in latencies ==> s.minMs <= st.round2(x) <= s.maxMs
  {
    var sorted := SortReals(latencies);
    var n := |sorted|;
    SummaryPicks(latencies, st);
    SortedEnds(latencies);
    var s := ComputeSummary(latencies, st).value;
    forall x | x in latencies ensures s.minMs <= st.round2(x) <= s.maxMs {
      RoundedOrder(st.round2, sorted[0], x);
      RoundedOrder(st.round2, x, sorted[n - 1]);
    }
  }

  /** The extreme and percentile fields are rounded picks from the sorted latencies. */
  lemma SummaryPicks(latencies: seq<real>, st: Statistics)
    requires |latencies| > 0
    ensures var s, sorted := ComputeSummary(latencies, st).value, SortReals(latencies);
      var n := |sorted|;
      && s.minMs == st.round2(sorted[0]) && s.maxMs == st.round2(sorted[n - 1])
      && s.p50Ms == st.round2(sorted[PercentileIndex(50, n)]) && s.p90Ms == st.round2(sorted[PercentileIndex(90, n)])
      && s.p95Ms == st.round2(sorted[PercentileIndex(95, n)]) && s.p99Ms == st.round2(sorted[PercentileIndex(99, n)])
  {
  }

  /** The rounded picks of an ascending list are ordered like the percentiles. */
  lemma PicksOrdered(round2: real -> real, sorted: seq<real>)
    requires |sorted| > 0 && Ascending(sorted) && MonotoneRounding(round2)
    ensures var n := |sorted|;
      && round2(sorted[0]) <= round2(sorted[PercentileIndex(50, n)])
      && round2(sorted[PercentileIndex(50, n)]) <= round2(sorted[PercentileIndex(90, n)])
      && round2(sorted[PercentileIndex(90, n)]) <= round2(sorted[PercentileIndex(95, n)])
      && round2(sorted[PercentileIndex(95, n)]) <= round2(sorted[PercentileIndex(99, n)])
      && round2(sorted[PercentileIndex(99, n)]) <= round2(sorted[n - 1])
  {
    var n := |sorted|;
    var i50, i90, i95, i99 := PercentileIndex(50, n), PercentileIndex(90, n), PercentileIndex(95, n), PercentileIndex(99, n);
    PercentileIndexMonotone(50, 90, n);
    PercentileIndexMonotone(90, 95, n);
    PercentileIndexMonotone(95, 99, n);
    RoundedPicks(round2, sorted, 0, i50);
    RoundedPicks(round2, sorted, i50, i90);
    RoundedPicks(round2, sorted, i90, i95);
    RoundedPicks(round2, sorted, i95, i99);
    RoundedPicks(round2, sorted, i99, n - 1);
  }

  /** Every percentile field is the rounding of some latency. */
  lemma PercentilesAreLatencies(latencies: seq<real>, st: Statistics)
    requires |latencies| > 0
    ensures var s := ComputeSummary(latencies, st).value;
      exists x :: x in latencies && s.p50Ms == st.round2(x)
    ensures var s := ComputeSummary(latencies, st).value;
      exists x :: x in latencies && s.p99Ms == st.round2(x)
  {
    var n := |latencies|;
    SortedElement(latencies, PercentileIndex(50, n));
    SortedElement(latencies, PercentileIndex(99, n));
  }

  // ---------------------------------------------------------------- retry loop

  /** One HTTP attempt as the environment answers it: a status code (`None` for a request error) and its latency. */
  datatype Attempt = Attempt(status: Option<int>, latency: real)

  /** What the loop does with an answer. */
  datatype Action = Backoff | Succeed | FailRetry | FailStop

  function ActionOf(status: Option<int>): Action {
    match status
    case None => Backoff
    case Some(code) =>
      if code == 429 then Backoff
      else if 200 <= code < 300 then Succeed
      else if 500 <= code < 600 then FailRetry
      else FailStop
  }

  /** An answer that ends the iteration's loop. */
  predicate Terminal(a: Attempt) {
    ActionOf(a.status) == Succeed || ActionOf(a.status) == FailStop
  }

  /** The most attempts `while attempt <= max_retries` allows. */
  function Limit(maxRetries: int): nat {
    if maxRetries < 0 then 0 else maxRetries + 1
  }

  /** The attempts made from attempt `from` on: up to the first terminal answer, or up to the limit. */
  function AttemptsFrom(outcomes: seq<Attempt>, from: nat, limit: nat): (k: nat)
    requires from <= limit <= |outcomes|
    ensures from <= k <= limit
    ensures k < limit ==> k > from && Terminal(outcomes[k - 1])
    ensures forall j :: from <= j < k - 1 ==> !Terminal(outcomes[j])
    decreases limit - from
  {
    if from == limit then limit
    else if Terminal(outcomes[from]) then from + 1
    else AttemptsFrom(outcomes, from + 1, limit)
  }

  /** `2 ** n`. */
  function Pow2(n: nat): (r: nat)
    ensures r >= 1
  {
    if n == 0 then 1 else 2 * Pow2(n - 1)
  }

  /** The sleeps after the first `k` attempts: `2 ** attempt` after a request error, a 429 or a 5xx. */
  function BackoffsOf(outcomes: seq<Attempt>, k: nat): seq<nat>
    requires k <= |outcomes|
  {
    if k == 0 then []
    else
      var a := ActionOf(outcomes[k - 1].status);
      BackoffsOf(outcomes, k - 1) + (if a == Backoff || a == FailRetry then [Pow2(k)] else [])
  }

  /**
   * An entry of `records`: the attempt's iteration, number, status, latency rounded as
   * `round(latency_ms, 2)` and success flag.
   */
  datatype Entry = Entry(iteration: int, attempt: nat, status: int, latency: real, success: bool)

  /**
   * The entries the first `k` attempts add to `records`: every HTTP answer other than a 429, with
   * its latency rounded by `round2`.
   */
  function RecordsOf(iteration: int, outcomes: seq<Attempt>, k: nat, round2: real -> real): seq<Entry>
    requires k <= |outcomes|
  {
    if k == 0 then []
    else
      var o := outcomes[k - 1];
      var a := ActionOf(o.status);
      RecordsOf(iteration, outcomes, k - 1, round2)
      + (if a == Backoff then [] else [Entry(iteration, k, o.status.value, round2(o.latency), a == Succeed)])
  }

  /** What attempt `k + 1` adds to the records, the sleeps and the count of attempts. */
  lemma AttemptStep(iteration: int, outcomes: seq<Attempt>, k: nat, limit: nat, round2: real -> real)
    requires k < limit <= |outcomes|
    ensures var o := outcomes[k];
      && RecordsOf(iteration, outcomes, k + 1, round2) == RecordsOf(iteration, outcomes, k, round2)
           + (if ActionOf(o.status) == Backoff then []
              else [Entry(iteration, k + 1, o.status.value, round2(o.latency), ActionOf(o.status) == Succeed)])
      && BackoffsOf(outcomes, k + 1) == BackoffsOf(outcomes, k)
           + (if ActionOf(o.status) in {Backoff, FailRetry} then [Pow2(k + 1)] else [])
      && AttemptsFrom(outcomes, k, limit) == if Terminal(o) then k + 1 else AttemptsFrom(outcomes, k + 1, limit)
  {
  }

  /**
   * One iteration's `while attempt <= max_retries and not success` loop. `outcomes[j]` is the
   * answer to attempt `j + 1`; `round2` is `round(·, 2)`, applied to every latency the loop keeps.
   */
  method RunIteration(iteration: int, maxRetries: int, outcomes: seq<Attempt>, round2: real -> real)
    returns (attempts: nat, success: bool, latency: Option<real>, records: seq<Entry>, backoffs: seq<nat>)
    requires |outcomes| >= Limit(maxRetries)
    ensures attempts == AttemptsFrom(outcomes, 0, Limit(maxRetries)) && attempts <= Limit(maxRetries)
    ensures success <==> attempts > 0 && ActionOf(outcomes[attempts - 1].status) == Succeed
    ensures latency == if success then Some(round2(outcomes[attempts - 1].latency)) else None
    ensures records == RecordsOf(iteration, outcomes, attempts, round2)
    ensures backoffs == BackoffsOf(outcomes, attempts)
  {
    var limit := Limit(maxRetries);
    attempts, success, latency, records, backoffs := 0, false, None, [], [];
    while attempts <= maxRetries && !success
      invariant attempts <= limit && !success && latency.None?
      invariant attempts > 0 ==> !Terminal(outcomes[attempts - 1])
      invariant AttemptsFrom(outcomes, attempts, limit) == AttemptsFrom(outcomes, 0, limit)
      invariant records == RecordsOf(iteration, outcomes, attempts, round2)
      invariant backoffs == BackoffsOf(outcomes, attempts)
      decreases limit - attempts
    {
      AttemptStep(iteration, outcomes, attempts, limit, round2);
      attempts := attempts + 1;
      var o := outcomes[attempts - 1];
      if o.status.None? || o.status.value == 429 {
        backoffs := backoffs + [Pow2(attempts)];
        continue;
      }
      var code := o.status.value;
      if 200 <= code < 300 {
        records := records + [Entry(iteration, attempts, code, round2(o.latency), true)];
        success, latency := true, Some(round2(o.latency));
        break;
      }
      records := records + [Entry(iteration, attempts, code, round2(o.latency), false)];
      if 500 <= code < 600 {
        backoffs := backoffs + [Pow2(attempts)];
        continue;
      } else {
        break;
      }
    }
  }

  /** The number of entries flagged as successes. */
  function CountSuccess(records: seq<Entry>): nat {
    if |records| == 0 then 0
    else CountSuccess(records[..|records| - 1]) + (if records[|records| - 1].success then 1 else 0)
  }

  lemma CountSuccessAppend(a: seq<Entry>, b: seq<Entry>)
    ensures CountSuccess(a + b) == CountSuccess(a) + CountSuccess(b)
    decreases |b|
  {
    if |b| > 0 {
      CountSuccessAppend(a, b[..|b| - 1]);
      assert (a + b)[..|a + b| - 1] == a + b[..|b| - 1];
    } else {
      assert a + b == a;
    }
  }

  /**
   * Only the last attempt of an iteration can succeed, so an iteration's records hold one success
   * when it succeeded and none otherwise.
   */
  lemma {:induction false} IterationSuccesses(iteration: int, outcomes: seq<Attempt>, k: nat, round2: real -> real)
    requires k <= |outcomes|
    requires forall j :: 0 <= j < k - 1 ==> !Terminal(outcomes[j])
    ensures CountSuccess(RecordsOf(iteration, outcomes, k, round2)) ==
      if k > 0 && ActionOf(outcomes[k - 1].status) == Succeed then 1 else 0
  {
    if k > 0 {
      IterationSuccesses(iteration, outcomes, k - 1, round2);
      var o := outcomes[k - 1];
      var prev := RecordsOf(iteration, outcomes, k - 1, round2);
      if k > 1 {
        assert !Terminal(outcomes[k - 2]);
      }
      if ActionOf(o.status) != Backoff {
        var e := Entry(iteration, k, o.status.value, round2(o.latency), ActionOf(o.status) == Succeed);
        assert RecordsOf(iteration, outcomes, k, round2) == prev + [e];
        assert [e][..0] == [];
        assert CountSuccess([e]) == if e.success then 1 else 0;
        CountSuccessAppend(prev, [e]);
      } else {
        assert RecordsOf(iteration, outcomes, k, round2) == prev;
      }
    }
  }

  /** The loop bounds the attempts: at most `max_retries + 1`, each sleeping at most once. */
  lemma AttemptBound(maxRetries: int, outcomes: seq<Attempt>)
    requires |outcomes| >= Limit(maxRetries)
    ensures var k := AttemptsFrom(outcomes, 0, Limit(maxRetries));
      k <= Limit(maxRetries) && |BackoffsOf(outcomes, k)| <= k
  {
    var k := AttemptsFrom(outcomes, 0, Limit(maxRetries));
    BackoffsBound(outcomes, k);
  }

  lemma {:induction false} BackoffsBound(outcomes: seq<Attempt>, k: nat)
    requires k <= |outcomes|
    ensures |BackoffsOf(outcomes, k)| <= k
  {
    if k > 0 {
      BackoffsBound(outcomes, k - 1);
    }
  }

  /** Every iteration has an answer for each attempt the loop may make. */
  predicate Answered(outcomes: seq<seq<Attempt>>, maxRetries: int) {
    forall i :: 0 <= i < |outcomes| ==> |outcomes[i]| >= Limit(maxRetries)
  }

  /** The attempts one iteration makes. */
  function IterationAttempts(attempts: seq<Attempt>, maxRetries: int): nat
    requires |attempts| >= Limit(maxRetries)
  {
    AttemptsFrom(attempts, 0, Limit(maxRetries))
  }

  /** Whether an iteration ends on a 2xx answer. */
  predicate Succeeded(attempts: seq<Attempt>, maxRetries: int)
    requires |attempts| >= Limit(maxRetries)
  {
    var k := IterationAttempts(attempts, maxRetries);
    k > 0 && ActionOf(attempts[k - 1].status) == Succeed
  }

  /** `latencies` after the iterations `outcomes`: the rounded latency of each successful one, in order. */
  function SuccessLatencies(outcomes: seq<seq<Attempt>>, maxRetries: int, round2: real -> real): (ls: seq<real>)
    requires Answered(outcomes, maxRetries)
    ensures |ls| <= |outcomes|
  {
    if |outcomes| == 0 then []
    else
      var n := |outcomes| - 1;
      var o := outcomes[n];
      assert Answered(outcomes[..n], maxRetries) by {
        forall i | 0 <= i < n ensures |outcomes[..n][i]| >= Limit(maxRetries) {
          assert outcomes[..n][i] == outcomes[i];
        }
      }
      SuccessLatencies(outcomes[..n], maxRetries, round2)
      + (if Succeeded(o, maxRetries) then [round2(o[IterationAttempts(o, maxRetries) - 1].latency)] else [])
  }

  /** `records` after the iterations `outcomes`: each iteration's entries, numbered from 1, in order. */
  function AllRecords(outcomes: seq<seq<Attempt>>, maxRetries: int, round2: real -> real): seq<Entry>
    requires Answered(outcomes, maxRetries)
  {
    if |outcomes| == 0 then []
    else
      var n := |outcomes| - 1;
      assert Answered(outcomes[..n], maxRetries) by {
        forall i | 0 <= i < n ensures |outcomes[..n][i]| >= Limit(maxRetries) {
          assert outcomes[..n][i] == outcomes[i];
        }
      }
      AllRecords(outcomes[..n], maxRetries, round2)
      + RecordsOf(n + 1, outcomes[n], IterationAttempts(outcomes[n], maxRetries), round2)
  }

  /**
   * The successes among the records are exactly the latencies kept: one per successful iteration,
   * since only an iteration's last attempt can succeed.
   */
  lemma {:induction false} SuccessLatenciesCount(outcomes: seq<seq<Attempt>>, maxRetries: int, round2: real -> real)
    requires Answered(outcomes, maxRetries)
    ensures CountSuccess(AllRecords(outcomes, maxRetries, round2)) == |SuccessLatencies(outcomes, maxRetries, round2)|
  {
    if |outcomes| > 0 {
      var n := |outcomes| - 1;
      var o := outcomes[n];
      var prefix := outcomes[..n];
      assert Answered(prefix, maxRetries) by {
        forall i | 0 <= i < n ensures |prefix[i]| >= Limit(maxRetries) {
          assert prefix[i] == outcomes[i];
        }
      }
      SuccessLatenciesCount(prefix, maxRetries, round2);
      var k := IterationAttempts(o, maxRetries);
      IterationSuccesses(n + 1, o, k, round2);
      CountSuccessAppend(AllRecords(prefix, maxRetries, round2), RecordsOf(n + 1, o, k, round2));
    }
  }

  /**
   * The synchronous loop of `run_load_test`: `outcomes[i]` answers the attempts of iteration
   * `i + 1`. `latencies` holds the rounded latency of each successful iteration, `records` every
   * iteration's entries, and the successful calls are the successes among the records.
   */
  method RunLoadTest(iterations: int, maxRetries: int, outcomes: seq<seq<Attempt>>, round2: real -> real)
    returns (latencies: seq<real>, records: seq<Entry>, successfulCalls: nat, failedCalls: int)
    requires |outcomes| == if iterations < 0 then 0 else iterations
    requires Answered(outcomes, maxRetries)
    ensures latencies == SuccessLatencies(outcomes, maxRetries, round2)
    ensures records == AllRecords(outcomes, maxRetries, round2)
    ensures successfulCalls == CountSuccess(records) == |latencies| <= |outcomes|
    ensures failedCalls == iterations - successfulCalls
    ensures iterations >= 0 ==> failedCalls >= 0
  {
    latencies, records := [], [];
    for i := 0 to |outcomes|
      invariant latencies == SuccessLatencies(outcomes[..i], maxRetries, round2)
      invariant records == AllRecords(outcomes[..i], maxRetries, round2)
    {
      var _, success, latency, recs, _ := RunIteration(i + 1, maxRetries, outcomes[i], round2);
      assert outcomes[..i + 1][..i] == outcomes[..i];
      records := records + recs;
      if success {
        latencies := latencies + [latency.value];
      }
    }
    assert outcomes[..|outcomes|] == outcomes;
    SuccessLatenciesCount(outcomes, maxRetries, round2);
    successfulCalls := CountSuccess(records);
    failedCalls := iterations - successfulCalls;
  }

  /** The summary counts exactly the successful calls when there is one. */
  lemma SummaryCountsSuccesses(latencies: seq<real>, successfulCalls: nat, st: Statistics)
    requires successfulCalls == |latencies| && successfulCalls > 0
    ensures ComputeSummary(latencies, st).value.count == successfulCalls
  {
  }
}

=== FILE: merge.dfy ===
/**
 * `aggregate_results`: valid results are scored and ranked, the top result seeds the merged
 * receipt, lower-ranked results fill the scalar fields it lacks and contribute items whose
 * description key has not been seen, and every field and item records the source that supplied it.
 */
module Merge {
  import opened Wrappers
  import opened ReceiptModel
  import opened Scoring
  import opened Ranking

  /** `valid_results`: the results without an "error" key in their raw response, in arrival order. */
  function ValidResults(results: seq<ExtractionResult>): (v: seq<ExtractionResult>)
    ensures |v| <= |results|
    ensures forall r :: r in v <==> r in results && !HasError(r)
  {
    if |results| == 0 then []
    else
      var init, last := results[..|results| - 1], results[|results| - 1];
      assert results == init + [last];
      ValidResults(init) + (if HasError(last) then [] else [last])
  }

  /** `sources_used`: the source of every valid result, duplicates included. */
  function SourcesOf(valid: seq<ExtractionResult>): (s: seq<Source>)
    ensures |s| == |valid|
    ensures forall i :: 0 <= i < |valid| ==> s[i] == valid[i].source
  {
    seq(|valid|, i requires 0 <= i < |valid| => valid[i].source)
  }

  /** `scored_results` before sorting: entry `i` scores valid result `i`. */
  function ScoredResults(valid: seq<ExtractionResult>): (s: seq<Scored>)
    ensures |s| == |valid|
    ensures forall i :: 0 <= i < |valid| ==> s[i] == ScoreOf(i, valid[i])
    ensures InArrivalOrder(s)
  {
    seq(|valid|, i requires 0 <= i < |valid| => ScoreOf(i, valid[i]))
  }

  function ResultsOf(ranked: seq<Scored>): (rs: seq<ExtractionResult>)
    ensures |rs| == |ranked|
    ensures forall i :: 0 <= i < |ranked| ==> rs[i] == ranked[i].result
  {
    seq(|ranked|, i requires 0 <= i < |ranked| => ranked[i].result)
  }

  /** The valid results in ranked order. */
  function RankedResults(results: seq<ExtractionResult>): seq<ExtractionResult> {
    ResultsOf(Rank(ScoredResults(ValidResults(results))))
  }

  // ---------------------------------------------------------------------------------------------
  // Scalar fields

  /** The value of a text field (every field but the total). */
  function TextOf(r: ExtractionResult, f: Field): Option<string>
    requires f != TotalAmount
  {
    match f
    case MerchantName => r.merchantName
    case TransactionDate => r.transactionDate
    case TransactionTime => r.transactionTime
    case Currency => r.currency
  }

  lemma PresentText(r: ExtractionResult, f: Field)
    requires f != TotalAmount
    ensures Present(r, f) <==> Truthy(TextOf(r, f))
  {
  }

  /** The index of the first result that supplies field `f`. */
  function FirstWith(rs: seq<ExtractionResult>, f: Field): (k: Option<nat>)
    ensures k.Some? ==> k.value < |rs| && Present(rs[k.value], f)
    ensures k.Some? ==> forall j :: 0 <= j < k.value ==> !Present(rs[j], f)
    ensures k.None? ==> forall j :: 0 <= j < |rs| ==> !Present(rs[j], f)
  {
    if |rs| == 0 then None
    else
      match FirstWith(rs[..|rs| - 1], f)
      case Some(k) => Some(k)
      case None => if Present(rs[|rs| - 1], f) then Some(|rs| - 1) else None
  }

  /**
   * A text field after gap-filling over the ranked results `rs`: the value of the first result
   * that has a non-empty one, else whatever the base (`rs[0]`) holds.
   */
  function MergedText(rs: seq<ExtractionResult>, f: Field): Option<string>
    requires |rs| > 0 && f != TotalAmount
  {
    match FirstWith(rs, f)
    case Some(k) => TextOf(rs[k], f)
    case None => TextOf(rs[0], f)
  }

  /** The total after gap-filling: the first total that is not `None`. */
  function MergedTotal(rs: seq<ExtractionResult>): Option<real>
    requires |rs| > 0
  {
    match FirstWith(rs, TotalAmount)
    case Some(k) => rs[k].totalAmount
    case None => rs[0].totalAmount
  }

  /** `field_sources[f]`: the source of the result that supplied the field, or `None`. */
  function FieldSource(rs: seq<ExtractionResult>, f: Field): Option<Source> {
    match FirstWith(rs, f)
    case Some(k) => Some(rs[k].source)
    case None => None
  }

  /**
   * Each text field comes from the first ranked result that has a non-empty value, and its
   * provenance names that result's source; when no result has one, the base's value stays and the
   * provenance is `None`.
   */
  lemma MergedTextFromFirst(rs: seq<ExtractionResult>, f: Field, k: nat)
    requires |rs| > 0 && f != TotalAmount
    requires k < |rs| && Present(rs[k], f) && forall j :: 0 <= j < k ==> !Present(rs[j], f)
    ensures MergedText(rs, f) == TextOf(rs[k], f) && Truthy(MergedText(rs, f))
    ensures FieldSource(rs, f) == Some(rs[k].source)
  {
    var m := FirstWith(rs, f);
    assert m == Some(k);
  }

  lemma MergedTextNone(rs: seq<ExtractionResult>, f: Field)
    requires |rs| > 0 && f != TotalAmount
    requires forall j :: 0 <= j < |rs| ==> !Present(rs[j], f)
    ensures MergedText(rs, f) == TextOf(rs[0], f) && !Truthy(MergedText(rs, f))
    ensures FieldSource(rs, f) == None
  {
    assert FirstWith(rs, f) == None;
  }

  /** The total comes from the first ranked result whose total is not `None` (0.0 included). */
  lemma MergedTotalFromFirst(rs: seq<ExtractionResult>, k: nat)
    requires k < |rs| && rs[k].totalAmount.Some?
    requires forall j :: 0 <= j < k ==> rs[j].totalAmount.None?
    ensures MergedTotal(rs) == rs[k].totalAmount
    ensures FieldSource(rs, TotalAmount) == Some(rs[k].source)
  {
    var m := FirstWith(rs, TotalAmount);
    assert m == Some(k);
  }

  lemma MergedTotalNone(rs: seq<ExtractionResult>)
    requires |rs| > 0
    requires forall j :: 0 <= j < |rs| ==> rs[j].totalAmount.None?
    ensures MergedTotal(rs).None? && FieldSource(rs, TotalAmount) == None
  {
    assert FirstWith(rs, TotalAmount) == None;
  }

  /** Seeding from the base: with one result, every field is the base's own. */
  lemma SeedFromBase(rs: seq<ExtractionResult>, f: Field)
    requires |rs| > 0
    ensures f != TotalAmount ==> MergedText(rs[..1], f) == TextOf(rs[0], f)
    ensures f == TotalAmount ==> MergedTotal(rs[..1]) == rs[0].totalAmount
    ensures FieldSource(rs[..1], f) == if Present(rs[0], f) then Some(rs[0].source) else None
  {
    assert rs[..1][..0] == [];
  }

  /**
   * One gap-filling step over result `rs[i]`: a text field that is not yet truthy takes the
   * result's value when that is truthy; a field that is set is never overwritten.
   */
  lemma GapFillText(rs: seq<ExtractionResult>, i: nat, f: Field)
    requires 1 <= i < |rs| && f != TotalAmount
    ensures MergedText(rs[..i + 1], f)
      == if !Truthy(MergedText(rs[..i], f)) && Truthy(TextOf(rs[i], f)) then TextOf(rs[i], f)
         else MergedText(rs[..i], f)
    ensures FieldSource(rs[..i + 1], f)
      == if !Truthy(MergedText(rs[..i], f)) && Truthy(TextOf(rs[i], f)) then Some(rs[i].source)
         else FieldSource(rs[..i], f)
  {
    assert rs[..i + 1][..i] == rs[..i];
    var p := rs[..i];
    if FirstWith(p, f).None? {
      assert !Present(p[0], f);
    }
  }

  /** One gap-filling step for the total: only a `None` total is replaced. */
  lemma GapFillTotal(rs: seq<ExtractionResult>, i: nat)
    requires 1 <= i < |rs|
    ensures MergedTotal(rs[..i + 1])
      == if MergedTotal(rs[..i]).None? && rs[i].totalAmount.Some? then rs[i].totalAmount
         else MergedTotal(rs[..i])
    ensures FieldSource(rs[..i + 1], TotalAmount)
      == if MergedTotal(rs[..i]).None? && rs[i].totalAmount.Some? then Some(rs[i].source)
         else FieldSource(rs[..i], TotalAmount)
  {
    assert rs[..i + 1][..i] == rs[..i];
    var p := rs[..i];
    if FirstWith(p, TotalAmount).None? {
      assert !Present(p[0], TotalAmount);
    }
  }

  // ---------------------------------------------------------------------------------------------
  // Items

  /** An item together with the source of the result that carried it. */
  datatype Tagged = Tagged(item: Item, source: Source)

  /** One entry of `item_sources`. */
  datatype ItemSource = ItemSource(description: Option<string>, source: Source)

  function Tag(items: seq<Item>, source: Source): (ts: seq<Tagged>)
    ensures |ts| == |items|
    ensures forall i :: 0 <= i < |items| ==> ts[i] == Tagged(items[i], source)
  {
    seq(|items|, i requires 0 <= i < |items| => Tagged(items[i], source))
  }

  /** Every item of every ranked result, in ranked-then-list order. */
  function Candidates(rs: seq<ExtractionResult>): seq<Tagged> {
    if |rs| == 0 then []
    else Candidates(rs[..|rs| - 1]) + Tag(rs[|rs| - 1].items, rs[|rs| - 1].source)
  }

  predicate Described(t: Tagged) {
    HasDescription(t.item)
  }

  /** `item["description"].lower().strip()`. */
  function Key(t: Tagged): string {
    DescriptionKey(t.item.description.GetOr(""))
  }

  /** The keys of the described entries: what `seen_item_descriptions` holds after them. */
  function Keys(ts: seq<Tagged>): set<string> {
    if |ts| == 0 then {}
    else Keys(ts[..|ts| - 1]) + (if Described(ts[|ts| - 1]) then {Key(ts[|ts| - 1])} else {})
  }

  lemma KeysAppend(ts: seq<Tagged>, t: Tagged)
    ensures Keys(ts + [t]) == Keys(ts) + (if Described(t) then {Key(t)} else {})
  {
    assert (ts + [t])[..|ts|] == ts;
  }

  /** The key of every described entry is among `Keys(ts)`. */
  lemma {:induction false} KeysContain(ts: seq<Tagged>)
    ensures forall i :: 0 <= i < |ts| && Described(ts[i]) ==> Key(ts[i]) in Keys(ts)
  {
    if |ts| > 0 {
      var init := ts[..|ts| - 1];
      KeysContain(init);
      assert forall i :: 0 <= i < |init| ==> init[i] == ts[i];
    }
  }

  lemma {:induction false} KeysConcat(a: seq<Tagged>, b: seq<Tagged>)
    ensures Keys(a + b) == Keys(a) + Keys(b)
  {
    if |b| == 0 {
      assert a + b == a;
    } else {
      var init := b[..|b| - 1];
      KeysConcat(a, init);
      assert (a + b)[..|a + b| - 1] == a + init;
    }
  }

  /** The dedup loop: keep a described item when its key has not been seen. */
  function Dedup(ts: seq<Tagged>): seq<Tagged> {
    if |ts| == 0 then []
    else
      var d := Dedup(ts[..|ts| - 1]);
      if Described(ts[|ts| - 1]) && Key(ts[|ts| - 1]) !in Keys(d) then d + [ts[|ts| - 1]] else d
  }

  /** Every kept item was offered and has a description. */
  lemma {:induction false} DedupKeepsDescribed(ts: seq<Tagged>)
    ensures forall t :: t in Dedup(ts) ==> t in ts && Described(t)
  {
    if |ts| > 0 {
      var init := ts[..|ts| - 1];
      DedupKeepsDescribed(init);
      assert forall t :: t in init ==> t in ts;
    }
  }

  /** The items kept have exactly the keys of all the described items. */
  lemma {:induction false} DedupKeys(ts: seq<Tagged>)
    ensures Keys(Dedup(ts)) == Keys(ts)
  {
    if |ts| > 0 {
      var init, last := ts[..|ts| - 1], ts[|ts| - 1];
      DedupKeys(init);
      KeysAppend(Dedup(init), last);
    }
  }

  /** No two kept items share a key. */
  lemma {:induction false} DedupDistinct(ts: seq<Tagged>)
    ensures forall i, j :: 0 <= i < j < |Dedup(ts)| ==> Key(Dedup(ts)[i]) != Key(Dedup(ts)[j])
  {
    if |ts| > 0 {
      var init, last := ts[..|ts| - 1], ts[|ts| - 1];
      DedupDistinct(init);
      var d := Dedup(init);
      if Described(last) && Key(last) !in Keys(d) {
        DedupKeepsDescribed(init);
        KeysContain(d);
        var d2 := d + [last];
        forall i, j | 0 <= i < j < |d2| ensures Key(d2[i]) != Key(d2[j]) {
          if j < |d| {
            assert d2[i] == d[i] && d2[j] == d[j];
          } else {
            assert d[i] in d;
            assert Key(d[i]) in Keys(d);
          }
        }
      }
    }
  }

  /** Position `j` holds the first described item with its key. */
  predicate FirstOccurrence(ts: seq<Tagged>, j: nat)
    requires j < |ts|
  {
    Described(ts[j]) && Key(ts[j]) !in Keys(ts[..j])
  }

  /** The described items whose key does not occur earlier, in their original order. */
  function FirstOccurrences(ts: seq<Tagged>): seq<Tagged> {
    if |ts| == 0 then []
    else FirstOccurrences(ts[..|ts| - 1]) + (if FirstOccurrence(ts, |ts| - 1) then [ts[|ts| - 1]] else [])
  }

  /** The dedup loop keeps exactly the first occurrence of each key, in order. */
  lemma {:induction false} DedupIsFirstOccurrences(ts: seq<Tagged>)
    ensures Dedup(ts) == FirstOccurrences(ts)
  {
    if |ts| > 0 {
      var init := ts[..|ts| - 1];
      DedupIsFirstOccurrences(init);
      DedupKeys(init);
    }
  }

  function ItemsOf(d: seq<Tagged>): (items: seq<Item>)
    ensures |items| == |d|
    ensures forall i :: 0 <= i < |d| ==> items[i] == d[i].item
  {
    seq(|d|, i requires 0 <= i < |d| => d[i].item)
  }

  function ItemSourcesOf(d: seq<Tagged>): (s: seq<ItemSource>)
    ensures |s| == |d|
    ensures forall i :: 0 <= i < |d| ==> s[i] == ItemSource(d[i].item.description, d[i].source)
  {
    seq(|d|, i requires 0 <= i < |d| => ItemSource(d[i].item.description, d[i].source))
  }

  /** The keys of the described items in a list. */
  function ItemKeys(items: seq<Item>): set<string> {
    if |items| == 0 then {}
    else
      var last := items[|items| - 1];
      ItemKeys(items[..|items| - 1])
      + (if HasDescription(last) then {DescriptionKey(last.description.value)} else {})
  }

  lemma {:induction false} KeysOfTag(items: seq<Item>, source: Source)
    ensures Keys(Tag(items, source)) == ItemKeys(items)
  {
    if |items| > 0 {
      var init := items[..|items| - 1];
      KeysOfTag(init, source);
      assert Tag(items, source)[..|items| - 1] == Tag(init, source);
    }
  }

  lemma {:induction false} KeysOfItems(d: seq<Tagged>)
    ensures ItemKeys(ItemsOf(d)) == Keys(d)
  {
    if |d| > 0 {
      var init := d[..|d| - 1];
      KeysOfItems(init);
      assert ItemsOf(d)[..|d| - 1] == ItemsOf(init);
    }
  }

  /** The described keys carried by the items of the results `rs`. */
  function ResultKeys(rs: seq<ExtractionResult>): set<string> {
    if |rs| == 0 then {} else ResultKeys(rs[..|rs| - 1]) + ItemKeys(rs[|rs| - 1].items)
  }

  /** Which keys the results carry does not depend on their order. */
  lemma {:induction false} ResultKeysMembers(rs: seq<ExtractionResult>, k: string)
    ensures k in ResultKeys(rs) <==> exists r :: r in rs && k in ItemKeys(r.items)
  {
    if |rs| > 0 {
      var init := rs[..|rs| - 1];
      ResultKeysMembers(init, k);
      assert rs == init + [rs[|rs| - 1]];
      if exists r :: r in rs && k in ItemKeys(r.items) {
        var r :| r in rs && k in ItemKeys(r.items);
        assert r in init || r == rs[|rs| - 1];
      }
    }
  }

  lemma {:induction false} CandidateKeys(rs: seq<ExtractionResult>)
    ensures Keys(Candidates(rs)) == ResultKeys(rs)
  {
    if |rs| > 0 {
      var init, last := rs[..|rs| - 1], rs[|rs| - 1];
      CandidateKeys(init);
      KeysConcat(Candidates(init), Tag(last.items, last.source));
      KeysOfTag(last.items, last.source);
    }
  }

  // ---------------------------------------------------------------------------------------------
  // Metadata and the final record

  /** `{r["result"].source: r["score"] for r in scored_results}`: a later entry overwrites. */
  function SourceScores(ranked: seq<Scored>): (m: map<Source, real>)
    ensures forall s :: s in m <==> exists i :: 0 <= i < |ranked| && ranked[i].result.source == s
  {
    if |ranked| == 0 then map[]
    else
      var init, last := ranked[..|ranked| - 1], ranked[|ranked| - 1];
      var m := SourceScores(init);
      assert forall i :: 0 <= i < |init| ==> init[i] == ranked[i];
      m[last.result.source := last.score]
  }

  /** For a repeated source the score of its lowest-ranked entry is the one kept. */
  lemma {:induction false} SourceScoresLast(ranked: seq<Scored>, i: nat)
    requires i < |ranked|
    requires forall j :: i < j < |ranked| ==> ranked[j].result.source != ranked[i].result.source
    ensures SourceScores(ranked)[ranked[i].result.source] == ranked[i].score
  {
    if i < |ranked| - 1 {
      var init := ranked[..|ranked| - 1];
      assert init[i] == ranked[i];
      SourceScoresLast(init, i);
    }
  }

  datatype FieldSources = FieldSources(
    merchantName: Option<Source>,
    transactionDate: Option<Source>,
    transactionTime: Option<Source>,
    totalAmount: Option<Source>,
    currency: Option<Source>)

  /** `metadata`, without `processing_timestamp`. */
  datatype Metadata = Metadata(
    confidenceScore: real,
    completenessScore: real,
    aggregationScore: real,
    bestSource: Source,
    sourceScores: map<Source, real>,
    fieldSources: FieldSources,
    itemSources: seq<ItemSource>)

  /** `FinalReceiptData`. */
  datatype FinalReceipt = FinalReceipt(
    merchantName: string,
    transactionDate: string,
    transactionTime: Option<string>,
    totalAmount: real,
    currency: string,
    items: seq<Item>,
    metadata: Metadata,
    sourcesUsed: seq<Source>,
    blobName: string)

  /** What one call yields: "No valid results to aggregate", or the merged receipt. */
  datatype Aggregation = NoValidResults | Aggregated(receipt: FinalReceipt)

  /** `value or default` for a text field. */
  function OrDefault(v: Option<string>, default: string): (r: string)
    ensures default != "" ==> r != ""
  {
    if Truthy(v) then v.value else default
  }

  function Provenance(rs: seq<ExtractionResult>): FieldSources {
    FieldSources(FieldSource(rs, MerchantName), FieldSource(rs, TransactionDate),
                 FieldSource(rs, TransactionTime), FieldSource(rs, TotalAmount), FieldSource(rs, Currency))
  }

  /** The merged record, from the valid results and their ranking. */
  function Build(valid: seq<ExtractionResult>, ranked: seq<Scored>): (fr: FinalReceipt)
    requires |valid| > 0 && |ranked| > 0
    ensures fr.merchantName != "" && fr.transactionDate != "" && fr.currency != ""
  {
    var rs := ResultsOf(ranked);
    var d := Dedup(Candidates(rs));
    FinalReceipt(
      OrDefault(MergedText(rs, MerchantName), "Unknown"),
      OrDefault(MergedText(rs, TransactionDate), "Unknown"),
      MergedText(rs, TransactionTime),
      MergedTotal(rs).GetOr(0.0),
      OrDefault(MergedText(rs, Currency), "USD"),
      ItemsOf(d),
      Metadata(ranked[0].confidence, ranked[0].completeness, ranked[0].score, ranked[0].result.source,
               SourceScores(ranked), Provenance(rs), ItemSourcesOf(d)),
      SourcesOf(valid),
      valid[0].blobName)
  }

  /** The aggregation once the valid results are known. */
  function AggregateValid(valid: seq<ExtractionResult>): (a: Aggregation)
    ensures a.Aggregated? <==> |valid| > 0
  {
    if |valid| == 0 then NoValidResults
    else Aggregated(Build(valid, Rank(ScoredResults(valid))))
  }

  /** `aggregate_results` over all the results received so far for one blob. */
  function Aggregate(results: seq<ExtractionResult>): (a: Aggregation)
    ensures a.Aggregated? ==>
      a.receipt.merchantName != "" && a.receipt.transactionDate != "" && a.receipt.currency != ""
  {
    AggregateValid(ValidResults(results))
  }

  // ---------------------------------------------------------------------------------------------
  // Properties of the aggregation

  /** There is nothing to aggregate exactly when every result carries an error. */
  lemma NoValidIffAllErrors(results: seq<ExtractionResult>)
    ensures Aggregate(results).NoValidResults? <==> forall r :: r in results ==> HasError(r)
  {
    if |ValidResults(results)| > 0 {
      assert ValidResults(results)[0] in ValidResults(results);
    }
  }

  /** A result with an error changes nothing: not the fields, the items, the ranking or the sources. */
  lemma ErrorResultIgnored(results: seq<ExtractionResult>, e: ExtractionResult)
    requires HasError(e)
    ensures Aggregate(results + [e]) == Aggregate(results)
  {
    assert (results + [e])[..|results|] == results;
    assert ValidResults(results + [e]) == ValidResults(results);
  }

  lemma SourcesOfMembers(valid: seq<ExtractionResult>, s: Source)
    ensures s in SourcesOf(valid) <==> exists r :: r in valid && r.source == s
  {
    var used := SourcesOf(valid);
    if s in used {
      var i :| 0 <= i < |used| && used[i] == s;
      assert valid[i] in valid;
    }
    if exists r :: r in valid && r.source == s {
      var r :| r in valid && r.source == s;
      var i :| 0 <= i < |valid| && valid[i] == r;
      assert used[i] == s;
    }
  }

  /** `sources_used` lists the source of every valid result, in arrival order, and nothing else. */
  lemma SourcesUsedAreValid(results: seq<ExtractionResult>)
    requires Aggregate(results).Aggregated?
    ensures Aggregate(results).receipt.sourcesUsed == SourcesOf(ValidResults(results))
    ensures forall s :: s in Aggregate(results).receipt.sourcesUsed
                        <==> exists r :: r in results && !HasError(r) && r.source == s
  {
    var valid := ValidResults(results);
    assert Aggregate(results).receipt.sourcesUsed == SourcesOf(valid);
    forall s ensures s in SourcesOf(valid) <==> exists r :: r in results && !HasError(r) && r.source == s {
      SourcesOfMembers(valid, s);
    }
  }

  /** Ranking scored results keeps exactly the results that were scored. */
  lemma RankKeepsResults(valid: seq<ExtractionResult>)
    ensures |ResultsOf(Rank(ScoredResults(valid)))| == |valid|
    ensures forall r :: r in ResultsOf(Rank(ScoredResults(valid))) <==> r in valid
  {
    var scored := ScoredResults(valid);
    var ranked := Rank(scored);
    var rs := ResultsOf(ranked);
    RankPermutes(scored);
    forall r | r in rs ensures r in valid {
      var i :| 0 <= i < |rs| && rs[i] == r;
      assert ranked[i] in scored;
      var j :| 0 <= j < |scored| && scored[j] == ranked[i];
    }
    forall r | r in valid ensures r in rs {
      var j :| 0 <= j < |valid| && valid[j] == r;
      assert scored[j] in ranked;
      var i :| 0 <= i < |ranked| && ranked[i] == scored[j];
      assert rs[i] == r;
    }
  }

  /** The ranked results are exactly the valid ones. */
  lemma RankedResultsMembers(results: seq<ExtractionResult>)
    ensures |RankedResults(results)| == |ValidResults(results)|
    ensures forall r :: r in RankedResults(results) <==> r in results && !HasError(r)
  {
    RankKeepsResults(ValidResults(results));
  }

  /** The base is the best-scoring valid result. */
  lemma BaseScoresHighest(results: seq<ExtractionResult>)
    requires Aggregate(results).Aggregated?
    ensures forall r :: r in results && !HasError(r) ==>
              Aggregate(results).receipt.metadata.aggregationScore >= FinalScore(r)
  {
    var valid := ValidResults(results);
    var scored := ScoredResults(valid);
    RankHeadIsMax(scored);
    forall r | r in results && !HasError(r)
      ensures Aggregate(results).receipt.metadata.aggregationScore >= FinalScore(r)
    {
      var j :| 0 <= j < |valid| && valid[j] == r;
      assert scored[j] in scored;
    }
  }

  function FieldSourceOf(fs: FieldSources, f: Field): Option<Source> {
    match f
    case MerchantName => fs.merchantName
    case TransactionDate => fs.transactionDate
    case TransactionTime => fs.transactionTime
    case TotalAmount => fs.totalAmount
    case Currency => fs.currency
  }

  /** The receipt's provenance of `f`, as merged over the ranked results. */
  lemma ProvenanceOfReceipt(results: seq<ExtractionResult>, f: Field)
    requires Aggregate(results).Aggregated?
    ensures |RankedResults(results)| > 0
    ensures FieldSourceOf(Aggregate(results).receipt.metadata.fieldSources, f)
            == FieldSource(RankedResults(results), f)
  {
    RankedResultsMembers(results);
  }

  /** Provenance is `None` exactly when no valid result supplies the field. */
  lemma MissingIffNoValidResultHasIt(results: seq<ExtractionResult>, f: Field)
    requires Aggregate(results).Aggregated?
    ensures FieldSourceOf(Aggregate(results).receipt.metadata.fieldSources, f).None?
            <==> forall r :: r in results && !HasError(r) ==> !Present(r, f)
  {
    var rs := RankedResults(results);
    ProvenanceOfReceipt(results, f);
    RankedResultsMembers(results);
    if forall j :: 0 <= j < |rs| ==> !Present(rs[j], f) {
      forall r | r in results && !HasError(r) ensures !Present(r, f) {
        var j :| 0 <= j < |rs| && rs[j] == r;
      }
    } else {
      var j :| 0 <= j < |rs| && Present(rs[j], f);
      assert rs[j] in rs;
    }
  }

  /**
   * Each field takes its value from the first ranked result that supplies it, and its provenance
   * names that result's source; a field the base supplies is never overwritten.
   */
  lemma FieldFromFirstRanked(results: seq<ExtractionResult>, f: Field, k: nat)
    requires Aggregate(results).Aggregated?
    requires k < |RankedResults(results)| && Present(RankedResults(results)[k], f)
    requires forall j :: 0 <= j < k ==> !Present(RankedResults(results)[j], f)
    ensures var fr, r := Aggregate(results).receipt, RankedResults(results)[k];
      FieldSourceOf(fr.metadata.fieldSources, f) == Some(r.source)
      && match f
         case MerchantName => fr.merchantName == r.merchantName.value
         case TransactionDate => fr.transactionDate == r.transactionDate.value
         case TransactionTime => fr.transactionTime == r.transactionTime
         case TotalAmount => fr.totalAmount == r.totalAmount.value
         case Currency => fr.currency == r.currency.value
  {
    var rs := RankedResults(results);
    ProvenanceOfReceipt(results, f);
    if f == TotalAmount { MergedTotalFromFirst(rs, k); } else { MergedTextFromFirst(rs, f, k); }
  }

  /**
   * The defaults apply only to a field no valid result supplies: "Unknown" for the merchant and the
   * date, 0.0 for the total, "USD" for the currency; the time keeps the base's empty value.
   */
  lemma DefaultsOnlyWhenMissing(results: seq<ExtractionResult>, f: Field)
    requires Aggregate(results).Aggregated?
    requires forall r :: r in results && !HasError(r) ==> !Present(r, f)
    ensures var fr := Aggregate(results).receipt;
      FieldSourceOf(fr.metadata.fieldSources, f).None?
      && match f
         case MerchantName => fr.merchantName == "Unknown"
         case TransactionDate => fr.transactionDate == "Unknown"
         case TotalAmount => fr.totalAmount == 0.0
         case Currency => fr.currency == "USD"
         case TransactionTime => fr.transactionTime == RankedResults(results)[0].transactionTime
                                 && !Truthy(fr.transactionTime)
  {
    var rs := RankedResults(results);
    ProvenanceOfReceipt(results, f);
    RankedResultsMembers(results);
    assert forall j :: 0 <= j < |rs| ==> rs[j] in rs;
    if f == TotalAmount { MergedTotalNone(rs); } else { MergedTextNone(rs, f); }
  }

  /** A field filled from some result stays filled when another result arrives. */
  lemma FilledFieldStaysFilled(results: seq<ExtractionResult>, r: ExtractionResult, f: Field)
    requires Aggregate(results).Aggregated?
    requires FieldSourceOf(Aggregate(results).receipt.metadata.fieldSources, f).Some?
    ensures Aggregate(results + [r]).Aggregated?
    ensures FieldSourceOf(Aggregate(results + [r]).receipt.metadata.fieldSources, f).Some?
  {
    MissingIffNoValidResultHasIt(results, f);
    var w :| w in results && !HasError(w) && Present(w, f);
    assert w in results + [r];
    NoValidIffAllErrors(results + [r]);
    MissingIffNoValidResultHasIt(results + [r], f);
  }

  /**
   * The merged items carry exactly the description keys found among the valid results' described
   * items, whatever the ranking, each key once, and `item_sources` is aligned with them.
   */
  lemma ItemsCoverValidKeys(results: seq<ExtractionResult>)
    requires Aggregate(results).Aggregated?
    ensures var fr := Aggregate(results).receipt;
      |fr.metadata.itemSources| == |fr.items|
      && (forall i :: 0 <= i < |fr.items| ==>
            HasDescription(fr.items[i]) && fr.metadata.itemSources[i].description == fr.items[i].description)
      && (forall i, j :: 0 <= i < j < |fr.items| ==>
            DescriptionKey(fr.items[i].description.value) != DescriptionKey(fr.items[j].description.value))
    ensures forall k :: k in ItemKeys(Aggregate(results).receipt.items)
                        <==> exists r :: r in results && !HasError(r) && k in ItemKeys(r.items)
  {
    var fr := Aggregate(results).receipt;
    var rs := RankedResults(results);
    var d := Dedup(Candidates(rs));
    DedupDistinct(Candidates(rs));
    DedupKeepsDescribed(Candidates(rs));
    forall i | 0 <= i < |fr.items| ensures HasDescription(fr.items[i]) {
      assert d[i] in d;
    }
    DedupKeys(Candidates(rs));
    CandidateKeys(rs);
    KeysOfItems(d);
    RankedResultsMembers(results);
    forall k ensures k in ItemKeys(fr.items) <==> exists r :: r in results && !HasError(r) && k in ItemKeys(r.items) {
      ResultKeysMembers(rs, k);
    }
  }
}

=== FILE: pdfs_ocr.dfy ===
/**
 * The raw Mistral OCR script for PDFs: how a response is reduced to page count and combined
 * markdown, the content type and output file name of each document, and the bookkeeping of
 * `main` over the listed documents.
 */
module PdfsOcr {
  import opened Wrappers
  import opened Text
  import opened ReceiptModel
  import opened WorkflowUtils

  /** One entry of the response's "pages": its "markdown", `None` when missing or null. */
  datatype Page = Page(markdown: Option<string>)

  /**
   * The decoded JSON body: `null`, or a dictionary with optional "pages", "usage_info" and
   * "model" keys.
   */
  datatype Response =
    | NullResponse
    | Dict(pages: Option<seq<Page>>, usageInfo: Option<map<string, int>>, model: Option<string>)

  /** The dictionary `extract_content_from_response` returns; `None` is a key it does not set. */
  datatype Extraction = Extraction(
    error: Option<string>,
    pages: Option<seq<Page>>,
    pageCount: Option<nat>,
    combinedMarkdown: Option<string>,
    totalMarkdownLength: Option<nat>,
    responseType: Option<string>,
    usageInfo: Option<map<string, int>>,
    model: Option<string>)

  const PageBreak := "\n\n---PAGE BREAK---\n\n"

  /** The markdown of the pages whose markdown is non-empty, in page order. */
  function NonEmptyMarkdowns(pages: seq<Page>): (parts: seq<string>)
    ensures |parts| <= |pages|
    ensures forall i :: 0 <= i < |parts| ==> parts[i] != ""
  {
    if |pages| == 0 then []
    else
      var p := pages[|pages| - 1];
      NonEmptyMarkdowns(pages[..|pages| - 1]) + (if Truthy(p.markdown) then [p.markdown.value] else [])
  }

  /** What `extract_content_from_response` returns for a response. */
  function ExtractionOf(response: Response): Extraction {
    match response
    case NullResponse =>
      Extraction(Some("Empty response"), Some([]), Some(0), None, Some(0), None, None, None)
    case Dict(None, _, _) =>
      Extraction(Some("Unrecognized response format"), None, None, None, None, Some("unknown"), None, None)
    case Dict(Some(pages), usage, model) =>
      var combined := Join(NonEmptyMarkdowns(pages), PageBreak);
      Extraction(None, Some(pages), Some(|pages|), Some(combined), Some(|combined|), Some("mistral_ocr_raw"),
                 Some(usage.GetOr(map[])), Some(model.GetOr("unknown")))
  }

  /** The loop that fills `all_markdown`. */
  method CollectMarkdown(pages: seq<Page>) returns (all: seq<string>)
    ensures all == NonEmptyMarkdowns(pages)
  {
    all := [];
    for i := 0 to |pages|
      invariant all == NonEmptyMarkdowns(pages[..i])
    {
      assert pages[..i + 1][..i] == pages[..i];
      var md := pages[i].markdown.GetOr("");
      if md != "" {
        all := all + [md];
      }
    }
    assert pages[..|pages|] == pages;
  }

  /** `extract_content_from_response`. */
  method ExtractContent(response: Response) returns (e: Extraction)
    ensures e == ExtractionOf(response)
  {
    match response
    case NullResponse =>
      e := Extraction(Some("Empty response"), Some([]), Some(0), None, Some(0), None, None, None);
    case Dict(pages, usage, model) =>
      if pages.None? {
        e := Extraction(Some("Unrecognized response format"), None, None, None, None, Some("unknown"), None, None);
      } else {
        var all := CollectMarkdown(pages.value);
        var combined := Join(all, PageBreak);
        e := Extraction(None, pages, Some(|pages.value|), Some(combined), Some(|combined|),
                        Some("mistral_ocr_raw"), Some(usage.GetOr(map[])), Some(model.GetOr("unknown")));
      }
  }

  /** A `null` body is an "Empty response" error with no pages and no markdown. */
  lemma EmptyResponseShape()
    ensures var e := ExtractionOf(NullResponse);
      e.error == Some("Empty response") && e.pages == Some([]) && e.pageCount == Some(0)
      && e.totalMarkdownLength == Some(0) && e.combinedMarkdown.None?
  {
  }

  /**
   * A dictionary without "pages" is an "Unrecognized response format" error of type "unknown"; one
   * with "pages" has no error, counts every page (empty ones too), and its usage information and
   * model default to `{}` and "unknown".
   */
  lemma DictShape(response: Response)
    requires response.Dict?
    ensures var e := ExtractionOf(response);
      && (response.pages.None? ==>
            e.error == Some("Unrecognized response format") && e.responseType == Some("unknown"))
      && (response.pages.Some? ==>
            && e.error.None? && e.pageCount == Some(|response.pages.value|)
            && e.totalMarkdownLength == Some(|e.combinedMarkdown.value|)
            && e.usageInfo == Some(if response.usageInfo.Some? then response.usageInfo.value else map[])
            && e.model == Some(if response.model.Some? then response.model.value else "unknown"))
  {
  }

  /** The markdown of two runs of pages is the markdown of the first followed by that of the second. */
  lemma {:induction false} NonEmptyMarkdownsAppend(a: seq<Page>, b: seq<Page>)
    ensures NonEmptyMarkdowns(a + b) == NonEmptyMarkdowns(a) + NonEmptyMarkdowns(b)
  {
    if |b| == 0 {
      assert a + b == a;
    } else {
      var init := b[..|b| - 1];
      NonEmptyMarkdownsAppend(a, init);
      assert (a + b)[..|a + b| - 1] == a + init;
    }
  }

  /** A page without markdown, wherever it is, adds neither text nor a page break. */
  lemma EmptyPageAnywhere(a: seq<Page>, p: Page, b: seq<Page>)
    requires !Truthy(p.markdown)
    ensures NonEmptyMarkdowns(a + [p] + b) == NonEmptyMarkdowns(a + b)
  {
    NonEmptyMarkdownsAppend(a + [p], b);
    NonEmptyMarkdownsAppend(a, [p]);
    NonEmptyMarkdownsAppend(a, b);
    assert [p][..0] == [];
  }

  /** The total length of the parts. */
  function SumLengths(parts: seq<string>): nat {
    if |parts| == 0 then 0 else SumLengths(parts[..|parts| - 1]) + |parts[|parts| - 1]|
  }

  /** A join is as long as its parts plus one separator between each two of them. */
  lemma {:induction false} JoinLength(parts: seq<string>, sep: string)
    ensures |Join(parts, sep)| == SumLengths(parts) + (if |parts| == 0 then 0 else (|parts| - 1) * |sep|)
  {
    if |parts| > 1 {
      JoinLength(parts[..|parts| - 1], sep);
    } else if |parts| == 1 {
      assert parts[..0] == [];
    }
  }

  /** The combined markdown is empty exactly when no page has markdown. */
  lemma {:induction false} CombinedEmptyIff(pages: seq<Page>)
    ensures Join(NonEmptyMarkdowns(pages), PageBreak) == "" <==>
      forall i :: 0 <= i < |pages| ==> !Truthy(pages[i].markdown)
  {
    var parts := NonEmptyMarkdowns(pages);
    JoinLength(parts, PageBreak);
    if |parts| > 0 {
      SumLengthsPositive(parts);
    }
    NoPartsIff(pages);
  }

  lemma SumLengthsPositive(parts: seq<string>)
    requires |parts| > 0 && forall i :: 0 <= i < |parts| ==> parts[i] != ""
    ensures SumLengths(parts) > 0
  {
  }

  lemma {:induction false} NoPartsIff(pages: seq<Page>)
    ensures NonEmptyMarkdowns(pages) == [] <==> forall i :: 0 <= i < |pages| ==> !Truthy(pages[i].markdown)
  {
    if |pages| > 0 {
      var init, last := pages[..|pages| - 1], pages[|pages| - 1];
      NoPartsIff(init);
      var parts := NonEmptyMarkdowns(pages);
      assert parts == NonEmptyMarkdowns(init) + (if Truthy(last.markdown) then [last.markdown.value] else []);
      if parts == [] {
        forall i | 0 <= i < |pages| ensures !Truthy(pages[i].markdown) {
          if i < |init| {
            assert pages[i] == init[i];
          }
        }
      } else if !Truthy(last.markdown) {
        var i :| 0 <= i < |init| && Truthy(init[i].markdown);
        assert pages[i] == init[i];
      }
    }
  }

  /**
   * The content type `main` picks, testing ".pdf" before ".png"; the order makes no difference
   * to the mapping of `resolve_content_type`.
   */
  function DocumentContentType(blobName: string): (ct: string)
    ensures ct == ResolveContentType(blobName)
  {
    var ext := Extension(Lower(blobName));
    if ext == ".pdf" then "application/pdf"
    else if ext == ".png" then "image/png"
    else "image/jpeg"
  }

  /** `f"{os.path.basename(blob_name).replace('.', '_')}.json"`. */
  function OutputFilename(blobName: string): string {
    ReplaceChar(Basename(blobName), '.', '_') + ".json"
  }

  /** The output name has no '/', ends in ".json", and that is its only '.'. */
  lemma OutputFilenameShape(blobName: string)
    ensures var f := OutputFilename(blobName);
      '/' !in f && EndsWith(f, ".json") && Count(f, '.') == 1
  {
    var base := Basename(blobName);
    var b := ReplaceChar(base, '.', '_');
    ReplaceCharAbsent(base, '.', '_', '/');
    JsonSuffix();
    CountAppend(b, ".json", '.');
    CountAbsent(b, '.');
    EndsWithPrefixed(b, ".json", ".json");
    assert OutputFilename(blobName) == b + ".json";
  }

  lemma JsonSuffix()
    ensures '/' !in ".json" && EndsWith(".json", ".json") && Count(".json", '.') == 1
  {
    assert ".json"[1..] == "json";
    CountAbsent("json", '.');
  }

  /** How a document ends in `processing_summary`. */
  datatype DocStatus = DocSuccess | DocError | DocFailed

  datatype SummaryEntry = SummaryEntry(document: string, pages: nat, markdownChars: nat, status: DocStatus)

  /**
   * What happens to one document outside the model: a download that raises, or the base64 data
   * downloaded and the status code and body of the OCR request (an exception in the request reads
   * as 500).
   */
  datatype DocRun = DocDownloadRaised | DocRun(imageData: string, statusCode: int, response: Response)

  /**
   * `successful_docs`, `failed_docs`, `processing_summary`, the names results were saved under,
   * and whether an exception left the loop (the outer `try` of `main` then prints it, and neither
   * the summary nor its file is written).
   */
  datatype Ledger = Ledger(successful: seq<string>, failed: seq<string>, summary: seq<SummaryEntry>, saved: seq<string>,
                           aborted: bool)

  /**
   * One document: nothing once the loop has been left; a raising download leaves it; otherwise
   * skipped when empty; on 200 its extraction is summarised as a success (and the name recorded as
   * successful) or an error (recorded nowhere else), and saved either way; any other status is a
   * failure.
   */
  function Record(l: Ledger, name: string, run: DocRun): Ledger {
    if l.aborted then l
    else if run.DocDownloadRaised? then l.(aborted := true)
    else if run.imageData == "" then l
    else if run.statusCode == 200 then
      var e := ExtractionOf(run.response);
      var saved := l.saved + [OutputFilename(name)];
      if e.error.None? then
        l.(successful := l.successful + [name],
           summary := l.summary + [SummaryEntry(name, e.pageCount.GetOr(0), e.totalMarkdownLength.GetOr(0), DocSuccess)],
           saved := saved)
      else
        l.(summary := l.summary + [SummaryEntry(name, 0, 0, DocError)], saved := saved)
    else
      l.(failed := l.failed + [name], summary := l.summary + [SummaryEntry(name, 0, 0, DocFailed)])
  }

  /** The ledger after the first `|names|` documents. */
  function LedgerOf(names: seq<string>, runs: seq<DocRun>): Ledger
    requires |runs| == |names|
  {
    if |names| == 0 then Ledger([], [], [], [], false)
    else Record(LedgerOf(names[..|names| - 1], runs[..|runs| - 1]), names[|names| - 1], runs[|runs| - 1])
  }

  /**
   * The loop of `main` over the listed documents, which a raising download leaves (`aborted`); the
   * summary is printed and saved only when it was not left.
   */
  method ProcessDocuments(names: seq<string>, runs: seq<DocRun>)
    returns (successful: seq<string>, failed: seq<string>, summary: seq<SummaryEntry>, saved: seq<string>,
             aborted: bool)
    requires |runs| == |names|
    ensures Ledger(successful, failed, summary, saved, aborted) == LedgerOf(names, runs)
    ensures aborted <==> exists k :: 0 <= k < |runs| && runs[k].DocDownloadRaised?
  {
    successful, failed, summary, saved, aborted := [], [], [], [], false;
    var i := 0;
    while i < |names| && !aborted
      invariant 0 <= i <= |names|
      invariant Ledger(successful, failed, summary, saved, aborted) == LedgerOf(names[..i], runs[..i])
    {
      assert names[..i + 1][..i] == names[..i] && runs[..i + 1][..i] == runs[..i];
      var name, run := names[i], runs[i];
      i := i + 1;
      if run.DocDownloadRaised? {
        aborted := true;
        continue;
      }
      if run.imageData == "" {
        continue;
      }
      if run.statusCode == 200 {
        var e := ExtractContent(run.response);
        if e.error.None? {
          summary := summary + [SummaryEntry(name, e.pageCount.GetOr(0), e.totalMarkdownLength.GetOr(0), DocSuccess)];
          successful := successful + [name];
        } else {
          summary := summary + [SummaryEntry(name, 0, 0, DocError)];
        }
        saved := saved + [OutputFilename(name)];
      } else {
        failed := failed + [name];
        summary := summary + [SummaryEntry(name, 0, 0, DocFailed)];
      }
    }
    if aborted {
      LedgerAbortedStays(names, runs, i);
    } else {
      assert names[..|names|] == names && runs[..|runs|] == runs;
    }
    LedgerAbortedIff(names, runs);
  }

  /** Once the loop has been left, the later documents change nothing. */
  lemma {:induction false} LedgerAbortedStays(names: seq<string>, runs: seq<DocRun>, k: nat)
    requires |runs| == |names| && k <= |names|
    requires LedgerOf(names[..k], runs[..k]).aborted
    ensures LedgerOf(names, runs) == LedgerOf(names[..k], runs[..k])
  {
    if k < |names| {
      var init, rinit := names[..|names| - 1], runs[..|runs| - 1];
      assert init[..k] == names[..k] && rinit[..k] == runs[..k];
      LedgerAbortedStays(init, rinit, k);
    } else {
      assert names[..k] == names && runs[..k] == runs;
    }
  }

  /** The loop is left exactly when some download raises. */
  lemma {:induction false} LedgerAbortedIff(names: seq<string>, runs: seq<DocRun>)
    requires |runs| == |names|
    ensures LedgerOf(names, runs).aborted <==> exists k :: 0 <= k < |runs| && runs[k].DocDownloadRaised?
  {
    if |names| > 0 {
      var init, rinit := names[..|names| - 1], runs[..|runs| - 1];
      LedgerAbortedIff(init, rinit);
      RecordAborted(LedgerOf(init, rinit), names[|names| - 1], runs[|runs| - 1]);
      DocRaisedSplit(runs, rinit);
    }
  }

  /** A step leaves the loop when it had been left already or the download raises. */
  lemma RecordAborted(l: Ledger, name: string, run: DocRun)
    ensures Record(l, name, run).aborted <==> l.aborted || run.DocDownloadRaised?
  {
  }

  /** Some download raises exactly when one of the earlier ones or the last one does. */
  lemma DocRaisedSplit(runs: seq<DocRun>, rinit: seq<DocRun>)
    requires |runs| > 0 && rinit == runs[..|runs| - 1]
    ensures (exists k :: 0 <= k < |runs| && runs[k].DocDownloadRaised?) <==>
            (exists k :: 0 <= k < |rinit| && rinit[k].DocDownloadRaised?) || runs[|runs| - 1].DocDownloadRaised?
  {
    if exists k :: 0 <= k < |runs| && runs[k].DocDownloadRaised? {
      var k :| 0 <= k < |runs| && runs[k].DocDownloadRaised?;
      if k < |rinit| {
        assert rinit[k] == runs[k];
      }
    }
  }

  /**
   * The run stops at the first document whose download raises: the lists and summary are those of
   * the documents before it, and nothing after it is downloaded, sent or saved.
   */
  lemma DocStopsAtFirstRaise(names: seq<string>, runs: seq<DocRun>, k: nat)
    requires |runs| == |names| && k < |names|
    requires runs[k].DocDownloadRaised? && forall j :: 0 <= j < k ==> runs[j].DocRun?
    ensures LedgerOf(names, runs) == LedgerOf(names[..k], runs[..k]).(aborted := true)
  {
    var pre, rpre := names[..k + 1], runs[..k + 1];
    assert pre[..k] == names[..k] && rpre[..k] == runs[..k];
    LedgerAbortedIff(names[..k], runs[..k]);
    LedgerAbortedStays(names, runs, k + 1);
  }

  /** The number of entries with the given status. */
  function CountStatus(summary: seq<SummaryEntry>, st: DocStatus): nat {
    if |summary| == 0 then 0
    else CountStatus(summary[..|summary| - 1], st) + (if summary[|summary| - 1].status == st then 1 else 0)
  }

  /** The number of documents whose download was empty. */
  function Skipped(runs: seq<DocRun>): nat {
    if |runs| == 0 then 0
    else
      var last := runs[|runs| - 1];
      Skipped(runs[..|runs| - 1]) + (if last.DocRun? && last.imageData == "" then 1 else 0)
  }

  lemma CountStatusAppend(summary: seq<SummaryEntry>, entry: SummaryEntry, st: DocStatus)
    ensures CountStatus(summary + [entry], st) == CountStatus(summary, st) + (if entry.status == st then 1 else 0)
  {
    assert (summary + [entry])[..|summary|] == summary;
  }

  /**
   * Every document that was handled and not skipped has exactly one summary entry (so, when no
   * download raised, the entries and the skipped documents make up the total); the successful and
   * failed lists hold exactly the success and failure entries, so a 200 whose extraction failed is
   * in neither and `successful + failed <= total`; a result is saved for every 200.
   */
  lemma {:induction false} LedgerCounts(names: seq<string>, runs: seq<DocRun>)
    requires |runs| == |names|
    ensures var l := LedgerOf(names, runs);
      && (!l.aborted ==> |l.summary| + Skipped(runs) == |names|)
      && |l.summary| <= |names|
      && |l.successful| == CountStatus(l.summary, DocSuccess)
      && |l.failed| == CountStatus(l.summary, DocFailed)
      && |l.saved| == CountStatus(l.summary, DocSuccess) + CountStatus(l.summary, DocError)
      && |l.successful| + |l.failed| <= |names|
  {
    if |names| > 0 {
      var init, rinit := names[..|names| - 1], runs[..|runs| - 1];
      LedgerCounts(init, rinit);
      var l0 := LedgerOf(init, rinit);
      var run := runs[|runs| - 1];
      var name := names[|names| - 1];
      assert LedgerOf(names, runs) == Record(l0, name, run);
      if !l0.aborted && run.DocRun? && run.imageData != "" {
        var e := ExtractionOf(run.response);
        var entry :=
          if run.statusCode != 200 then SummaryEntry(name, 0, 0, DocFailed)
          else if e.error.None? then SummaryEntry(name, e.pageCount.GetOr(0), e.totalMarkdownLength.GetOr(0), DocSuccess)
          else SummaryEntry(name, 0, 0, DocError);
        assert LedgerOf(names, runs).summary == l0.summary + [entry];
        CountStatusAppend(l0.summary, entry, DocSuccess);
        CountStatusAppend(l0.summary, entry, DocFailed);
        CountStatusAppend(l0.summary, entry, DocError);
      }
      SummaryBound(l0.summary);
    }
  }

  /** The three statuses together count every entry. */
  lemma {:induction false} SummaryBound(summary: seq<SummaryEntry>)
    ensures CountStatus(summary, DocSuccess) + CountStatus(summary, DocFailed) + CountStatus(summary, DocError) == |summary|
  {
    if |summary| > 0 {
      SummaryBound(summary[..|summary| - 1]);
    }
  }
}

=== FILE: ranking.dfy ===
/**
 * `scored_results.sort(key=lambda x: x["score"], reverse=True)`: Python's sort is stable, so the
 * scored results end up in descending score order with equal scores kept in arrival order.
 */
module Ranking {
  import opened Scoring

  /** `a` is ranked ahead of `b`: a higher score, or an equal score and an earlier arrival. */
  predicate Before(a: Scored, b: Scored) {
    a.score > b.score || (a.score == b.score && a.position < b.position)
  }

  /** Every entry is ranked ahead of every later one. */
  predicate Ranked(s: seq<Scored>) {
    forall i, j :: 0 <= i < j < |s| ==> Before(s[i], s[j])
  }

  /** Non-increasing scores. */
  predicate Descending(s: seq<Scored>) {
    forall i, j :: 0 <= i < j < |s| ==> s[i].score >= s[j].score
  }

  /** Positions strictly increase: the order in which `scored_results` was built. */
  predicate InArrivalOrder(s: seq<Scored>) {
    forall i, j :: 0 <= i < j < |s| ==> s[i].position < s[j].position
  }

  /** Where a new entry with score `v` goes: after every entry scoring at least `v`. */
  function InsertionPoint(v: real, s: seq<Scored>): (k: nat)
    ensures k <= |s|
  {
    if |s| == 0 || s[0].score < v then 0 else 1 + InsertionPoint(v, s[1..])
  }

  /** Every entry before the insertion point scores at least `v`, and the one at it less. */
  lemma {:induction false} InsertionPointSplits(v: real, s: seq<Scored>)
    ensures forall i :: 0 <= i < InsertionPoint(v, s) ==> s[i].score >= v
    ensures InsertionPoint(v, s) < |s| ==> s[InsertionPoint(v, s)].score < v
  {
    if |s| > 0 && s[0].score >= v {
      InsertionPointSplits(v, s[1..]);
      assert forall i :: 1 <= i < InsertionPoint(v, s) ==> s[i] == s[1..][i - 1];
    }
  }

  /** In a descending sequence the insertion point is the first index scoring below `v`. */
  lemma {:induction false} InsertionPointUnique(v: real, s: seq<Scored>, k: nat)
    requires k <= |s|
    requires forall i :: 0 <= i < k ==> s[i].score >= v
    requires k < |s| ==> s[k].score < v
    ensures InsertionPoint(v, s) == k
  {
    if k > 0 {
      InsertionPointUnique(v, s[1..], k - 1);
    }
  }

  /** One step of the stable sort: `x` goes after every entry that scores at least as much. */
  function Insert(x: Scored, s: seq<Scored>): (r: seq<Scored>)
    ensures |r| == |s| + 1
  {
    var k := InsertionPoint(x.score, s);
    s[..k] + [x] + s[k..]
  }

  /** `Insert` keeps the entries before the insertion point, places `x`, and shifts the rest. */
  lemma InsertShape(x: Scored, s: seq<Scored>)
    ensures forall i :: 0 <= i < InsertionPoint(x.score, s) ==> Insert(x, s)[i] == s[i]
    ensures Insert(x, s)[InsertionPoint(x.score, s)] == x
    ensures forall i :: InsertionPoint(x.score, s) < i < |s| + 1 ==> Insert(x, s)[i] == s[i - 1]
  {
    Splice(s, InsertionPoint(x.score, s), x);
  }

  /** `s[..k] + [x] + s[k..]`, index by index. */
  lemma Splice<T>(s: seq<T>, k: nat, x: T)
    requires k <= |s|
    ensures var r := s[..k] + [x] + s[k..];
      && (forall i :: 0 <= i < k ==> r[i] == s[i])
      && r[k] == x
      && (forall i :: k < i < |s| + 1 ==> r[i] == s[i - 1])
  {
  }

  /** `Insert` adds exactly `x`. */
  lemma InsertPermutes(x: Scored, s: seq<Scored>)
    ensures multiset(Insert(x, s)) == multiset(s) + multiset{x}
  {
    var k := InsertionPoint(x.score, s);
    assert s == s[..k] + s[k..];
  }

  /** The stably sorted list: each entry in turn inserted into the sorted list of those before it. */
  function Rank(xs: seq<Scored>): (r: seq<Scored>)
    ensures |r| == |xs|
  {
    if |xs| == 0 then [] else Insert(xs[|xs| - 1], Rank(xs[..|xs| - 1]))
  }

  /** Ranking is a permutation: the same entries, each as often. */
  lemma {:induction false} RankPermutes(xs: seq<Scored>)
    ensures multiset(Rank(xs)) == multiset(xs)
    ensures forall y :: y in Rank(xs) <==> y in xs
  {
    if |xs| > 0 {
      var init := xs[..|xs| - 1];
      RankPermutes(init);
      InsertPermutes(xs[|xs| - 1], Rank(init));
      assert xs == init + [xs[|xs| - 1]];
    }
    assert forall y :: y in Rank(xs) <==> y in multiset(Rank(xs));
  }

  lemma InsertDescending(x: Scored, s: seq<Scored>)
    requires Descending(s)
    ensures Descending(Insert(x, s))
  {
    var k := InsertionPoint(x.score, s);
    var r := Insert(x, s);
    InsertShape(x, s);
    InsertionPointSplits(x.score, s);
    forall i, j | 0 <= i < j < |r| ensures r[i].score >= r[j].score {
      if j < k {
        assert r[i] == s[i] && r[j] == s[j];
      } else if j == k {
        assert r[i] == s[i];
      } else if i == k {
        assert r[j] == s[j - 1] && s[k].score < x.score;
      } else if i < k {
        assert r[i] == s[i] && r[j] == s[j - 1];
      } else {
        assert r[i] == s[i - 1] && r[j] == s[j - 1];
      }
    }
  }

  /** The ranked list is in descending score order, whatever the positions. */
  lemma {:induction false} RankDescending(xs: seq<Scored>)
    ensures Descending(Rank(xs))
  {
    if |xs| > 0 {
      RankDescending(xs[..|xs| - 1]);
      InsertDescending(xs[|xs| - 1], Rank(xs[..|xs| - 1]));
    }
  }

  lemma InsertRanked(x: Scored, s: seq<Scored>)
    requires Ranked(s)
    requires forall i :: 0 <= i < |s| ==> s[i].position < x.position
    ensures Ranked(Insert(x, s))
  {
    var k := InsertionPoint(x.score, s);
    var r := Insert(x, s);
    InsertShape(x, s);
    InsertionPointSplits(x.score, s);
    forall i, j | 0 <= i < j < |r| ensures Before(r[i], r[j]) {
      if j < k {
        assert r[i] == s[i] && r[j] == s[j];
      } else if j == k {
        assert r[i] == s[i];
      } else if i == k {
        assert r[j] == s[j - 1] && s[k].score < x.score;
        assert Before(s[k], s[j - 1]) || k == j - 1;
      } else if i < k {
        assert r[i] == s[i] && r[j] == s[j - 1];
      } else {
        assert r[i] == s[i - 1] && r[j] == s[j - 1];
      }
    }
  }

  /**
   * Stability: when the entries arrive with increasing positions, the ranked list orders them by
   * descending score and, among equal scores, by arrival.
   */
  lemma {:induction false} RankStable(xs: seq<Scored>)
    requires InArrivalOrder(xs)
    ensures Ranked(Rank(xs))
  {
    if |xs| > 0 {
      var init, x := xs[..|xs| - 1], xs[|xs| - 1];
      RankStable(init);
      RankPermutes(init);
      var s := Rank(init);
      forall i | 0 <= i < |s| ensures s[i].position < x.position {
        assert s[i] in init;
        var m :| 0 <= m < |init| && init[m] == s[i];
        assert xs[m] == init[m];
      }
      InsertRanked(x, s);
    }
  }

  /** The first ranked entry has the highest score of all. */
  lemma RankHeadIsMax(xs: seq<Scored>)
    requires |xs| > 0
    ensures Rank(xs)[0] in xs
    ensures forall x :: x in xs ==> Rank(xs)[0].score >= x.score
  {
    var r := Rank(xs);
    RankDescending(xs);
    RankPermutes(xs);
    assert r[0] in r;
    forall x | x in xs ensures r[0].score >= x.score {
      var j :| 0 <= j < |r| && r[j] == x;
    }
  }

  /** A sequence that holds `s` with `x` placed at its insertion point is `Insert(x, s)`. */
  lemma PlacedIsInsert(x: Scored, s: seq<Scored>, j: nat, r: seq<Scored>)
    requires j <= |s| && |r| == |s| + 1
    requires forall m :: 0 <= m < j ==> s[m].score >= x.score
    requires j < |s| ==> s[j].score < x.score
    requires forall m :: 0 <= m < j ==> r[m] == s[m]
    requires r[j] == x
    requires forall m :: j < m < |r| ==> r[m] == s[m - 1]
    ensures r == Insert(x, s)
  {
    InsertionPointUnique(x.score, s, j);
    InsertShape(x, s);
  }

  /** Moves `a[i]` left past every entry scoring strictly less than it. */
  method InsertAt(a: array<Scored>, i: nat)
    requires i < a.Length
    requires Descending(a[..i])
    modifies a
    ensures a[..i + 1] == Insert(old(a[i]), old(a[..i]))
    ensures a[i + 1..] == old(a[i + 1..])
  {
    ghost var s, rest := a[..i], a[i + 1..];
    var x := a[i];
    var j := i;
    while j > 0 && a[j - 1].score < x.score
      invariant j <= i
      invariant forall m :: 0 <= m < j ==> a[m] == s[m]
      invariant forall m :: j < m <= i ==> a[m] == s[m - 1]
      invariant forall m :: j <= m < i ==> s[m].score < x.score
      invariant a[i + 1..] == rest
    {
      a[j] := a[j - 1];
      j := j - 1;
    }
    a[j] := x;
    forall m | 0 <= m < j ensures s[m].score >= x.score {
      assert s[m].score >= s[j - 1].score;
    }
    PlacedIsInsert(x, s, j, a[..i + 1]);
  }

  lemma RankStep(xs: seq<Scored>, i: nat)
    requires i < |xs|
    ensures Rank(xs[..i + 1]) == Insert(xs[i], Rank(xs[..i]))
  {
    assert xs[..i + 1][..i] == xs[..i];
  }

  /** `scored_results.sort(key=score, reverse=True)`, in place: an insertion sort. */
  method SortByScore(a: array<Scored>)
    modifies a
    ensures a[..] == Rank(old(a[..]))
  {
    ghost var xs := a[..];
    for i := 0 to a.Length
      invariant a[..i] == Rank(xs[..i])
      invariant a[i..] == xs[i..]
    {
      ghost var sorted, rest := a[..i], a[i + 1..];
      assert a[i] == xs[i] && rest == xs[i + 1..];
      RankDescending(xs[..i]);
      InsertAt(a, i);
      assert a[i + 1..] == rest;
      assert a[..i + 1] == Insert(xs[i], sorted);
      RankStep(xs, i);
    }
    assert xs[..a.Length] == xs;
  }
}

=== FILE: receipt_model.dfy ===
/**
 * The extraction result every source is normalised into (`ReceiptExtractionResult`), and the
 * Python truthiness tests the aggregation applies to its fields.
 */
module ReceiptModel {
  import opened Wrappers
  import Text

  /**
   * The `source` tag of a result. The three known tags ("document_intelligence", "mistral",
   * "direct_extraction") are always written with their own constructors: `OtherSource(name)` stands
   * only for a tag that is none of them, which has no priority.
   */
  datatype Source = DocumentIntelligence | Mistral | DirectExtraction | OtherSource(name: string)

  /** One line item (a dict in the source); only `description` takes part in the merge. */
  datatype Item = Item(description: Option<string>, quantity: Option<real>, price: Option<real>, totalPrice: Option<real>)

  /**
   * `ReceiptExtractionResult`. `rawResponseKeys` are the keys of `raw_response`; a result whose raw
   * response has an "error" key is invalid.
   */
  datatype ExtractionResult = ExtractionResult(
    source: Source,
    merchantName: Option<string>,
    transactionDate: Option<string>,
    transactionTime: Option<string>,
    totalAmount: Option<real>,
    currency: Option<string>,
    items: seq<Item>,
    rawResponseKeys: set<string>,
    confidenceScore: Option<real>,
    blobName: string)

  /** A string field that Python treats as true: present and non-empty. */
  predicate Truthy(s: Option<string>) {
    s.Some? && s.value != ""
  }

  predicate HasError(r: ExtractionResult) {
    "error" in r.rawResponseKeys
  }

  /** The five scalar fields the merge gap-fills. */
  datatype Field = MerchantName | TransactionDate | TransactionTime | TotalAmount | Currency

  /**
   * Whether a result supplies a field: a truthy string for the text fields, and for the total any
   * value that is not `None` (so 0.0 counts).
   */
  predicate Present(r: ExtractionResult, f: Field) {
    match f
    case MerchantName => Truthy(r.merchantName)
    case TransactionDate => Truthy(r.transactionDate)
    case TransactionTime => Truthy(r.transactionTime)
    case Currency => Truthy(r.currency)
    case TotalAmount => r.totalAmount.Some?
  }

  /** An item takes part in the merge only when its description is truthy. */
  predicate HasDescription(item: Item) {
    Truthy(item.description)
  }

  /** `description.lower().strip()`: the key items are deduplicated by. */
  function DescriptionKey(d: string): string {
    Text.Strip(Text.Lower(d))
  }
}

=== FILE: routing.dfy ===
/**
 * The quality router of the receipt workflow: the edge conditions that send an assessed image to
 * Mistral, to Document Intelligence or to all three processors, the request texts the
 * transformers build, and how a processor recovers the blob name from such a text.
 */
module Routing {
  import opened Wrappers
  import opened Text

  /** `ImageQualityAssessment`, without the confidence score and reasoning that routing ignores. */
  datatype Assessment = Assessment(quality: string, imageData: string, blobName: string)

  /**
   * A message reaching an edge condition: anything other than an agent response, or an agent
   * response whose text either validates as an assessment (`Some`) or does not (`None`).
   */
  datatype Message = OtherMessage | AgentResponse(assessment: Option<Assessment>)

  /** `get_quality_condition(expected)(message)`. */
  function QualityCondition(expected: string, m: Message): bool {
    match m
    case OtherMessage => true
    case AgentResponse(None) => false
    case AgentResponse(Some(a)) => a.quality == expected
  }

  /** The three conditional edges out of the quality assessor. */
  datatype Route = ToMistral | ToDocumentIntelligence | ToAllAgents

  /** The quality each edge's condition expects. */
  function Expected(route: Route): string {
    match route
    case ToMistral => "clear"
    case ToDocumentIntelligence => "blurry"
    case ToAllAgents => "uncertain"
  }

  /** For an agent response at most one of the three edges fires. */
  lemma AtMostOneRoute(m: Message, r1: Route, r2: Route)
    requires m.AgentResponse?
    requires QualityCondition(Expected(r1), m) && QualityCondition(Expected(r2), m)
    ensures r1 == r2
  {
  }

  /** Anything other than an agent response passes every condition. */
  lemma OtherMessageFiresAll(route: Route)
    ensures QualityCondition(Expected(route), OtherMessage)
  {
  }

  /**
   * A response that does not validate fires no edge, and a valid one fires an edge exactly when its
   * quality is "clear", "blurry" or "uncertain".
   */
  lemma SomeRouteIffKnownQuality(m: Message)
    requires m.AgentResponse?
    ensures (exists route :: QualityCondition(Expected(route), m)) <==>
      m.assessment.Some? && m.assessment.value.quality in {"clear", "blurry", "uncertain"}
  {
    if m.assessment.Some? {
      var q := m.assessment.value.quality;
      if q == "clear" {
        assert QualityCondition(Expected(ToMistral), m);
      } else if q == "blurry" {
        assert QualityCondition(Expected(ToDocumentIntelligence), m);
      } else if q == "uncertain" {
        assert QualityCondition(Expected(ToAllAgents), m);
      }
    }
  }

  /** `image_data[:100]`. */
  function Preview(data: string): (p: string)
    ensures |p| <= 100 && StartsWith(data, p)
    ensures |data| <= 100 ==> p == data
  {
    if |data| <= 100 then data else data[..100]
  }

  /** `f"{lead}: {blob_name}\nImage data: {image_data[:100]}..."`. */
  function RequestText(lead: string, blobName: string, imageData: string): string {
    lead + ": " + blobName + "\nImage data: " + Preview(imageData) + "..."
  }

  const ClearLead := "Process this clear receipt image"
  const BlurryLead := "Process this blurry receipt image"
  const UncertainLead := "Process this uncertain quality receipt image"

  /** The lead of the request text the transformer on each edge builds. */
  function Lead(route: Route): string {
    match route
    case ToMistral => ClearLead
    case ToDocumentIntelligence => BlurryLead
    case ToAllAgents => UncertainLead
  }

  /**
   * The texts the transformer on each edge sends with `ctx.send_message`, in order. A send names
   * no recipient: the workflow's outgoing edges decide which processors receive each message.
   */
  function RouteRequests(route: Route, a: Assessment): (rs: seq<string>)
    ensures |rs| == if route == ToAllAgents then 3 else 1
    ensures forall i, j :: 0 <= i < j < |rs| ==> rs[i] == rs[j]
  {
    var text := RequestText(Lead(route), a.blobName, a.imageData);
    if route == ToAllAgents then [text, text, text] else [text]
  }

  /** `message_text.split(": ")[1].split("\n")[0] if ": " in message_text else "unknown"`. */
  function ProcessorBlobName(text: string): string {
    if Contains(text, ": ") then SplitFirst(SplitSecond(text, ": "), "\n") else "unknown"
  }

  /** A text without ": " reads as "unknown". */
  lemma ProcessorBlobNameUnknown(text: string)
    requires forall j :: 0 <= j < |text| - 1 ==> !(text[j] == ':' && text[j + 1] == ' ')
    ensures ProcessorBlobName(text) == "unknown"
  {
    forall j: nat | j + 2 <= |text| ensures !OccursAt(text, ": ", j) {
      assert text[j..j + 2][0] == text[j] && text[j..j + 2][1] == text[j + 1];
    }
  }

  /** The first ": " of a request text is the one after its lead. */
  lemma FirstSeparator(lead: string, rest: string)
    requires ':' !in lead
    ensures Find(lead + ": " + rest, ": ", 0) == Some(|lead|)
  {
    var t := lead + ": " + rest;
    assert t[|lead|..|lead| + 2] == ": ";
    forall j | 0 <= j < |lead| ensures !OccursAt(t, ": ", j) {
      assert t[j] == lead[j];
    }
    FindIs(t, ": ", 0, |lead|);
  }

  /** No ": " starts inside a name that holds none and is followed by a newline. */
  lemma NoSeparatorInName(t: string, start: nat, rest: string, blobName: string)
    requires start + |rest| == |t| && t[start..] == rest
    requires StartsWith(rest, blobName + "\n") && !Contains(blobName, ": ")
    ensures forall j :: start <= j <= start + |blobName| ==> !OccursAt(t, ": ", j)
  {
    var e := start + |blobName|;
    forall j | start <= j <= e ensures !OccursAt(t, ": ", j) {
      assert t[j] == rest[j - start];
      if j + 1 < e {
        assert t[j + 1] == rest[j + 1 - start];
        assert !OccursAt(blobName, ": ", j - start);
        assert blobName[j - start..j - start + 2] == [t[j], t[j + 1]];
      } else if j + 1 == e {
        assert t[j + 1] == rest[|blobName|];
      }
    }
  }

  /**
   * The field after the first ": " starts with the blob name and a newline, whatever the text
   * after the newline holds.
   */
  lemma SecondFieldStartsWithName(lead: string, blobName: string, tail: string)
    requires ':' !in lead && !Contains(blobName, ": ")
    ensures var t := lead + ": " + blobName + "\n" + tail;
      Contains(t, ": ") && StartsWith(SplitSecond(t, ": "), blobName + "\n")
  {
    var rest := blobName + "\n" + tail;
    var t := lead + ": " + rest;
    assert t == lead + ": " + blobName + "\n" + tail;
    FirstSeparator(lead, rest);
    var start := |lead| + 2;
    var p := blobName + "\n";
    assert t[start..] == rest;
    assert t[start..start + |p|] == p;
    NoSeparatorInName(t, start, rest, blobName);
    match Find(t, ": ", start)
    case Some(j) =>
      SliceStartsWith(t, start, j, p);
    case None =>
      SliceStartsWith(t, start, |t|, p);
  }

  /** A slice from `start` that reaches past `p` starts with it when the text has `p` at `start`. */
  lemma SliceStartsWith(t: string, start: nat, j: nat, p: string)
    requires start + |p| <= j <= |t| && t[start..start + |p|] == p
    ensures StartsWith(t[start..j], p)
  {
    assert t[start..j][..|p|] == t[start..start + |p|];
  }

  /** The part of a text before its first newline, when the text starts with `name + "\n"`. */
  lemma FirstLine(name: string, s: string)
    requires '\n' !in name && StartsWith(s, name + "\n")
    ensures SplitFirst(s, "\n") == name
  {
    assert s[|name|..|name| + 1] == "\n";
    forall j | 0 <= j < |name| ensures !OccursAt(s, "\n", j) {
      assert s[j] == (name + "\n")[j] == name[j];
    }
    FindIs(s, "\n", 0, |name|);
    assert s[..|name|] == (name + "\n")[..|name|];
  }

  /**
   * A processor recovers the blob name from any request text whose lead has no ':' and whose name
   * holds neither ": " nor a newline.
   */
  lemma RequestTextRoundTrip(lead: string, blobName: string, imageData: string)
    requires ':' !in lead
    requires !Contains(blobName, ": ") && '\n' !in blobName
    ensures ProcessorBlobName(RequestText(lead, blobName, imageData)) == blobName
  {
    var tail := "Image data: " + Preview(imageData) + "...";
    assert RequestText(lead, blobName, imageData) == lead + ": " + blobName + "\n" + tail;
    SecondFieldStartsWithName(lead, blobName, tail);
    FirstLine(blobName, SplitSecond(lead + ": " + blobName + "\n" + tail, ": "));
  }

  lemma LeadsWithoutColon()
    ensures ':' !in ClearLead && ':' !in BlurryLead && ':' !in UncertainLead
  {
    ClearLeadWithoutColon();
    BlurryLeadWithoutColon();
    UncertainLeadWithoutColon();
  }

  lemma ClearLeadWithoutColon()
    ensures ':' !in ClearLead
  {
  }

  lemma BlurryLeadWithoutColon()
    ensures ':' !in BlurryLead
  {
  }

  lemma UncertainLeadWithoutColon()
    ensures ':' !in UncertainLead
  {
  }

  /** Every request a transformer sends names the assessed blob to whichever processor reads it. */
  lemma RouteRequestsRoundTrip(route: Route, a: Assessment)
    requires !Contains(a.blobName, ": ") && '\n' !in a.blobName
    ensures forall text :: text in RouteRequests(route, a) ==> ProcessorBlobName(text) == a.blobName
  {
    LeadsWithoutColon();
    RequestTextRoundTrip(Lead(route), a.blobName, a.imageData);
  }
}

=== FILE: scoring.dfy ===
/**
 * The score `aggregate_results` gives each valid result: normalised completeness, confidence
 * (0.5 when absent) and a source-priority tie-break, all as exact reals.
 */
module Scoring {
  import opened Wrappers
  import opened ReceiptModel

  /** `min(len(items) * 0.5, 5.0)`. */
  function ItemsWeight(n: nat): (w: real)
    ensures n > 0 ==> 0.5 <= w <= 5.0
  {
    if n as real * 0.5 <= 5.0 then n as real * 0.5 else 5.0
  }

  /** `completeness_score`: merchant 2, date 2, total 3, currency 1, items min(0.5 n, 5), time 1. */
  function WeightTotal(r: ExtractionResult): real {
    (if Truthy(r.merchantName) then 2.0 else 0.0)
    + (if Truthy(r.transactionDate) then 2.0 else 0.0)
    + (if r.totalAmount.Some? then 3.0 else 0.0)
    + (if Truthy(r.currency) then 1.0 else 0.0)
    + (if |r.items| > 0 then ItemsWeight(|r.items|) else 0.0)
    + (if Truthy(r.transactionTime) then 1.0 else 0.0)
  }

  /** `field_counts`: how many of those six fields the result has. */
  function FieldCount(r: ExtractionResult): nat {
    (if Truthy(r.merchantName) then 1 else 0)
    + (if Truthy(r.transactionDate) then 1 else 0)
    + (if r.totalAmount.Some? then 1 else 0)
    + (if Truthy(r.currency) then 1 else 0)
    + (if |r.items| > 0 then 1 else 0)
    + (if Truthy(r.transactionTime) then 1 else 0)
  }

  /** `completeness_score / field_counts`, or 0.0 when no field is present. */
  function Completeness(r: ExtractionResult): real {
    if FieldCount(r) > 0 then WeightTotal(r) / FieldCount(r) as real else 0.0
  }

  predicate NothingPresent(r: ExtractionResult) {
    !Truthy(r.merchantName) && !Truthy(r.transactionDate) && r.totalAmount.None?
    && !Truthy(r.currency) && |r.items| == 0 && !Truthy(r.transactionTime)
  }

  /** No field counts exactly when nothing is present, and at most six ever do. */
  lemma FieldCountRange(r: ExtractionResult)
    ensures FieldCount(r) == 0 <==> NothingPresent(r)
    ensures FieldCount(r) <= 6
  {
  }

  /** Every counted field weighs between 0.5 and 5.0. */
  lemma WeightTotalBounds(r: ExtractionResult)
    ensures 0.5 * FieldCount(r) as real <= WeightTotal(r) <= 5.0 * FieldCount(r) as real
  {
    var _ := ItemsWeight(|r.items|);
  }

  lemma DivBounds(s: real, n: real, lo: real, hi: real)
    requires n > 0.0 && lo * n <= s <= hi * n
    ensures lo <= s / n <= hi
  {
    var c := s / n;
    assert c * n == s;
  }

  /** Completeness is 0.0 exactly when nothing is present, and otherwise lies in [0.5, 5.0]. */
  lemma CompletenessBounds(r: ExtractionResult)
    ensures Completeness(r) == 0.0 <==> NothingPresent(r)
    ensures !NothingPresent(r) ==> 0.5 <= Completeness(r) <= 5.0
  {
    FieldCountRange(r);
    if !NothingPresent(r) {
      WeightTotalBounds(r);
      DivBounds(WeightTotal(r), FieldCount(r) as real, 0.5, 5.0);
    }
  }

  /** A result of the given source with no field set. */
  function Bare(source: Source): ExtractionResult {
    ExtractionResult(source, None, None, None, None, None, [], {}, None, "")
  }

  /**
   * Completeness is not monotone in the number of fields: a total alone scores 3.0, while merchant,
   * date, total and currency together score 2.0.
   */
  lemma CompletenessNotMonotone(s: Source)
    ensures Completeness(Bare(s).(totalAmount := Some(1.0))) == 3.0
    ensures Completeness(Bare(s).(merchantName := Some("M"), transactionDate := Some("D"),
                                  totalAmount := Some(1.0), currency := Some("C"))) == 2.0
  {
  }

  /** `confidence_score`, or 0.5 when it is `None`. */
  function Confidence(r: ExtractionResult): real {
    r.confidenceScore.GetOr(0.5)
  }

  /** `source_priorities.get(source, 0)`. */
  function Priority(s: Source): (p: nat)
    ensures p <= 3
  {
    match s
    case DocumentIntelligence => 3
    case Mistral => 2
    case DirectExtraction => 1
    case OtherSource(_) => 0
  }

  /** What the result extracted, before the tie-break: 0.7 completeness + 0.3 confidence. */
  function Quality(r: ExtractionResult): real {
    Completeness(r) * 0.7 + Confidence(r) * 0.3
  }

  /** `final_score`: quality plus 0.01 times the source priority. */
  function FinalScore(r: ExtractionResult): (score: real)
    ensures Quality(r) <= score <= Quality(r) + 0.03
  {
    Quality(r) + Priority(r.source) as real * 0.01
  }

  /** With equal completeness and confidence the higher-priority source scores higher. */
  lemma PriorityBreaksTies(a: ExtractionResult, b: ExtractionResult)
    requires Completeness(a) == Completeness(b) && Confidence(a) == Confidence(b)
    ensures FinalScore(a) > FinalScore(b) <==> Priority(a.source) > Priority(b.source)
    ensures FinalScore(a) == FinalScore(b) <==> Priority(a.source) == Priority(b.source)
  {
  }

  /** The tie-break never outweighs a quality lead of more than 0.03. */
  lemma QualityOutweighsPriority(a: ExtractionResult, b: ExtractionResult)
    requires Quality(a) > Quality(b) + 0.03
    ensures FinalScore(a) > FinalScore(b)
  {
  }

  /** One entry of `scored_results`; `position` is its index in that list before sorting. */
  datatype Scored = Scored(position: nat, result: ExtractionResult, completeness: real, confidence: real, score: real)

  function ScoreOf(position: nat, r: ExtractionResult): (e: Scored)
    ensures e.position == position && e.result == r
  {
    Scored(position, r, Completeness(r), Confidence(r), FinalScore(r))
  }
}

=== FILE: storage_utils.dfy ===
/**
 * The blob-storage helpers shared by the agents and the Azure OpenAI scripts: normalising the
 * configured prefix, resolving a relative blob name against it, the module-level credential and
 * client caches, and the collection of top-level prefixes.
 */
module StorageUtils {
  import opened Wrappers
  import opened Text

  /** The `STORAGE_PREFIX` setting normalised: "" when unset or empty, else `lstrip('/').rstrip('/') + '/'`. */
  function NormalizePrefix(raw: Option<string>): string {
    if raw.None? || raw.value == "" then "" else RStrip(LStrip(raw.value, IsSlash), IsSlash) + "/"
  }

  /**
   * A normalised prefix is "" exactly for an unset or empty setting; otherwise it is a core with no
   * slash at either end followed by exactly one '/'. A setting of slashes only becomes "/".
   */
  lemma NormalizePrefixShape(raw: Option<string>)
    ensures NormalizePrefix(raw) == "" <==> raw.None? || raw.value == ""
    ensures var p := NormalizePrefix(raw);
      p != "" ==> p[|p| - 1] == '/' && (|p| == 1 || (p[0] != '/' && p[|p| - 2] != '/'))
    ensures raw.Some? && raw.value != "" && (forall i :: 0 <= i < |raw.value| ==> raw.value[i] == '/') ==>
      NormalizePrefix(raw) == "/"
  {
    if raw.Some? && raw.value != "" {
      var l := LStrip(raw.value, IsSlash);
      var core := RStrip(l, IsSlash);
      assert |core| > 0 ==> core[0] == l[0];
      var p := NormalizePrefix(raw);
      assert p == core + "/";
      if |core| > 0 {
        assert p[0] == core[0] && p[|p| - 2] == core[|core| - 1];
      }
    }
  }

  /** Normalising a normalised prefix changes nothing. */
  lemma NormalizePrefixIdempotent(raw: Option<string>)
    ensures NormalizePrefix(Some(NormalizePrefix(raw))) == NormalizePrefix(raw)
  {
    var p := NormalizePrefix(raw);
    if p != "" {
      var core := RStrip(LStrip(raw.value, IsSlash), IsSlash);
      assert p == core + "/";
      NormalizePrefixShape(raw);
      if |core| > 0 {
        assert LStrip(p, IsSlash) == p;
        assert RStrip(p, IsSlash) == RStrip(core, IsSlash);
        assert RStrip(core, IsSlash) == core;
      } else {
        assert p == "/";
        assert LStrip(p, IsSlash) == LStrip("", IsSlash);
      }
    }
  }

  /**
   * `get_blob_base64`'s name resolution: a name is used as given when there is no prefix or it
   * already starts with it; otherwise its leading slashes are dropped and the prefix put in front.
   */
  function ResolveBlobName(prefix: string, blobName: string): (resolved: string)
    ensures StartsWith(resolved, prefix)
    ensures prefix == "" || StartsWith(blobName, prefix) ==> resolved == blobName
    ensures prefix != "" && !StartsWith(blobName, prefix) ==> resolved == prefix + LStrip(blobName, IsSlash)
  {
    if prefix != "" && !StartsWith(blobName, prefix) then
      var r := prefix + LStrip(blobName, IsSlash);
      assert r[..|prefix|] == prefix;
      r
    else blobName
  }

  /** Resolving twice is resolving once. */
  lemma ResolveBlobNameIdempotent(prefix: string, blobName: string)
    ensures ResolveBlobName(prefix, ResolveBlobName(prefix, blobName)) == ResolveBlobName(prefix, blobName)
  {
  }

  /** The name `__main__` passes on: the part after the configured prefix, when the name has it. */
  function RelativeName(prefix: string, blobName: string): (rel: string)
    ensures prefix != "" && StartsWith(blobName, prefix) ==> blobName == prefix + rel
    ensures !(prefix != "" && StartsWith(blobName, prefix)) ==> rel == blobName
  {
    if prefix != "" && StartsWith(blobName, prefix) then
      var rel := blobName[|prefix|..];
      assert blobName == blobName[..|prefix|] + rel;
      rel
    else blobName
  }

  /**
   * Stripping the prefix and resolving again gives back the listed name exactly when the
   * remainder neither starts with '/' nor starts with the prefix itself.
   */
  lemma RelativeNameRoundTrip(prefix: string, blobName: string)
    requires prefix != "" && StartsWith(blobName, prefix)
    ensures var rel := RelativeName(prefix, blobName);
      ResolveBlobName(prefix, rel) == blobName <==>
        !StartsWith(rel, prefix) && (rel == "" || rel[0] != '/')
  {
    var rel := RelativeName(prefix, blobName);
    if !StartsWith(rel, prefix) {
      var l := LStrip(rel, IsSlash);
      if rel != "" && rel[0] == '/' {
        assert |l| < |rel|;
        assert |prefix + l| < |blobName|;
      }
    }
  }

  /** The URL of a storage account. */
  function AccountUrl(accountName: string): string {
    "https://" + accountName + ".blob.core.windows.net"
  }

  /**
   * A `BlobServiceClient`: the instance number that gives it its identity, its account URL and
   * the instance number of the credential it was built with.
   */
  datatype Client = Client(id: nat, accountUrl: string, credential: nat)

  /**
   * The module-level caches `_cached_credential`, `_cached_blob_service_client` and
   * `_cached_account_name`. Objects are identified by instance numbers drawn from `created`.
   */
  class StorageCache {
    var credential: Option<nat>
    var client: Option<Client>
    var accountName: Option<string>
    var created: nat

    /** Every cached object was created earlier, and a cached client was built with the cached credential. */
    predicate Valid()
      reads this
    {
      (credential.Some? ==> credential.value < created)
      && (client.Some? ==> client.value.id < created && accountName.Some?
                           && credential.Some? && client.value.credential == credential.value)
    }

    constructor()
      ensures Valid()
      ensures credential == None && client == None && accountName == None && created == 0
    {
      credential, client, accountName, created := None, None, None, 0;
    }

    /** `get_cached_credential`: created on the first call, the same instance on every later one. */
    method GetCachedCredential() returns (c: nat)
      requires Valid()
      modifies this
      ensures Valid()
      ensures credential == Some(c)
      ensures old(credential).Some? ==> c == old(credential).value && created == old(created)
      ensures old(credential).None? ==> c == old(created) && created == old(created) + 1
      ensures client == old(client) && accountName == old(accountName)
    {
      if credential.None? {
        credential := Some(created);
        created := created + 1;
      }
      c := credential.value;
    }

    /**
     * `get_blob_service_client`: the cached client when there is one for the same account;
     * otherwise a new client for the account's URL, built with the cached credential, replaces
     * both cached fields.
     */
    method GetBlobServiceClient(account: string) returns (cl: Client)
      requires Valid()
      modifies this
      ensures Valid()
      ensures client == Some(cl) && accountName == Some(account)
      ensures old(client).Some? && old(accountName) == Some(account) ==>
        cl == old(client).value && credential == old(credential) && created == old(created)
      ensures !(old(client).Some? && old(accountName) == Some(account)) ==>
        old(created) <= cl.id && cl.accountUrl == AccountUrl(account)
        && (old(credential).Some? ==> credential == old(credential))
    {
      if client.Some? && accountName == Some(account) {
        return client.value;
      }
      var url := AccountUrl(account);
      var c := GetCachedCredential();
      cl := Client(created, url, c);
      created := created + 1;
      client, accountName := Some(cl), Some(account);
    }
  }

  /** `parts[0] + '/'` for a name with a '/'. */
  function TopLevelPrefix(name: string): (p: string)
    requires '/' in name
    ensures |p| > 0 && p[|p| - 1] == '/' && '/' !in p[..|p| - 1] && StartsWith(name, p)
  {
    SplitFirstChar(name, '/');
    var p := SplitFirst(name, "/") + "/";
    assert p[..|p| - 1] == SplitFirst(name, "/");
    p
  }

  /** The prefixes `get_container_blobs` collects: one per name that has a '/'. */
  function TopLevelPrefixes(names: seq<string>): set<string> {
    if |names| == 0 then {}
    else
      var last := names[|names| - 1];
      TopLevelPrefixes(names[..|names| - 1]) + (if '/' in last then {TopLevelPrefix(last)} else {})
  }

  /**
   * Every collected prefix ends in its only '/', and leads one of the names; each name with a '/'
   * contributes its prefix.
   */
  lemma {:induction false} TopLevelPrefixesShape(names: seq<string>)
    ensures forall p :: p in TopLevelPrefixes(names) ==>
      |p| > 0 && p[|p| - 1] == '/' && '/' !in p[..|p| - 1]
      && exists n :: n in names && StartsWith(n, p)
    ensures forall n :: n in names && '/' in n ==> TopLevelPrefix(n) in TopLevelPrefixes(names)
  {
    if |names| > 0 {
      var init := names[..|names| - 1];
      TopLevelPrefixesShape(init);
      assert forall n :: n in init ==> n in names;
      assert names == init + [names[|names| - 1]];
    }
  }

  /** The loop that fills `unique_prefixes`. */
  method CollectPrefixes(names: seq<string>) returns (prefixes: set<string>)
    ensures prefixes == TopLevelPrefixes(names)
  {
    prefixes := {};
    for i := 0 to |names|
      invariant prefixes == TopLevelPrefixes(names[..i])
    {
      assert names[..i + 1][..i] == names[..i];
      if '/' in names[i] {
        prefixes := prefixes + {TopLevelPrefix(names[i])};
      }
    }
    assert names[..|names|] == names;
  }
}

=== FILE: text.dfy ===
/**
 * The Python string operations the scripts rely on, on `seq<char>`:
 * `str.strip`/`lstrip`/`rstrip`, `str.lower` (ASCII letters only), `str.replace` of one
 * character, `in`, `str.split(sep)[0]` and `[1]`, `str.join`, `str.rfind`,
 * `os.path.splitext` and `os.path.basename` (POSIX separator '/').
 */
module Text {
  import opened Wrappers

  /** Python's `str.isspace()` for a single code point. */
  predicate IsSpace(c: char) {
    var n := c as int;
    n == 0x20 || 0x09 <= n <= 0x0D || 0x1C <= n <= 0x1F || n == 0x85 || n == 0xA0
    || n == 0x1680 || 0x2000 <= n <= 0x200A || n == 0x2028 || n == 0x2029
    || n == 0x202F || n == 0x205F || n == 0x3000
  }

  predicate IsSlash(c: char) { c == '/' }

  predicate IsAsciiUpper(c: char) { 'A' <= c <= 'Z' }

  predicate IsAsciiAlnum(c: char) { 'A' <= c <= 'Z' || 'a' <= c <= 'z' || '0' <= c <= '9' }

  function LowerChar(c: char): char {
    if IsAsciiUpper(c) then (c as int + 32) as char else c
  }

  /** `s.lower()`, restricted to the ASCII letters. */
  function Lower(s: string): (r: string)
    ensures |r| == |s|
    ensures forall i :: 0 <= i < |s| ==> r[i] == LowerChar(s[i])
  {
    seq(|s|, i requires 0 <= i < |s| => LowerChar(s[i]))
  }

  /** `s.lstrip(chars)`: the longest suffix of `s` that does not start with a dropped character. */
  function LStrip(s: string, drop: char -> bool): (r: string)
    ensures |r| <= |s| && r == s[|s| - |r|..]
    ensures |r| > 0 ==> !drop(r[0])
    ensures forall i :: 0 <= i < |s| - |r| ==> drop(s[i])
  {
    if |s| > 0 && drop(s[0]) then
      var r := LStrip(s[1..], drop);
      assert forall i :: 1 <= i < |s| - |r| ==> s[i] == s[1..][i - 1];
      r
    else s
  }

  /** `s.rstrip(chars)`: the longest prefix of `s` that does not end with a dropped character. */
  function RStrip(s: string, drop: char -> bool): (r: string)
    ensures |r| <= |s| && r == s[..|r|]
    ensures |r| > 0 ==> !drop(r[|r| - 1])
    ensures forall i :: |r| <= i < |s| ==> drop(s[i])
  {
    if |s| > 0 && drop(s[|s| - 1]) then
      var r := RStrip(s[..|s| - 1], drop);
      assert forall i :: |r| <= i < |s| - 1 ==> s[i] == s[..|s| - 1][i];
      r
    else s
  }

  /** `s.strip()`: surrounding whitespace removed. */
  function Strip(s: string): string {
    LStrip(RStrip(s, IsSpace), IsSpace)
  }

  /** A text with no whitespace at either end is its own `strip()`. */
  lemma StripUnchanged(s: string)
    requires |s| == 0 || (!IsSpace(s[0]) && !IsSpace(s[|s| - 1]))
    ensures Strip(s) == s
  {
  }

  /** `strip()` removes only whitespace: every other character of `s` survives it. */
  lemma StripKeeps(s: string, i: nat)
    requires i < |s| && !IsSpace(s[i])
    ensures s[i] in Strip(s)
  {
    var r := RStrip(s, IsSpace);
    assert i < |r| && r[i] == s[i];
    var l := LStrip(r, IsSpace);
    assert i >= |r| - |l|;
    assert l[i - (|r| - |l|)] == r[i];
  }

  /** `s.replace(a, b)` for single characters. */
  function ReplaceChar(s: string, a: char, b: char): (r: string)
    ensures |r| == |s|
    ensures forall i :: 0 <= i < |s| ==> r[i] == if s[i] == a then b else s[i]
  {
    seq(|s|, i requires 0 <= i < |s| => if s[i] == a then b else s[i])
  }

  /** Replacing `a` by `b` leaves no `a`, and brings in no character other than `b`. */
  lemma ReplaceCharAbsent(s: string, a: char, b: char, c: char)
    requires a != b
    ensures a !in ReplaceChar(s, a, b)
    ensures c != b && c !in s ==> c !in ReplaceChar(s, a, b)
  {
    var r := ReplaceChar(s, a, b);
    forall i | 0 <= i < |r| ensures r[i] != a && (c != b && c !in s ==> r[i] != c) {
      assert s[i] in s;
    }
  }

  /** `s.replace(c, "")`. */
  function RemoveChar(s: string, c: char): (r: string)
    ensures c !in r
    ensures forall x :: x in r ==> x in s
    ensures c !in s ==> r == s
  {
    if |s| == 0 then ""
    else if s[0] == c then RemoveChar(s[1..], c)
    else [s[0]] + RemoveChar(s[1..], c)
  }

  /** Removing `c` keeps every other character. */
  lemma {:induction false} RemoveCharKeeps(s: string, c: char, x: char)
    requires x != c && x in s
    ensures x in RemoveChar(s, c)
  {
    if s[0] != x {
      RemoveCharKeeps(s[1..], c, x);
    }
  }

  /** The number of occurrences of `c` in `s`. */
  function Count(s: string, c: char): nat {
    if |s| == 0 then 0 else (if s[0] == c then 1 else 0) + Count(s[1..], c)
  }

  lemma {:induction false} CountAppend(a: string, b: string, c: char)
    ensures Count(a + b, c) == Count(a, c) + Count(b, c)
  {
    if |a| > 0 {
      assert (a + b)[1..] == a[1..] + b;
      CountAppend(a[1..], b, c);
    } else {
      assert a + b == b;
    }
  }

  lemma {:induction false} CountAbsent(s: string, c: char)
    requires c !in s
    ensures Count(s, c) == 0
  {
    if |s| > 0 {
      assert s[0] != c;
      CountAbsent(s[1..], c);
    }
  }

  predicate StartsWith(s: string, p: string) {
    |p| <= |s| && s[..|p|] == p
  }

  predicate EndsWith(s: string, p: string) {
    |p| <= |s| && s[|s| - |p|..] == p
  }

  /** A text that ends with `p` still does with anything put in front of it. */
  lemma EndsWithPrefixed(a: string, s: string, p: string)
    requires EndsWith(s, p)
    ensures EndsWith(a + s, p)
  {
    assert (a + s)[|a + s| - |p|..] == s[|s| - |p|..];
  }

  predicate OccursAt(s: string, pat: string, i: nat) {
    i + |pat| <= |s| && s[i..i + |pat|] == pat
  }

  /** `s.find(pat, from)`, with `None` for Python's -1. */
  function Find(s: string, pat: string, from: nat): (r: Option<nat>)
    ensures r.Some? ==> from <= r.value && OccursAt(s, pat, r.value)
    ensures forall j :: from <= j && (r.None? || j < r.value) ==> !OccursAt(s, pat, j)
    decreases |s| - from
  {
    if from + |pat| > |s| then None
    else if OccursAt(s, pat, from) then Some(from)
    else Find(s, pat, from + 1)
  }

  /** `Find` returns the first occurrence at or after `from`, whichever index that is. */
  lemma FindIs(s: string, pat: string, from: nat, k: nat)
    requires from <= k && OccursAt(s, pat, k)
    requires forall j :: from <= j < k ==> !OccursAt(s, pat, j)
    ensures Find(s, pat, from) == Some(k)
  {
    var r := Find(s, pat, from);
    assert r == Some(k);
  }

  /** An occurrence in `b` at `j` is one in `a + b` at `|a| + j`, and conversely. */
  lemma OccursAtShift(a: string, b: string, pat: string, j: nat)
    ensures OccursAt(a + b, pat, |a| + j) <==> OccursAt(b, pat, j)
  {
    if j + |pat| <= |b| {
      assert (a + b)[|a| + j..|a| + j + |pat|] == b[j..j + |pat|];
    }
  }

  /** `pat in s`. */
  predicate Contains(s: string, pat: string) {
    Find(s, pat, 0).Some?
  }

  /** `s.split(sep)[0]`: everything before the first separator. */
  function SplitFirst(s: string, sep: string): (r: string)
    requires |sep| > 0
  {
    match Find(s, sep, 0)
    case Some(i) => s[..i]
    case None => s
  }

  /** Splitting at a single character: the first field holds no such character and is followed by it. */
  lemma SplitFirstChar(s: string, c: char)
    requires c in s
    ensures Contains(s, [c])
    ensures c !in SplitFirst(s, [c]) && StartsWith(s, SplitFirst(s, [c]) + [c])
  {
    var i :| 0 <= i < |s| && s[i] == c;
    assert s[i..i + 1] == [c];
    assert OccursAt(s, [c], i);
    var k := Find(s, [c], 0).value;
    forall j | 0 <= j < k ensures s[j] != c {
      assert s[j..j + 1] == [s[j]];
      assert !OccursAt(s, [c], j);
    }
    assert s[k..k + 1] == [c];
    assert s[..k + 1] == s[..k] + [c];
  }

  /** `s.split(sep)[1]`: the text between the first and the second separator (or the end). */
  function SplitSecond(s: string, sep: string): (r: string)
    requires |sep| > 0 && Contains(s, sep)
  {
    var start := Find(s, sep, 0).value + |sep|;
    match Find(s, sep, start)
    case Some(j) => s[start..j]
    case None => s[start..]
  }

  /** A text that starts with `sep` and has no other occurrence of it splits into `sep` and the rest. */
  lemma SplitSecondAfterSeparator(sep: string, rest: string)
    requires |sep| > 0 && !Contains(rest, sep)
    ensures Contains(sep + rest, sep) && SplitSecond(sep + rest, sep) == rest
  {
    var t := sep + rest;
    assert t[..|sep|] == sep;
    FindIs(t, sep, 0, 0);
    forall j: nat | |sep| <= j ensures !OccursAt(t, sep, j) {
      OccursAtShift(sep, rest, sep, j - |sep|);
    }
    assert t[|sep|..] == rest;
  }

  /** `sep.join(parts)`. */
  function Join(parts: seq<string>, sep: string): string {
    if |parts| == 0 then ""
    else if |parts| == 1 then parts[0]
    else Join(parts[..|parts| - 1], sep) + sep + parts[|parts| - 1]
  }

  /** `s.rfind(c)`: the last index of `c`, or -1. */
  function RFind(s: string, c: char): (r: int)
    ensures -1 <= r < |s|
    ensures r >= 0 ==> s[r] == c
    ensures forall j :: r < j < |s| ==> s[j] != c
  {
    if |s| == 0 then -1
    else if s[|s| - 1] == c then |s| - 1
    else RFind(s[..|s| - 1], c)
  }

  /**
   * `os.path.splitext(p)[1]` on POSIX: from the last '.' of the final path component, provided
   * that component has a character other than '.' before it (so ".png" has no extension).
   */
  function Extension(p: string): (ext: string)
    ensures ext == "" || (ext[0] == '.' && EndsWith(p, ext) && '.' !in ext[1..] && '/' !in ext)
  {
    var sepIndex := RFind(p, '/');
    var dotIndex := RFind(p, '.');
    if dotIndex > sepIndex && exists k :: sepIndex + 1 <= k < dotIndex && p[k] != '.'
    then p[dotIndex..]
    else ""
  }

  /**
   * The extension of `stem + e` is `e` when `e` is a dot followed by neither a dot nor a slash and
   * the stem ends in an ordinary character.
   */
  lemma ExtensionOfStem(stem: string, e: string)
    requires |stem| > 0 && stem[|stem| - 1] != '/' && stem[|stem| - 1] != '.'
    requires |e| > 0 && e[0] == '.' && '.' !in e[1..] && '/' !in e
    ensures Extension(stem + e) == e
  {
    var p := stem + e;
    var dotIndex := RFind(p, '.');
    var sepIndex := RFind(p, '/');
    assert p[|stem|] == '.';
    forall j | |stem| < j < |p| ensures p[j] != '.' {
      assert p[j] == e[1..][j - |stem| - 1];
    }
    assert dotIndex == |stem|;
    assert p[|stem| - 1] != '/';
    forall j | |stem| - 1 <= j < |p| ensures p[j] != '/' {
      if j >= |stem| { assert p[j] == e[j - |stem|]; }
    }
    assert sepIndex < |stem| - 1;
    assert p[|stem| - 1] != '.';
    assert p[dotIndex..] == e;
  }

  /** `os.path.basename(p)`: the text after the last '/'. */
  function Basename(p: string): (r: string)
    ensures '/' !in r && EndsWith(p, r)
  {
    p[RFind(p, '/') + 1..]
  }
}

=== FILE: workflow_utils.dfy ===
/**
 * The helpers of the receipt workflow: the content type chosen from a blob's extension, the
 * cleaning of a numeric string before it is parsed, and the file-system-safe blob name.
 */
module WorkflowUtils {
  import opened Wrappers
  import opened Text

  /** The content type for a lower-cased extension. */
  function ContentTypeFor(ext: string): (ct: string)
    ensures ct in {"image/png", "application/pdf", "image/jpeg"}
    ensures ct == "image/png" <==> ext == ".png"
    ensures ct == "application/pdf" <==> ext == ".pdf"
  {
    if ext == ".png" then "image/png"
    else if ext == ".pdf" then "application/pdf"
    else "image/jpeg"
  }

  /** `resolve_content_type`: the content type for the extension of the lower-cased name. */
  function ResolveContentType(blobName: string): string {
    ContentTypeFor(Extension(Lower(blobName)))
  }

  lemma LowerConcat(a: string, b: string)
    ensures Lower(a + b) == Lower(a) + Lower(b)
  {
    assert forall i :: 0 <= i < |a + b| ==> Lower(a + b)[i] == (Lower(a) + Lower(b))[i];
  }

  /**
   * A name made of an ordinary stem and an extension gets the content type of that extension,
   * whatever its case: "scan.PNG" is "image/png", "scan.Pdf" is "application/pdf".
   */
  lemma ResolveContentTypeOfName(stem: string, ext: string)
    requires |stem| > 0 && stem[|stem| - 1] != '/' && stem[|stem| - 1] != '.'
    requires |ext| > 0 && ext[0] == '.' && '.' !in ext[1..] && '/' !in ext
    ensures ResolveContentType(stem + ext) == ContentTypeFor(Lower(ext))
  {
    LowerConcat(stem, ext);
    var ls, le := Lower(stem), Lower(ext);
    assert ls[|ls| - 1] == LowerChar(stem[|stem| - 1]);
    forall j | 1 <= j < |le| ensures le[j] != '.' && le[j] != '/' {
      assert ext[j] == ext[1..][j - 1];
    }
    forall j | 0 <= j < |le| ensures le[j] != '/' {
      assert ext[j] != '/';
    }
    ExtensionOfStem(ls, le);
  }

  /** A name whose only '.' leads it and that has no '/' has no extension. */
  lemma OnlyLeadingDot(p: string)
    requires |p| > 0 && p[0] == '.' && '.' !in p[1..] && '/' !in p
    ensures Extension(p) == ""
  {
    forall j | 1 <= j < |p| ensures p[j] != '.' {
      assert p[j] == p[1..][j - 1];
    }
    assert RFind(p, '.') == 0;
    assert RFind(p, '/') == -1;
  }

  /** A name that is all extension, such as ".png", has none, so it maps to "image/jpeg". */
  lemma DotNameIsJpeg()
    ensures ResolveContentType(".png") == "image/jpeg"
    ensures ResolveContentType(".pdf") == "image/jpeg"
  {
    assert Lower(".png") == ".png";
    assert Lower(".pdf") == ".pdf";
    OnlyLeadingDot(".png");
    OnlyLeadingDot(".pdf");
  }

  /** `text.replace("$", "").replace("€", "").replace("£", "")`. */
  function StripCurrency(text: string): (r: string)
    ensures '$' !in r && '€' !in r && '£' !in r
  {
    RemoveChar(RemoveChar(RemoveChar(text, '$'), '€'), '£')
  }

  /** Any other character survives the removal of the currency symbols. */
  lemma StripCurrencyKeeps(text: string, x: char)
    requires x in text && x != '$' && x != '€' && x != '£'
    ensures x in StripCurrency(text)
  {
    RemoveCharKeeps(text, '$', x);
    RemoveCharKeeps(RemoveChar(text, '$'), '€', x);
    RemoveCharKeeps(RemoveChar(RemoveChar(text, '$'), '€'), '£', x);
  }

  /**
   * The string `extract_numeric_value` hands to `float`: the currency symbols removed, whitespace
   * stripped, and every ',' turned into '.'.
   */
  function CleanNumber(text: string): (cleaned: string)
    ensures '$' !in cleaned && '€' !in cleaned && '£' !in cleaned && ',' !in cleaned
  {
    ReplaceChar(Strip(StripCurrency(text)), ',', '.')
  }

  /**
   * `extract_numeric_value`: `None` for a missing or empty text, otherwise what `parse` (Python's
   * `float`, with `None` for a `ValueError`) makes of the cleaned text.
   */
  function ExtractNumericValue(text: Option<string>, parse: string -> Option<real>): (v: Option<real>)
    ensures text.None? || text.value == "" ==> v.None?
    ensures text.Some? && text.value != "" ==> v == parse(CleanNumber(text.value))
  {
    if text.None? || text.value == "" then None else parse(CleanNumber(text.value))
  }

  /** A string with two '.' characters, which no `float` literal has. */
  predicate TwoDots(s: string) {
    exists i, j :: 0 <= i < j < |s| && s[i] == '.' && s[j] == '.'
  }

  /** Both ',' and '.' survive the removal of currency symbols and the stripping. */
  lemma CleanKeepsCommaAndDot(text: string)
    requires ',' in text && '.' in text
    ensures ',' in Strip(StripCurrency(text)) && '.' in Strip(StripCurrency(text))
  {
    var t := StripCurrency(text);
    StripCurrencyKeeps(text, ',');
    StripCurrencyKeeps(text, '.');
    var i :| 0 <= i < |t| && t[i] == ',';
    var j :| 0 <= j < |t| && t[j] == '.';
    StripKeeps(t, i);
    StripKeeps(t, j);
  }

  /** Turning every ',' into '.' in a text that has both leaves two dots. */
  lemma ReplaceCommaTwoDots(s: string)
    requires ',' in s && '.' in s
    ensures TwoDots(ReplaceChar(s, ',', '.'))
  {
    var a :| 0 <= a < |s| && s[a] == ',';
    var b :| 0 <= b < |s| && s[b] == '.';
    var c := ReplaceChar(s, ',', '.');
    assert c[a] == '.' && c[b] == '.';
    if a < b {
      assert TwoDots(c);
    } else {
      assert TwoDots(c);
    }
  }

  /**
   * A comma is read as a decimal point, so a number written with a thousands separator, such as
   * "1,234.56", gives `None`.
   */
  lemma ThousandsSeparatorRejected(text: string, parse: string -> Option<real>)
    requires ',' in text && '.' in text
    requires forall s :: TwoDots(s) ==> parse(s).None?
    ensures ExtractNumericValue(Some(text), parse).None?
  {
    CleanKeepsCommaAndDot(text);
    ReplaceCommaTwoDots(Strip(StripCurrency(text)));
  }

  /** `safe_filename`: '/', '\\' and ':' each become '_'. */
  function SafeFilename(value: string): (r: string)
    ensures |r| == |value|
    ensures '/' !in r && '\\' !in r && ':' !in r
    ensures forall i :: 0 <= i < |value| && value[i] != '/' && value[i] != '\\' && value[i] != ':' ==> r[i] == value[i]
  {
    ReplaceChar(ReplaceChar(ReplaceChar(value, '/', '_'), '\\', '_'), ':', '_')
  }

  /** A name that has none of the three characters is already safe. */
  lemma SafeFilenameIdentity(value: string)
    requires '/' !in value && '\\' !in value && ':' !in value
    ensures SafeFilename(value) == value
  {
    var r := SafeFilename(value);
    assert forall i :: 0 <= i < |value| ==> r[i] == value[i];
  }

  lemma SafeFilenameIdempotent(value: string)
    ensures SafeFilename(SafeFilename(value)) == SafeFilename(value)
  {
    SafeFilenameIdentity(SafeFilename(value));
  }
}

=== FILE: wrappers.dfy ===
/** Optional values, standing for Python's `None` and for a missing dictionary key. */
module Wrappers {

  datatype Option<+T> = None | Some(value: T) {

    /** The value when there is one, `default` otherwise (Python's `x if x is not None else default`). */
    function GetOr(default: T): T {
      match this
      case Some(v) => v
      case None => default
    }
  }
}
